=== FILE: README.md ===
# DropSpott allocator and client logic in Dafny

DropSpott sells limited-stock "drops". Users join a drop's waitlist. Each entry gets a priority score, and the waitlist is ranked by that score. Once the drop's claim window opens, users collect one-time claim codes in rank order, until the stock runs out. This project models that core as pure functions over an in-memory store and proves its invariants:

- positions stay 1..N on both the join path (full recalculation) and the leave path (shift-down);
- a drop never has more codes than stock;
- a user holds at most one code per drop;
- codes are issued in turn.

It also models the pure decision logic around that core:

- the error-to-HTTP mapping;
- the admin create/update/delete endpoints;
- the AI description endpoint (the language-model call excluded);
- the seed-derived score coefficients;
- on the client: the pagination row, the countdown, the drop status badge, the two state stores' reducers and the registration form's password checks.

Timestamps are integers in milliseconds. Stores are immutable values. An endpoint that runs in one database transaction is one function from the store before to the store after, or to the error it throws. Effects the model cannot see become parameters:

- random bytes are a sequence of draws;
- the clock is `now`;
- a new database id is `newId`;
- a date parse is `DateInput.time`;
- an HTTP answer is a `Reply`;
- the language model's answer is a `Completion`.

Modules follow the source files:

- `Records`: the entities.
- `DropHelpers`, `Ranking`, `PriorityScore`, `SeedGenerator`, `Hex`: the backend utilities.
- `DropsController`, `AdminController`, `AiController`: the endpoints.
- `ApiErrorHandler` and `DropsErrorResponses`: the error mapping and the drop endpoints' error answers.
- `Pagination`, `CountdownTimer`, `DropsPage`, `AdminStore`, `DropsStore`, `StoreRequests`, `RegisterForm`: the client.
- `JsNumbers` and `JsStrings`: the JavaScript built-ins these rely on, namely the truncating `%`, `trim` and `padStart`.

## Model

| member | source | states |
|---|---|---|
| JsNumbers.JsRem | backend/src/utils/priorityScore.ts:70-73 | JavaScript `%`: the result has the dividend's sign and magnitude below the divisor, and completes truncating division |
| JsNumbers.JsRemPeriodic | backend/src/utils/priorityScore.ts:65-69 | adding the divisor to a non-negative dividend leaves the remainder unchanged |
| JsNumbers.JsRemOfNonNegative | backend/src/utils/priorityScore.ts:70-73 | on a non-negative dividend JavaScript's remainder equals the Euclidean one |
| JsStrings.Trim | backend/src/controllers/aiController.ts:21 | `trim` cuts a white-space prefix and suffix and leaves no white space at either end |
| JsStrings.TrimEmptyIffBlank | backend/src/controllers/aiController.ts:21 | a string trims to empty exactly when it is all white space |
| JsStrings.DecimalRoundTrip | frontend/components/CountdownTimer.tsx:103 | `toString` on a non-negative integer reads back as the same number |
| JsStrings.DecimalLength | frontend/components/CountdownTimer.tsx:103 | 0-9 print as one digit, 10-99 as two, larger values as three or more |
| JsStrings.PadStart | frontend/components/CountdownTimer.tsx:103 | `padStart` pads to the width with the filler on the left and never truncates |
| Hex.ByteToHex | backend/src/utils/dropHelpers.ts:80 | a byte becomes two upper-case hex digits whose value is the byte |
| Hex.EncodeUpper | backend/src/utils/dropHelpers.ts:80 | `toString('hex').toUpperCase()` gives two upper-case hex digits per byte |
| Hex.DecodeEncode | backend/src/utils/dropHelpers.ts:80 | decoding the hex text gives back the bytes |
| Hex.EncodeInjective | backend/src/utils/dropHelpers.ts:79-85 | distinct draws give distinct code texts |
| SeedGenerator.ParseHexPair | backend/src/utils/seedGenerator.ts:48-50 | a two-digit hex parse lies in 0..255 and its digits are its nibbles |
| SeedGenerator.GenerateSeed | backend/src/utils/seedGenerator.ts:23-33 | the seed is the first 12 hex digits of the digest |
| SeedGenerator.CalculateCoefficients | backend/src/utils/seedGenerator.ts:47-53 | A in 7..11, B in 13..19, C in 3..5, each from its two-digit slice of the seed |
| SeedGenerator.CoefficientsDependOnPrefix | backend/src/utils/seedGenerator.ts:47-53 | seeds that share their first six characters give equal coefficients |
| SeedGenerator.GetSeedConfig | backend/src/utils/seedGenerator.ts:58-66 | the config pairs the 12-character seed with the coefficients computed from that seed |
| DropHelpers.WindowPhases | backend/src/utils/dropHelpers.ts:52-67 | open and closed never hold together; neither holds exactly before the start; the end instant is open |
| DropHelpers.FindDropById | backend/src/utils/dropHelpers.ts:14-28 | finds the first drop with the id, or fails NOT_FOUND exactly when there is none |
| DropHelpers.FindWaitlistEntry | backend/src/utils/dropHelpers.ts:33-47 | finds the user's entry for the drop, or none exactly when there is none |
| DropHelpers.FindClaimCode | backend/src/controllers/dropsController.ts:315-320 | finds the first code the user holds for the drop, or none exactly when there is none |
| DropHelpers.RequireAuth | backend/src/utils/dropHelpers.ts:117-121 | an absent or empty user id fails UNAUTHORIZED, any other passes |
| DropHelpers.GenerateUniqueClaimCode | backend/src/utils/dropHelpers.ts:72-88 | the code is 16 upper-case hex characters, unused by any stored code, and is the first free draw |
| DropHelpers.ClaimCodeDecodes | backend/src/utils/dropHelpers.ts:80 | the code decodes back to one of the drawn byte strings |
| Ranking.Recalculate | backend/src/utils/dropHelpers.ts:93-112 | only the position field changes, and only for entries of that drop; no entry is added or removed |
| Ranking.AheadIsStrictTotal | backend/src/utils/dropHelpers.ts:99-102 | the score-then-time order, with ties broken by storage order, is a strict total order |
| Ranking.RankInRange | backend/src/utils/dropHelpers.ts:106-110 | each entry's rank lies in 1..N |
| Ranking.RankOrderIsAhead | backend/src/utils/dropHelpers.ts:99-102 | a smaller rank holds exactly for an entry ordered ahead; distinct entries get distinct ranks |
| Ranking.RanksAgree | backend/src/utils/dropHelpers.ts:97-103 | ranking reads only drop ids, scores and creation times |
| Ranking.RecalculateIsCanonical | backend/src/utils/dropHelpers.ts:97-111 | every entry of the drop ends at its rank among the drop's entries |
| Ranking.AppendKeepsCanonical | backend/src/controllers/dropsController.ts:131-143 | adding an entry of another drop leaves this drop's ranking intact |
| Ranking.PositionIsRank | backend/src/utils/dropHelpers.ts:106-110 | in a dense, ordered drop with distinct keys, each position is the entry's rank |
| Ranking.RecalculateDenseAndOrdered | backend/src/utils/dropHelpers.ts:97-111 | after recalculation the positions are a permutation of 1..N in key order |
| Ranking.CanonicalIsDenseAndOrdered | backend/src/utils/dropHelpers.ts:99-110 | the positions recalculation writes are dense, ordered by key, and by storage order on equal keys |
| Ranking.RecalculateIdempotent | backend/src/utils/dropHelpers.ts:97-111 | a second recalculation changes nothing |
| Ranking.DenseOrderedIsCanonical | backend/src/utils/dropHelpers.ts:97-111 | with distinct keys, a dense ordered drop is a fixed point of recalculation |
| Ranking.RecalculateFramesOtherDrops | backend/src/utils/dropHelpers.ts:97-98 | recalculating one drop leaves other drops' positions as they were |
| Ranking.ShiftDown | backend/src/controllers/dropsController.ts:265-269 | positions above the removed one drop by one within the drop; nothing else changes |
| Ranking.LeaveAt | backend/src/controllers/dropsController.ts:253-269 | the leave update removes exactly the entry at that index; every survivor keeps its order and fields, and only the same drop's entries behind it move up one place |
| Ranking.LeaveKeepsCanonical | backend/src/controllers/dropsController.ts:253-269 | the shift-down gives exactly what recalculating the smaller table would give |
| Ranking.LeaveKeepsDense | backend/src/controllers/dropsController.ts:253-269 | dense 1..N becomes dense 1..N-1 |
| Ranking.LeaveKeepsOrdered | backend/src/controllers/dropsController.ts:253-269 | the shift-down keeps the drop in key order |
| PriorityScore.RecentJoinsCountsRows | backend/src/utils/priorityScore.ts:38-47 | the join count is the number of the user's entries since the cut-off, across all drops |
| PriorityScore.RecentClaimsCountsRows | backend/src/utils/priorityScore.ts:49-56 | the claim count is the number of the user's codes since the cut-off, across all drops |
| PriorityScore.AccountAgeDays | backend/src/utils/priorityScore.ts:34-35 | `Math.floor` of the age in days, also for negative ages |
| PriorityScore.Score | backend/src/utils/priorityScore.ts:70-73 | the score lies between 1000 minus the three coefficient spans and 1000 + (A-1) + (B-1); non-negative latency and age give at least 1000 - (C-1) |
| PriorityScore.RapidPenaltyIsPeriodic | backend/src/utils/priorityScore.ts:65-69 | C more rapid actions cost nothing more, and a multiple of C costs nothing |
| PriorityScore.LatencyTermIsCyclic | backend/src/utils/priorityScore.ts:70-73 | within one cycle of A ms a later join scores higher, and a full cycle later scores the same |
| PriorityScore.CalculatePriorityScore | backend/src/utils/priorityScore.ts:10-76 | "User not found" first, then "Drop not found"; otherwise the score of the drop that the lookup by id finds, from the counted actions, in range |
| PriorityScore.ScoreRangeForSeedCoefficients | backend/src/utils/priorityScore.ts:70-73 | with seed-derived coefficients every score lies in 968..1028 |
| DropsController.ClaimCountIsCardinality | backend/src/controllers/dropsController.ts:337-339 | the claim count is the number of stored codes of the drop |
| DropsController.EmptyStoreIsValid | backend/src/controllers/dropsController.ts:95-387 | the empty database satisfies the invariant |
| DropsController.ValidPositionsAreDense | backend/src/controllers/dropsController.ts:131-151 | in a valid store each drop's positions run 1..N in key order |
| DropsController.Join | backend/src/controllers/dropsController.ts:95-158 | UNAUTHORIZED, then FORBIDDEN for admins, then NOT_FOUND, then CLAIM_WINDOW_CLOSED only after the end. Past those checks, an existing entry is always returned unchanged. Otherwise a known user always gets exactly one entry appended, and the table becomes the drop's recalculation with that entry, so other rows keep everything but their rank. An unknown user gets USER_NOT_FOUND. No other error is possible |
| DropsController.JoinIsIdempotent | backend/src/controllers/dropsController.ts:122-129 | a second join at any time before the window ends returns the same entry and changes nothing |
| DropsController.JoinKeepsUniqueEntries | backend/src/controllers/dropsController.ts:131-143 | a join never adds a second entry for a user and drop |
| DropsController.JoinPreservesValid | backend/src/controllers/dropsController.ts:131-151 | every successful join keeps the invariant |
| DropsController.GetWaitlistStatus | backend/src/controllers/dropsController.ts:181-206 | reports the caller's entry and code exactly when they exist; the drop need not exist |
| DropsController.Leave | backend/src/controllers/dropsController.ts:221-278 | off the list is a no-op success; a code holder fails HAS_CLAIM_CODE; otherwise the table becomes the leave update of the caller's own entry: removed, with the drop's entries behind it shifted down |
| DropsController.LeavePreservesValid | backend/src/controllers/dropsController.ts:253-269 | every successful leave keeps the invariant and takes the user off the list |
| DropsController.EntryOf | backend/src/controllers/dropsController.ts:330 | the caller's own entry exactly when one exists |
| DropsController.Claim | backend/src/controllers/dropsController.ts:294-375 | window check, then the existing code is returned, then NOT_ON_WAITLIST, STOCK_EXHAUSTED, POSITION_TOO_HIGH, NOT_YOUR_TURN in that order. A waitlisted user whose position is the next one to serve, while stock remains, always gets exactly one fresh code |
| DropsController.PositionCheckIsSubsumed | backend/src/controllers/dropsController.ts:346-354 | whenever POSITION_TOO_HIGH fires, the turn check would fail too |
| DropsController.ClaimIsIdempotent | backend/src/controllers/dropsController.ts:314-327 | claiming again returns the same code and changes nothing |
| DropsController.IssueCodeKeepsValid | backend/src/controllers/dropsController.ts:356-364 | issuing a fresh code within stock to a waitlisted user without one keeps the invariant |
| DropsController.IssueCodeKeepsStock | backend/src/controllers/dropsController.ts:341-344 | codes per drop never exceed stock |
| DropsController.ClaimPreservesValid | backend/src/controllers/dropsController.ts:306-370 | every successful claim keeps the invariant |
| DropsController.IssueCodeKeepsClaimsFollowRank | backend/src/controllers/dropsController.ts:351-364 | the k-th code goes to position k: code holders are positions 1..C |
| DropsController.ClaimKeepsClaimsFollowRank | backend/src/controllers/dropsController.ts:351-364 | a claim keeps code holders on positions 1..C |
| DropsController.LeaveKeepsClaimsFollowRank | backend/src/controllers/dropsController.ts:241-269 | a leave never disturbs the served prefix |
| DropsController.JoinCanOvertakeServedUsers | backend/src/controllers/dropsController.ts:117-143 | a join during the window can rank a newcomer ahead of a served user, breaking the served prefix |
| DropsController.StalledStoreIssuesNoCode | backend/src/controllers/dropsController.ts:351-354 | after such a join no claim can issue a new code |
| DropsController.ActiveDrops | backend/src/controllers/dropsController.ts:37-53 | the listing keeps exactly the drops whose window ends after now |
| DropsController.ListingVersusClaimWindow | backend/src/controllers/dropsController.ts:40-41 | a listed drop is never closed, yet at the end instant a claimable drop has left the listing |
| DropsController.OrDefault | backend/src/controllers/dropsController.ts:33-34 | `parseInt(q) \|\| d`: a missing, unparsable or zero value falls back |
| DropsController.CeilDiv | backend/src/controllers/dropsController.ts:67 | `Math.ceil(total / limit)` |
| DropsController.ListingMeta | backend/src/controllers/dropsController.ts:33-79 | page and limit default to 1 and 10; hasPrevPage iff page > 1; hasNextPage iff more items follow the page |
| DropsController.HasNextMeansMoreItems | backend/src/controllers/dropsController.ts:67-77 | `page < totalPages` holds exactly when items remain past the page |
| DropsController.Skip | backend/src/controllers/dropsController.ts:35 | the items before the requested page |
| ApiErrorHandler.ErrorCode | backend/src/utils/apiErrorHandler.ts:86 | the message, or UNKNOWN_ERROR for an empty one |
| ApiErrorHandler.ResolveStatus | backend/src/utils/apiErrorHandler.ts:87 | the table's status, else the error's own non-zero status, else 500 |
| ApiErrorHandler.MessagePrecedence | backend/src/utils/apiErrorHandler.ts:84-88 | endpoint text beats the fixed table, the table beats the raw message, the raw message beats the fallback |
| ApiErrorHandler.EmptyCustomTextDefersToMessage | backend/src/utils/apiErrorHandler.ts:88 | an empty endpoint text defers to the raw message |
| ApiErrorHandler.HandleError | backend/src/utils/apiErrorHandler.ts:69-133 | a unique violation whose handler found the record answers 200 ALREADY_EXISTS with it; otherwise the resolved status with `{message, code}` |
| ApiErrorHandler.DomainCodesAre400 | backend/src/utils/apiErrorHandler.ts:15-20 | the six claim-flow codes answer 400 |
| ApiErrorHandler.UnmappedCodesFallBack | backend/src/utils/apiErrorHandler.ts:87 | a code the table lacks takes the error's status, or 500 |
| ApiErrorHandler.UnmappedFailuresAre500 | backend/src/utils/apiErrorHandler.ts:9-21 | HAS_CLAIM_CODE, "User not found", "Drop not found" and an empty message answer 500 |
| ApiErrorHandler.HandlerMissFallsThrough | backend/src/utils/apiErrorHandler.ts:96-112 | a handler that finds nothing or throws changes nothing |
| ApiErrorHandler.ResponseCodeIsMessage | backend/src/utils/apiErrorHandler.ts:113-116 | the body's code is the message, or UNKNOWN_ERROR |
| DropsErrorResponses.Thrown | backend/src/controllers/dropsController.ts:119 | a domain failure is thrown as a message without status or database code |
| DropsErrorResponses.JoinLookup | backend/src/controllers/dropsController.ts:161-164 | the join handler finds a record exactly when the user has an entry for the drop |
| DropsErrorResponses.ClaimLookup | backend/src/utils/apiErrorHandler.ts:147-161 | the claim handler finds a record exactly when the user holds a code for the drop |
| DropsErrorResponses.JoinFailureResponse | backend/src/controllers/dropsController.ts:107-112 | admins get 403 with the endpoint's text; every other failure goes through the handler |
| DropsErrorResponses.ClaimErrorResponse | backend/src/controllers/dropsController.ts:376-386 | a transaction conflict is 409 TRANSACTION_CONFLICT; anything else goes through the claim handler |
| DropsErrorResponses.ClaimFailuresAreClientErrors | backend/src/utils/apiErrorHandler.ts:139-174 | every claim refusal is 401, 404 with "Drop bulunamadı." or 400 with the table's text |
| DropsErrorResponses.LeaveWithCodeAnswers500 | backend/src/controllers/dropsController.ts:279-288 | a code holder asking to leave gets the endpoint's text with status 500 |
| DropsErrorResponses.HasClaimCodeResponse | backend/src/controllers/dropsController.ts:279-288 | a thrown HAS_CLAIM_CODE under the leave handler's options is answered 500 with the leave text and the code itself |
| DropsErrorResponses.JoinRaceReturnsExistingEntry | backend/src/controllers/dropsController.ts:159-175 | a join that loses a unique race answers 200 with the winning entry; with no entry it answers the resolved status, which is 500 for an error with no status of its own and a message outside the status table, as a database error is |
| DropsErrorResponses.ClaimRaceReturnsExistingCode | backend/src/utils/apiErrorHandler.ts:91-103 | a claim that loses a unique race answers 200 with the held code; a conflict is always 409 |
| AdminController.DropIndex | backend/src/controllers/adminController.ts:163-169 | the index of the first drop with the id, none exactly when absent |
| AdminController.DropIndexAgreesWithLookup | backend/src/controllers/adminController.ts:163-169 | the position update uses holds the drop that the lookup by id finds |
| AdminController.CreateRejection | backend/src/controllers/adminController.ts:30-55 | accepted exactly when title, stock and both dates are present, stock >= 0, both dates parse and start < end |
| AdminController.NewDrop | backend/src/controllers/adminController.ts:91-100 | the new drop carries the given fields, the fresh id and a window with start < end |
| AdminController.FindSameDrop | backend/src/controllers/adminController.ts:60-66 | the first stored drop with that title and window, none exactly when absent |
| AdminController.CreateDrop | backend/src/controllers/adminController.ts:23-114 | 400 on a rejection; 200 with the first stored drop of the same title and window; 500 when the new id is already taken; otherwise 201 and exactly one drop added |
| AdminController.CreateIsIdempotent | backend/src/controllers/adminController.ts:60-89 | repeating a create returns the stored drop with 200 and adds nothing |
| AdminController.CreateAcceptsZeroStock | backend/src/controllers/adminController.ts:30-34 | stock 0 is accepted and an empty title is not |
| AdminController.UpdateRejection | backend/src/controllers/adminController.ts:126-157 | rejects a negative stock, an unparsable date, and start >= end only when both dates are sent |
| AdminController.ApplyUpdate | backend/src/controllers/adminController.ts:172-177 | each supplied field replaces the stored one; the others and the id stay |
| AdminController.HasChangesIffUpdateDiffers | backend/src/controllers/adminController.ts:180-195 | the no-change return happens exactly when applying the update would change nothing |
| AdminController.ApplyUpdateIsIdempotent | backend/src/controllers/adminController.ts:172-195 | applying an update twice is applying it once, and leaves nothing to change |
| AdminController.UpdateDrop | backend/src/controllers/adminController.ts:117-216 | 400 before lookup, 404 for a missing id with no change, otherwise 200 with only that drop updated |
| AdminController.UpdateIsIdempotent | backend/src/controllers/adminController.ts:180-195 | resending an accepted update answers the same drop and changes nothing |
| AdminController.UpdateCanInvertWindow | backend/src/controllers/adminController.ts:153-157 | moving only the start past the stored end is accepted and stores an inverted window |
| AdminController.UpdateCanUndercutIssuedCodes | backend/src/controllers/adminController.ts:126-131 | lowering stock below the codes already issued is accepted and breaks the stock bound |
| AdminController.Keep | backend/src/controllers/adminController.ts:240-244 | keeps only elements that pass, and every passing element |
| AdminController.KeepCounts | backend/src/controllers/adminController.ts:240-244 | each passing element is kept exactly as often as it occurs |
| AdminController.KeepOfConcat | backend/src/controllers/adminController.ts:240-244 | filtering a concatenation filters each part, so order is kept |
| AdminController.DeleteDrop | backend/src/controllers/adminController.ts:219-262 | always 200; a missing drop changes nothing; otherwise the drop, its entries and its codes go, and every other row stays with its multiplicity |
| AdminController.DeleteIsIdempotent | backend/src/controllers/adminController.ts:228-252 | a second delete changes nothing |
| AdminController.DeleteOfAbsentDropKeepsStore | backend/src/controllers/adminController.ts:234-236 | deleting an absent drop leaves the store as it was |
| AiController.BlankTitleIsWhitespace | backend/src/controllers/aiController.ts:21-25 | a title is refused exactly when absent or all white space |
| AiController.ChoosePrompt | backend/src/controllers/aiController.ts:37-39 | the improve prompt is chosen exactly when the description is non-blank |
| AiController.PromptText | backend/src/controllers/aiController.ts:38-39 | the prompt is longer than the title it embeds |
| AiController.PromptCarriesInputs | backend/src/controllers/aiController.ts:38-39 | the prompt contains the title, and the description when improving |
| AiController.SentPrompt | backend/src/controllers/aiController.ts:21-46 | a prompt is sent exactly when the title is not blank and a key is configured |
| AiController.Truncate | backend/src/controllers/aiController.ts:60-62 | at most 500 characters; short texts are unchanged; long ones keep 497 characters and end in "..." |
| AiController.TruncateIsIdempotent | backend/src/controllers/aiController.ts:60-62 | cutting twice is cutting once |
| AiController.Suggestion | backend/src/controllers/aiController.ts:51 | the trimmed content, or empty without one |
| AiController.SuggestDescription | backend/src/controllers/aiController.ts:19-86 | 400 for a blank title, 500 without a key or for an empty answer, 200 with the cut suggestion, 500 with its own text for 401 and 429, and the generic failure text for any other upstream failure |
| AiController.SuggestionKeepsItsStart | backend/src/controllers/aiController.ts:51-66 | the returned description begins with the suggestion and never exceeds 500 |
| Pagination.Run | frontend/components/Pagination.tsx:43-45 | the pages lo..hi in order, empty when lo > hi |
| Pagination.Rendered | frontend/components/Pagination.tsx:18-20 | nothing is rendered exactly when there is at most one page |
| Pagination.FewPagesAreAllListed | frontend/components/Pagination.tsx:26-30 | up to five pages are listed as 1..total |
| Pagination.ManyPagesFrameTheRow | frontend/components/Pagination.tsx:33-52 | the row starts at 1, ends at total, and the middle run is max(2, cur-1)..min(total-1, cur+1) |
| Pagination.EllipsisPlacement | frontend/components/Pagination.tsx:35-49 | a leading ellipsis iff cur > 3, a trailing one iff cur < total-2 |
| Pagination.RowIsWellFormed | frontend/components/Pagination.tsx:22-56 | numbers strictly increase within 1..total, at most 7 items, and exactly one is active |
| Pagination.PrevButton | frontend/components/Pagination.tsx:61-63 | asks for cur-1, disabled exactly without a previous page |
| Pagination.NextButton | frontend/components/Pagination.tsx:106-108 | asks for cur+1, disabled exactly without a next page |
| Pagination.NavigationStaysInRange | frontend/components/Pagination.tsx:61-108 | with the listing's metadata an enabled button never leaves 1..totalPages |
| CountdownTimer.CalculateTimeLeft | frontend/components/CountdownTimer.tsx:30-56 | onComplete is called exactly when the countdown is past |
| CountdownTimer.PastIffReached | frontend/components/CountdownTimer.tsx:34-45 | past exactly when the difference is not positive, and then all fields are 0 |
| CountdownTimer.DecompositionIsExact | frontend/components/CountdownTimer.tsx:48-54 | whole days; hours 0..23, minutes and seconds 0..59; the total is within one second below the difference |
| CountdownTimer.Pad2 | frontend/components/CountdownTimer.tsx:103 | at least two characters, all digits, and the text reads back as the value |
| CountdownTimer.Pad2Shows | frontend/components/CountdownTimer.tsx:103 | 0-9 get a leading zero, 10-99 stay two digits, larger values keep all digits |
| CountdownTimer.Display | frontend/components/CountdownTimer.tsx:100-105 | four boxes that read back as days, hours, minutes and seconds |
| CountdownTimer.TwoDaysExample | frontend/tests/components/CountdownTimer.test.tsx:205-227 | 2d 3h 15m 30s shows as 02, 03, 15, 30 |
| DropsPage.GetDropStatus | frontend/app/drops/page.tsx:55-67 | upcoming iff now < start, active iff start <= now <= end, ended otherwise; exactly one holds |
| DropsPage.ActiveIsClaimWindowOpen | frontend/app/drops/page.tsx:62-63 | the active badge agrees with the server's open-window check, and ended with its closed check |
| DropsPage.CountdownTarget | frontend/app/drops/page.tsx:156-174 | the start when upcoming, the end when active, none when ended |
| DropsPage.ListedDropsCountDown | frontend/app/drops/page.tsx:156-174 | every drop the listing returns has a countdown target ahead of now that is not past |
| DropsPage.ShowsPagination | frontend/app/drops/page.tsx:214 | the control is shown exactly when pagination data says there is more than one page |
| DropsPage.PageGuardMatchesComponent | frontend/app/drops/page.tsx:214 | the page's guard agrees with the pagination component's own early return for one page or fewer |
| StoreRequests.ErrorMessage | frontend/store/adminStore.ts:82-84 | the server's non-empty message, else the action's fallback, else the generic text without a response; never empty with a non-empty fallback |
| AdminStore.FetchDrops | frontend/store/adminStore.ts:73-87 | the list becomes the response's drops or empty; a failure keeps it and sets the error; loading ends |
| AdminStore.CreateDrop | frontend/store/adminStore.ts:89-106 | success puts the new drop in front and keeps the rest in order; failure keeps the list and sets the error |
| AdminStore.Replace | frontend/store/adminStore.ts:117 | same length; entries with the id become the update, others stay in place |
| AdminStore.Without | frontend/store/adminStore.ts:139 | keeps exactly the drops with another id |
| AdminStore.WithoutKeepsOrder | frontend/store/adminStore.ts:139 | filtering a concatenation filters each part, keeping their order |
| AdminStore.WithoutCounts | frontend/store/adminStore.ts:139 | removes every occurrence of the id and keeps every other drop as often as before |
| AdminStore.UpdateDrop | frontend/store/adminStore.ts:108-127 | success replaces exactly the entries with that id; failure keeps the list and sets the error |
| AdminStore.DeleteDrop | frontend/store/adminStore.ts:129-149 | declining returns false and changes nothing; success removes the id and returns true; failure keeps the list |
| AdminStore.DeleteRemovesOnlyThatId | frontend/store/adminStore.ts:138-140 | after a delete no drop has the id and every other drop keeps its count |
| AdminStore.UpdateAndDeleteOfOneId | frontend/store/adminStore.ts:115-140 | an update after a delete of that id changes nothing; a delete after an update equals the delete alone |
| AdminStore.ReplayedCreateListsTwice | frontend/store/adminStore.ts:96-97 | a create answered with an already listed drop, as the backend's idempotent create does, lists it twice |
| AdminStore.SetFormData | frontend/store/adminStore.ts:151-153 | the form becomes the given one and nothing else changes |
| AdminStore.UpdateFormField | frontend/store/adminStore.ts:155-159 | the named field takes the value; every other field and the rest of the state stay |
| AdminStore.FieldEditsCompose | frontend/store/adminStore.ts:155-159 | the later edit of a field wins; edits of different fields commute |
| AdminStore.ResetForm | frontend/store/adminStore.ts:161-163 | the form returns to its initial content |
| AdminStore.StartEdit | frontend/store/adminStore.ts:165-177 | the drop is edited, the form is filled from it with an empty description for none, and the create form closes |
| AdminStore.CancelEdit | frontend/store/adminStore.ts:179-184 | nothing is edited and the form is initial |
| AdminStore.CancelUndoesStartEdit | frontend/store/adminStore.ts:165-184 | start then cancel leaves a closed initial form with nothing edited |
| AdminStore.ToggleCreateForm | frontend/store/adminStore.ts:186-193 | from open: closes and resets; from closed: opens and keeps the form; nothing edited either way |
| AdminStore.ToggleTwice | frontend/store/adminStore.ts:186-193 | toggling twice restores visibility but resets the form and the edit |
| AdminStore.ClearError | frontend/store/adminStore.ts:196-198 | the error is cleared and nothing else changes |
| DropsStore.FetchActiveDrops | frontend/store/dropsStore.ts:63-78 | the listing becomes the response's or empty; a failure keeps it and sets the error; the viewed drop is untouched |
| DropsStore.FindDrop | frontend/store/dropsStore.ts:86 | the first drop with the id, none exactly when absent |
| DropsStore.FetchDrop | frontend/store/dropsStore.ts:80-107 | an unknown id clears the viewed drop and sets "Drop bulunamadı."; a found one becomes the viewed drop |
| DropsStore.JoinWaitlist | frontend/store/dropsStore.ts:109-139 | success stores the entry, adds 1 to the count iff no entry was held, keeps a missing viewed drop missing, refreshes and returns true |
| DropsStore.LeaveWaitlist | frontend/store/dropsStore.ts:141-169 | success clears the entry and sets the count to max(0, count-1), refreshes and returns true |
| DropsStore.JoinThenLeaveRestoresCount | frontend/store/dropsStore.ts:118-157 | join then leave, starting without an entry, restores the viewed drop |
| DropsStore.RepeatedJoinCountsOnce | frontend/store/dropsStore.ts:118-127 | two joins add exactly one |
| DropsStore.CountStaysNonNegative | frontend/store/dropsStore.ts:149-157 | join and leave keep a non-negative count non-negative |
| DropsStore.JoinSucceedsDespiteFailedRefresh | frontend/store/dropsStore.ts:129-131 | a join reports success even when the refresh fails, showing the refresh's error |
| DropsStore.ClaimDrop | frontend/store/dropsStore.ts:171-202 | true and the code stored exactly when the response carries one; otherwise an error and false |
| DropsStore.ClaimShowsCodeOrError | frontend/store/dropsStore.ts:179-190 | after a claim the store shows a code or an error |
| DropsStore.CheckWaitlistStatus | frontend/store/dropsStore.ts:204-227 | the reported entry, or none on any failure |
| DropsStore.CheckClaimCode | frontend/store/dropsStore.ts:229-239 | the reported code, or none on any failure |
| DropsStore.ClearError | frontend/store/dropsStore.ts:241-243 | the error is cleared and nothing else changes |
| DropsStore.ResetCurrentDrop | frontend/store/dropsStore.ts:245-247 | clears the viewed drop, the entry and the code, and keeps the listing |
| DropsStore.NoViewedDropAfterReset | frontend/store/dropsStore.ts:120-157 | with no viewed drop, a join or leave leaves none |
| RegisterForm.LivePasswordError | frontend/components/auth/RegisterForm.tsx:27-33 | the warning is shown iff a confirmation is typed and differs from the password |
| RegisterForm.Submit | frontend/components/auth/RegisterForm.tsx:35-55 | signup is called iff the passwords match and have at least 6 characters; a mismatch is reported before shortness |
| RegisterForm.Redirect | frontend/components/auth/RegisterForm.tsx:20-24 | the login page exactly after a successful signup |
| RegisterForm.SubmitDisabled | frontend/components/auth/RegisterForm.tsx:180 | enabled exactly when not loading and no warning is shown |
| RegisterForm.RedirectOnlyAfterValidSignup | frontend/components/auth/RegisterForm.tsx:20-51 | a fresh form redirects exactly when both checks pass and signup succeeds |
| RegisterForm.LiveWarningMatchesSubmit | frontend/components/auth/RegisterForm.tsx:27-42 | with a typed confirmation, the live warning shows exactly when submit refuses for a mismatch |
| RegisterForm.EnabledButtonCanBeRefused | frontend/components/auth/RegisterForm.tsx:27-47 | an enabled button can still be refused: an empty confirmation, or a matching short password |

## Left out

- Database and transactions: Prisma calls are in-memory sequences, and each `$transaction` body is one atomic step. Isolation and interleavings are not modelled. The P2002 and P2034 races appear only as their resulting answers.
- Randomness: `randomBytes(8)` is a sequence of draws. `Claim` requires that some draw is unused (`HasFreshDraw`), which stands for the generation loop terminating.
- SHA-256 in `generateSeed` is a parameter: a 64-digit hex digest.
- `SeedGenerator.CalculateCoefficients`: requires the first six seed characters to be hex digits. `parseInt`'s NaN, sign, white-space and `0x` cases are not modelled, because the generated seed never has them.
- Full ties: recalculation breaks ties on equal score and creation time by storage order. The database may return such ties in any order.
- The listing's `orderBy` and Prisma's `skip`/`take` slicing are not modelled. Only the filter and the pagination arithmetic are.
- Delete is not proved to keep the store invariant. `AdminController.UpdateCanUndercutIssuedCodes` shows that update can break it, so admin operations stand outside that invariant.
- Date parsing and formatting (`new Date`, `toISOString().slice(0, 16)`, `toLocaleString`) become parameters: `DateInput.time` and `minuteText`.
- `setInterval`/`clearInterval` timing is not modelled. `CountdownTimer.CalculateTimeLeft` is one tick.
- Lengths count characters, not UTF-16 code units. This affects `AiController.Truncate` and `RegisterForm.Submit`.
- The language-model call, the API-key environment lookup and the system prompt are left out. Their outcomes are the `Completion` and `apiKeyConfigured` inputs.
- HTTP plumbing is not modelled: Express wiring, routes, JWT and bcrypt authentication, logging, and the development-mode `stack` field.
- The handler's resource id `req.params.id || req.params.dropId || ''` is taken to be the drop id of the request.
- `DropsStore.ClaimDrop`: the catch branch for an HTTP 200 error response is left out. axios rejects only non-2xx responses by default, so that branch cannot run.
- The drops page passes a `pagination` field and `fetchActiveDrops(page, 9)` arguments that the store does not provide. `DropsPage.ShowsPagination` takes the field as an optional input.
- Presentation is not modelled: layouts, badges, progress-bar percentages (floating point), modals and the other display components.
- An update body's JSON `null` title is not distinguished from an absent one. Only `description` distinguishes the two.
- Untyped stock: the source checks only `stock === undefined` and `stock < 0`. A JSON `null`, a string or a fractional stock passes those checks, and the database write then fails with a 500. The model's stock is an integer or absent, so that path is not modelled.
- The stores' intermediate `loading: true` render is not modelled. Each asynchronous action is modelled by the state it leaves.
- Creation times: the database default fills `createdAt` at insert time, and the source never passes it. The model uses the request's `now` for new drops, entries and codes. That time feeds the ranking tie-break and the five-minute rapid-action window, so a gap between the request and the insert is not modelled.
- Native form validation: the registration inputs carry `required` and `minLength={6}`, so a browser blocks an empty or short password before `handleSubmit` runs. `RegisterForm.Submit` models `handleSubmit` on its own. `RegisterForm.EnabledButtonCanBeRefused` shows what happens when the browser's checks do not apply.

=== FILE: admin_controller.dfy ===
/**
 * The admin endpoints for drops: create (idempotent on title and claim
 * window), update (only supplied fields, idempotent when nothing
 * differs) and delete (idempotent, removing the drop's waitlist entries
 * and claim codes with it). Each endpoint runs as one atomic step on the
 * store.
 */
module AdminController {
  import opened Wrappers
  import opened Records
  import DropHelpers
  import DropsController

  /**
   * A date field of the request body: its raw text and what `new Date`
   * makes of it, `None` for an invalid date.
   */
  datatype DateInput = DateInput(raw: string, time: Option<int>)

  datatype CreateBody = CreateBody(title: Option<string>, description: Option<string>, stock: Option<int>,
                                   claimWindowStart: Option<DateInput>, claimWindowEnd: Option<DateInput>)

  /**
   * The update body. `description` distinguishes an absent field (`None`)
   * from an explicit JSON `null` (`Some(None)`), which clears it.
   */
  datatype UpdateBody = UpdateBody(title: Option<string>, description: Option<Option<string>>, stock: Option<int>,
                                   claimWindowStart: Option<DateInput>, claimWindowEnd: Option<DateInput>)

  /** The status, the `message` and the `drop` of a JSON answer. */
  datatype AdminResponse = AdminResponse(status: int, message: string, drop: Option<Drop>)

  datatype AdminResult = AdminResult(store: Store, response: AdminResponse)

  const MissingFieldsMessage: string := "title, stock, claimWindowStart ve claimWindowEnd alanları zorunludur."
  const NegativeStockMessage: string := "Stock değeri 0 veya pozitif olmalıdır."
  const InvalidDateMessage: string := "Geçersiz tarih formatı. ISO 8601 formatı kullanın."
  const InvalidStartMessage: string := "Geçersiz claimWindowStart tarih formatı."
  const InvalidEndMessage: string := "Geçersiz claimWindowEnd tarih formatı."
  const WindowOrderMessage: string := "claimWindowStart, claimWindowEnd'den önce olmalıdır."
  const ExistingDropMessage: string := "Bu drop zaten mevcut."
  const CreatedMessage: string := "Drop başarıyla oluşturuldu."
  const CreateFailedMessage: string := "Drop oluşturulurken bir hata oluştu."
  const DropNotFoundMessage: string := "Drop bulunamadı."
  const UpdatedMessage: string := "Drop başarıyla güncellendi."
  const AlreadyDeletedMessage: string := "Drop zaten mevcut değil veya silindi."
  const DeletedMessage: string := "Drop başarıyla silindi."

  /** A field JavaScript reads as truthy: present and not the empty string. */
  predicate Supplied(s: Option<string>)
  {
    s.Some? && s.value != ""
  }

  /** A date field that takes part: present with non-empty text. */
  predicate DateSupplied(d: Option<DateInput>)
  {
    d.Some? && d.value.raw != ""
  }

  /** The parsed time of a date field that takes part, `None` otherwise. */
  function SuppliedTime(d: Option<DateInput>): (t: Option<int>)
    ensures t.Some? ==> DateSupplied(d)
  {
    if DateSupplied(d) then d.value.time else None
  }

  /** The index of the first drop with the given id. */
  function DropIndex(drops: seq<Drop>, id: Id): (r: Option<nat>)
    ensures r.None? <==> !DropHelpers.HasDrop(drops, id)
    ensures r.Some? ==> r.value < |drops| && drops[r.value].id == id
    ensures r.Some? ==> forall j :: 0 <= j < r.value ==> drops[j].id != id
  {
    if |drops| == 0 then None
    else if drops[0].id == id then Some(0)
    else
      match DropIndex(drops[1..], id)
      case Some(i) =>
        assert forall j :: 1 <= j < i + 1 ==> drops[j] == drops[1..][j - 1];
        Some(i + 1)
      case None =>
        assert forall j :: 1 <= j < |drops| ==> drops[j] == drops[1..][j - 1];
        None
  }

  /**
   * The update needs the stored position of the drop, which the lookup by
   * id does not give; both stop at the same, first, drop with the id.
   */
  lemma DropIndexAgreesWithLookup(drops: seq<Drop>, id: Id)
    ensures DropIndex(drops, id).Some? <==> DropHelpers.FindDropById(drops, id).Ok?
    ensures DropIndex(drops, id).Some? ==>
              DropHelpers.FindDropById(drops, id) == Ok(drops[DropIndex(drops, id).value])
  {
    var r := DropHelpers.FindDropById(drops, id);
    if r.Ok? {
      var n := DropIndex(drops, id).value;
      var i :| 0 <= i < |drops| && drops[i] == r.value && forall j :: 0 <= j < i ==> drops[j].id != id;
      assert !(i < n) && !(n < i);
    }
  }

  // ---------------------------------------------------------------------
  // createDrop

  /** The 400 message create answers with, checked in the source's order, or `None` when the body is accepted. */
  function CreateRejection(b: CreateBody): (m: Option<string>)
    ensures m.None? <==>
              Supplied(b.title) && b.stock.Some? && b.stock.value >= 0
              && DateSupplied(b.claimWindowStart) && DateSupplied(b.claimWindowEnd)
              && b.claimWindowStart.value.time.Some? && b.claimWindowEnd.value.time.Some?
              && b.claimWindowStart.value.time.value < b.claimWindowEnd.value.time.value
    ensures m == Some(NegativeStockMessage) ==> b.stock.Some? && b.stock.value < 0
  {
    if !Supplied(b.title) || b.stock.None? || !DateSupplied(b.claimWindowStart) || !DateSupplied(b.claimWindowEnd) then
      Some(MissingFieldsMessage)
    else if b.stock.value < 0 then Some(NegativeStockMessage)
    else if b.claimWindowStart.value.time.None? || b.claimWindowEnd.value.time.None? then Some(InvalidDateMessage)
    else if b.claimWindowStart.value.time.value >= b.claimWindowEnd.value.time.value then Some(WindowOrderMessage)
    else None
  }

  /** The drop a valid create body describes, under the given id and creation time. */
  function NewDrop(b: CreateBody, id: Id, now: int): (d: Drop)
    requires CreateRejection(b).None?
    ensures d.id == id && d.title == b.title.value && d.description == b.description
    ensures d.stock == b.stock.value && d.createdAt == now
    ensures d.claimWindowStart == b.claimWindowStart.value.time.value
    ensures d.claimWindowEnd == b.claimWindowEnd.value.time.value
    ensures d.claimWindowStart < d.claimWindowEnd
  {
    Drop(id, b.title.value, b.description, b.stock.value,
         b.claimWindowStart.value.time.value, b.claimWindowEnd.value.time.value, now)
  }

  /** A stored drop with the same title and claim window. */
  predicate SameDrop(d: Drop, title: string, start: int, end: int)
  {
    d.title == title && d.claimWindowStart == start && d.claimWindowEnd == end
  }

  /** `drop.findFirst({ title, claimWindowStart, claimWindowEnd })`. */
  function FindSameDrop(drops: seq<Drop>, title: string, start: int, end: int): (r: Option<Drop>)
    ensures r.None? <==> forall i :: 0 <= i < |drops| ==> !SameDrop(drops[i], title, start, end)
    ensures r.Some? ==> r.value in drops && SameDrop(r.value, title, start, end)
    ensures r.Some? ==>
              exists i :: 0 <= i < |drops| && drops[i] == r.value
                          && forall j :: 0 <= j < i ==> !SameDrop(drops[j], title, start, end)
  {
    if |drops| == 0 then None
    else if SameDrop(drops[0], title, start, end) then Some(drops[0])
    else
      var rest := FindSameDrop(drops[1..], title, start, end);
      assert forall i :: 1 <= i < |drops| ==> drops[i] == drops[1..][i - 1];
      if rest.Some? then
        var i :| 0 <= i < |drops[1..]| && drops[1..][i] == rest.value
                 && forall j :: 0 <= j < i ==> !SameDrop(drops[1..][j], title, start, end);
        assert drops[i + 1] == rest.value;
        rest
      else rest
  }

  /**
   * `createDrop`: validation answers 400; a drop with the same title and
   * window is returned with 200; otherwise a new drop is stored with the
   * database's fresh id `newId` and answered with 201. An id the store
   * already holds is a database error, answered with 500.
   */
  function CreateDrop(st: Store, b: CreateBody, newId: Id, now: int): (r: AdminResult)
    ensures CreateRejection(b).Some? ==>
              r == AdminResult(st, AdminResponse(400, CreateRejection(b).value, None))
    ensures r.response.status != 201 ==> r.store == st
    ensures r.response.status == 200 ==>
              CreateRejection(b).None? && r.response.drop.Some? && r.response.drop.value in st.drops
              && SameDrop(r.response.drop.value, b.title.value, b.claimWindowStart.value.time.value,
                          b.claimWindowEnd.value.time.value)
    ensures r.response.status == 201 <==>
              CreateRejection(b).None?
              && FindSameDrop(st.drops, b.title.value, b.claimWindowStart.value.time.value,
                              b.claimWindowEnd.value.time.value).None?
              && !DropHelpers.HasDrop(st.drops, newId)
    ensures r.response.status == 201 ==>
              r.store == st.(drops := st.drops + [NewDrop(b, newId, now)])
              && r.response == AdminResponse(201, CreatedMessage, Some(NewDrop(b, newId, now)))
    ensures CreateRejection(b).None? ==>
              var same := FindSameDrop(st.drops, b.title.value, b.claimWindowStart.value.time.value,
                                       b.claimWindowEnd.value.time.value);
              && (same.Some? ==> r == AdminResult(st, AdminResponse(200, ExistingDropMessage, same)))
              && (same.None? && DropHelpers.HasDrop(st.drops, newId) ==>
                    r == AdminResult(st, AdminResponse(500, CreateFailedMessage, None)))
  {
    match CreateRejection(b)
    case Some(m) => AdminResult(st, AdminResponse(400, m, None))
    case None =>
      var title := b.title.value;
      var start := b.claimWindowStart.value.time.value;
      var end := b.claimWindowEnd.value.time.value;
      match FindSameDrop(st.drops, title, start, end)
      case Some(existing) => AdminResult(st, AdminResponse(200, ExistingDropMessage, Some(existing)))
      case None =>
        if DropHelpers.HasDrop(st.drops, newId) then AdminResult(st, AdminResponse(500, CreateFailedMessage, None))
        else
          var d := NewDrop(b, newId, now);
          AdminResult(st.(drops := st.drops + [d]), AdminResponse(201, CreatedMessage, Some(d)))
  }

  /**
   * Repeating a create that stored a drop returns that drop with 200 and
   * stores nothing more, whatever id the database would have offered.
   */
  lemma CreateIsIdempotent(st: Store, b: CreateBody, newId: Id, now: int, otherId: Id, later: int)
    requires CreateDrop(st, b, newId, now).response.status == 201
    ensures var st' := CreateDrop(st, b, newId, now).store;
            var again := CreateDrop(st', b, otherId, later);
            again.store == st' && again.response.status == 200
            && again.response.drop.Some? && again.response.drop.value in st'.drops
  {
    var st' := CreateDrop(st, b, newId, now).store;
    var d := NewDrop(b, newId, now);
    assert st'.drops[|st.drops|] == d;
    assert SameDrop(d, b.title.value, b.claimWindowStart.value.time.value, b.claimWindowEnd.value.time.value);
  }

  /** A stock of zero is a valid create; an empty title is not. */
  lemma CreateAcceptsZeroStock(title: string, start: DateInput, end: DateInput)
    requires title != "" && start.raw != "" && end.raw != ""
    requires start.time.Some? && end.time.Some? && start.time.value < end.time.value
    ensures CreateRejection(CreateBody(Some(title), None, Some(0), Some(start), Some(end))).None?
    ensures CreateRejection(CreateBody(Some(""), None, Some(0), Some(start), Some(end))) == Some(MissingFieldsMessage)
  {
  }

  // ---------------------------------------------------------------------
  // updateDrop

  /** The 400 message update answers with, or `None` when the body is accepted. */
  function UpdateRejection(b: UpdateBody): (m: Option<string>)
    ensures m.None? <==>
              (b.stock.Some? ==> b.stock.value >= 0)
              && (DateSupplied(b.claimWindowStart) ==> b.claimWindowStart.value.time.Some?)
              && (DateSupplied(b.claimWindowEnd) ==> b.claimWindowEnd.value.time.Some?)
              && (SuppliedTime(b.claimWindowStart).Some? && SuppliedTime(b.claimWindowEnd).Some? ==>
                    SuppliedTime(b.claimWindowStart).value < SuppliedTime(b.claimWindowEnd).value)
  {
    if b.stock.Some? && b.stock.value < 0 then Some(NegativeStockMessage)
    else if DateSupplied(b.claimWindowStart) && b.claimWindowStart.value.time.None? then Some(InvalidStartMessage)
    else if DateSupplied(b.claimWindowEnd) && b.claimWindowEnd.value.time.None? then Some(InvalidEndMessage)
    else if SuppliedTime(b.claimWindowStart).Some? && SuppliedTime(b.claimWindowEnd).Some?
            && SuppliedTime(b.claimWindowStart).value >= SuppliedTime(b.claimWindowEnd).value then
      Some(WindowOrderMessage)
    else None
  }

  /** `hasChanges`: some supplied field differs from the stored drop. */
  predicate HasChanges(d: Drop, b: UpdateBody)
  {
    (b.title.Some? && b.title.value != d.title)
    || (b.description.Some? && b.description.value != d.description)
    || (b.stock.Some? && b.stock.value != d.stock)
    || (SuppliedTime(b.claimWindowStart).Some? && SuppliedTime(b.claimWindowStart).value != d.claimWindowStart)
    || (SuppliedTime(b.claimWindowEnd).Some? && SuppliedTime(b.claimWindowEnd).value != d.claimWindowEnd)
  }

  /** `updateData` applied to a drop: each supplied field replaces the stored one. */
  function ApplyUpdate(d: Drop, b: UpdateBody): (u: Drop)
    ensures u.id == d.id && u.createdAt == d.createdAt
    ensures u.title == (if b.title.Some? then b.title.value else d.title)
    ensures u.description == (if b.description.Some? then b.description.value else d.description)
    ensures u.stock == (if b.stock.Some? then b.stock.value else d.stock)
    ensures u.claimWindowStart == (if SuppliedTime(b.claimWindowStart).Some?
                                   then SuppliedTime(b.claimWindowStart).value else d.claimWindowStart)
    ensures u.claimWindowEnd == (if SuppliedTime(b.claimWindowEnd).Some?
                                 then SuppliedTime(b.claimWindowEnd).value else d.claimWindowEnd)
  {
    d.(title := if b.title.Some? then b.title.value else d.title,
       description := if b.description.Some? then b.description.value else d.description,
       stock := if b.stock.Some? then b.stock.value else d.stock,
       claimWindowStart := if SuppliedTime(b.claimWindowStart).Some?
                           then SuppliedTime(b.claimWindowStart).value else d.claimWindowStart,
       claimWindowEnd := if SuppliedTime(b.claimWindowEnd).Some?
                         then SuppliedTime(b.claimWindowEnd).value else d.claimWindowEnd)
  }

  /** The early return on `!hasChanges` skips exactly the updates that would change nothing. */
  lemma HasChangesIffUpdateDiffers(d: Drop, b: UpdateBody)
    ensures HasChanges(d, b) <==> ApplyUpdate(d, b) != d
  {
  }

  /** Updating twice with the same body is updating once. */
  lemma ApplyUpdateIsIdempotent(d: Drop, b: UpdateBody)
    ensures ApplyUpdate(ApplyUpdate(d, b), b) == ApplyUpdate(d, b)
    ensures !HasChanges(ApplyUpdate(d, b), b)
  {
  }

  /**
   * `updateDrop`: validation answers 400 before the drop is looked up; a
   * missing drop answers 404; otherwise the drop is answered with 200,
   * updated in place when some supplied field differs.
   */
  function UpdateDrop(st: Store, id: Id, b: UpdateBody): (r: AdminResult)
    ensures UpdateRejection(b).Some? ==>
              r == AdminResult(st, AdminResponse(400, UpdateRejection(b).value, None))
    ensures UpdateRejection(b).None? && !DropHelpers.HasDrop(st.drops, id) ==>
              r == AdminResult(st, AdminResponse(404, DropNotFoundMessage, None))
    ensures UpdateRejection(b).None? && DropHelpers.HasDrop(st.drops, id) ==>
              && var i := DropIndex(st.drops, id).value;
              && r.response == AdminResponse(200, UpdatedMessage, Some(ApplyUpdate(st.drops[i], b)))
              && r.store == st.(drops := st.drops[i := ApplyUpdate(st.drops[i], b)])
              && (!HasChanges(st.drops[i], b) ==> r.store == st)
  {
    if UpdateRejection(b).Some? then AdminResult(st, AdminResponse(400, UpdateRejection(b).value, None))
    else
      match DropIndex(st.drops, id)
      case None => AdminResult(st, AdminResponse(404, DropNotFoundMessage, None))
      case Some(i) =>
        var existing := st.drops[i];
        if !HasChanges(existing, b) then
          HasChangesIffUpdateDiffers(existing, b);
          assert st.drops[i := existing] == st.drops;
          AdminResult(st, AdminResponse(200, UpdatedMessage, Some(existing)))
        else
          var u := ApplyUpdate(existing, b);
          AdminResult(st.(drops := st.drops[i := u]), AdminResponse(200, UpdatedMessage, Some(u)))
  }

  /** Sending the same accepted update again answers the same drop and changes nothing. */
  lemma UpdateIsIdempotent(st: Store, id: Id, b: UpdateBody)
    requires UpdateDrop(st, id, b).response.status == 200
    ensures var once := UpdateDrop(st, id, b);
            var twice := UpdateDrop(once.store, id, b);
            twice == AdminResult(once.store, once.response)
  {
    var i := DropIndex(st.drops, id).value;
    var u := ApplyUpdate(st.drops[i], b);
    var st' := UpdateDrop(st, id, b).store;
    assert st'.drops[i] == u;
    assert DropIndex(st'.drops, id) == Some(i) by {
      assert forall j :: 0 <= j < i ==> st'.drops[j] == st.drops[j];
    }
    ApplyUpdateIsIdempotent(st.drops[i], b);
    assert st'.drops[i := u] == st'.drops;
  }

  /**
   * The window check only compares dates sent together: moving the start
   * alone past the stored end is accepted and stores an inverted window.
   */
  lemma UpdateCanInvertWindow()
    ensures var st := DropsController.ServedStore();
            var b := UpdateBody(None, None, None, Some(DateInput("later", Some(200))), None);
            var r := UpdateDrop(st, "d", b);
            r.response.status == 200
            && r.store.drops[0].claimWindowStart == 200 && r.store.drops[0].claimWindowEnd == 100
  {
  }

  /**
   * Update does not look at issued codes: lowering the stock below the
   * number of codes already given out is accepted, and the store no
   * longer respects its stock.
   */
  lemma UpdateCanUndercutIssuedCodes()
    ensures DropsController.StockRespected(DropsController.ServedStore())
    ensures var r := UpdateDrop(DropsController.ServedStore(), "d", UpdateBody(None, None, Some(0), None, None));
            r.response.status == 200 && !DropsController.StockRespected(r.store)
  {
    var st := DropsController.ServedStore();
    DropsController.ClaimCountIsCardinality(st.codes, "d");
    var r := UpdateDrop(st, "d", UpdateBody(None, None, Some(0), None, None));
    assert r.store.codes == st.codes;
    assert r.store.drops[0] in r.store.drops;
    DropsController.ClaimCountIsCardinality(r.store.codes, "d");
    assert 0 in set i | 0 <= i < |r.store.codes| && r.store.codes[i].dropId == "d";
  }

  // ---------------------------------------------------------------------
  // deleteDrop

  /** The elements of `s` that satisfy `keep`, in order. */
  function Keep<T(!new)>(s: seq<T>, keep: T -> bool): (r: seq<T>)
    ensures |r| <= |s|
    ensures forall x :: x in r <==> x in s && keep(x)
  {
    if |s| == 0 then []
    else (if keep(s[0]) then [s[0]] else []) + Keep(s[1..], keep)
  }

  /** `Keep` keeps every passing element exactly as often as it occurs, and drops the rest. */
  lemma {:induction false} KeepCounts<T(!new)>(s: seq<T>, keep: T -> bool)
    ensures forall x :: multiset(Keep(s, keep))[x] == if keep(x) then multiset(s)[x] else 0
  {
    if |s| > 0 {
      KeepCounts(s[1..], keep);
      assert s == [s[0]] + s[1..];
      assert multiset(s) == multiset([s[0]]) + multiset(s[1..]);
    }
  }

  /** `Keep` keeps the order of what passes: filtering a concatenation filters each part. */
  lemma {:induction false} KeepOfConcat<T(!new)>(s: seq<T>, t: seq<T>, keep: T -> bool)
    ensures Keep(s + t, keep) == Keep(s, keep) + Keep(t, keep)
  {
    if |s| > 0 {
      assert (s + t)[0] == s[0];
      assert (s + t)[1..] == s[1..] + t;
      KeepOfConcat(s[1..], t, keep);
    } else {
      assert s + t == t;
    }
  }

  /** `Keep` keeps everything when every element passes. */
  lemma {:induction false} KeepAll<T(!new)>(s: seq<T>, keep: T -> bool)
    requires forall i :: 0 <= i < |s| ==> keep(s[i])
    ensures Keep(s, keep) == s
  {
    if |s| > 0 {
      var rest := s[1..];
      assert forall i :: 0 <= i < |rest| ==> keep(rest[i]) by {
        forall i | 0 <= i < |rest| ensures keep(rest[i]) {
          assert rest[i] == s[i + 1];
        }
      }
      KeepAll(rest, keep);
      assert Keep(s, keep) == [s[0]] + Keep(rest, keep) by {
        assert keep(s[0]);
      }
      assert [s[0]] + rest == s;
    }
  }

  /** The drops with another id, in order: each kept as often as it was stored. */
  function OtherDrops(drops: seq<Drop>, id: Id): (r: seq<Drop>)
    ensures forall d :: multiset(r)[d] == if d.id != id then multiset(drops)[d] else 0
  {
    KeepCounts(drops, (d: Drop) => d.id != id);
    Keep(drops, (d: Drop) => d.id != id)
  }

  /** The waitlist entries of other drops, in order. */
  function OtherEntries(entries: seq<WaitlistEntry>, id: Id): (r: seq<WaitlistEntry>)
    ensures forall e :: multiset(r)[e] == if e.dropId != id then multiset(entries)[e] else 0
  {
    KeepCounts(entries, (e: WaitlistEntry) => e.dropId != id);
    Keep(entries, (e: WaitlistEntry) => e.dropId != id)
  }

  /** The claim codes of other drops, in order. */
  function OtherCodes(codes: seq<ClaimCode>, id: Id): (r: seq<ClaimCode>)
    ensures forall c :: multiset(r)[c] == if c.dropId != id then multiset(codes)[c] else 0
  {
    KeepCounts(codes, (c: ClaimCode) => c.dropId != id);
    Keep(codes, (c: ClaimCode) => c.dropId != id)
  }

  /**
   * `deleteDrop`: a missing drop is answered with 200 and no change;
   * otherwise the drop is removed together with its waitlist entries and
   * claim codes, and answered with 200. Users are untouched.
   */
  function DeleteDrop(st: Store, id: Id): (r: AdminResult)
    ensures r.response.status == 200
    ensures !DropHelpers.HasDrop(st.drops, id) ==>
              r == AdminResult(st, AdminResponse(200, AlreadyDeletedMessage, None))
    ensures DropHelpers.HasDrop(st.drops, id) ==>
              && r.response == AdminResponse(200, DeletedMessage, Some(DropHelpers.FindDropById(st.drops, id).value))
              && r.store.users == st.users
              && (forall d :: multiset(r.store.drops)[d] == if d.id != id then multiset(st.drops)[d] else 0)
              && (forall e :: multiset(r.store.entries)[e] == if e.dropId != id then multiset(st.entries)[e] else 0)
              && (forall c :: multiset(r.store.codes)[c] == if c.dropId != id then multiset(st.codes)[c] else 0)
  {
    match DropHelpers.FindDropById(st.drops, id)
    case Err(_) => AdminResult(st, AdminResponse(200, AlreadyDeletedMessage, None))
    case Ok(existing) =>
      var st' := Store(OtherDrops(st.drops, id), st.users, OtherEntries(st.entries, id), OtherCodes(st.codes, id));
      AdminResult(st', AdminResponse(200, DeletedMessage, Some(existing)))
  }

  /**
   * Deleting again changes nothing: after deleting a stored drop nothing
   * in the store refers to it, and the second call takes the "already
   * gone" path.
   */
  lemma DeleteIsIdempotent(st: Store, id: Id)
    ensures var once := DeleteDrop(st, id).store;
            !DropHelpers.HasDrop(once.drops, id)
            && (DropHelpers.HasDrop(st.drops, id) ==>
                  (forall i :: 0 <= i < |once.entries| ==> once.entries[i].dropId != id)
                  && (forall i :: 0 <= i < |once.codes| ==> once.codes[i].dropId != id))
            && DeleteDrop(once, id) == AdminResult(once, AdminResponse(200, AlreadyDeletedMessage, None))
  {
    var once := DeleteDrop(st, id).store;
    forall i | 0 <= i < |once.drops| ensures once.drops[i].id != id {
      assert once.drops[i] in once.drops;
    }
    if DropHelpers.HasDrop(st.drops, id) {
      forall i | 0 <= i < |once.entries| ensures once.entries[i].dropId != id {
        assert once.entries[i] in once.entries;
      }
      forall i | 0 <= i < |once.codes| ensures once.codes[i].dropId != id {
        assert once.codes[i] in once.codes;
      }
    }
  }

  /** Deleting a drop that is not stored leaves the store exactly as it was. */
  lemma DeleteOfAbsentDropKeepsStore(st: Store, id: Id)
    requires !DropHelpers.HasDrop(st.drops, id)
    ensures DeleteDrop(st, id).store == st
    ensures OtherDrops(st.drops, id) == st.drops
  {
    KeepAll(st.drops, (d: Drop) => d.id != id);
  }
}

=== FILE: admin_store.dfy ===
/**
 * The admin panel's store: the drops list as the admin page shows it,
 * the create/edit form, and which of the two is open. Each asynchronous
 * action is modelled by the state it leaves once its request has been
 * answered; the answer is an input.
 */
module AdminStore {
  import opened Wrappers
  import opened StoreRequests

  /** A drop as the admin endpoints return it; dates stay the strings the JSON carries. */
  datatype StoreDrop = StoreDrop(
    id: string,
    title: string,
    description: Option<string>,
    stock: int,
    claimWindowStart: string,
    claimWindowEnd: string,
    createdAt: string,
    updatedAt: string)

  datatype FormData = FormData(
    title: string,
    description: string,
    stock: int,
    claimWindowStart: string,
    claimWindowEnd: string)

  const InitialFormData: FormData := FormData("", "", 0, "", "")

  datatype AdminState = AdminState(
    drops: seq<StoreDrop>,
    loading: bool,
    error: Option<string>,
    formData: FormData,
    editingDrop: Option<StoreDrop>,
    showCreateForm: bool)

  const InitialState: AdminState := AdminState([], false, None, InitialFormData, None, false)

  /** The state an action leaves, and what the action returns to its caller. */
  datatype Step<+T> = Step(state: AdminState, result: T)

  const FetchFailedMessage: string := "Drop'lar yüklenirken hata oluştu."
  const CreateFailedMessage: string := "Drop oluşturulurken hata oluştu."
  const UpdateFailedMessage: string := "Drop güncellenirken hata oluştu."
  const DeleteFailedMessage: string := "Drop silinirken hata oluştu."

  /**
   * `fetchDrops`: the list becomes the response's drops (none counts as
   * empty); a failure keeps the list and sets the error. Either way
   * loading ends and the form is untouched.
   */
  function FetchDrops(st: AdminState, reply: Reply<Option<seq<StoreDrop>>>): (r: AdminState)
    ensures !r.loading
    ensures reply.Answered? ==> r.error.None? && r.drops == ListOrEmpty(reply.body)
    ensures reply.Failed? ==> r.drops == st.drops && r.error == Some(ErrorMessage(reply.failure, FetchFailedMessage))
    ensures r.formData == st.formData && r.editingDrop == st.editingDrop && r.showCreateForm == st.showCreateForm
  {
    match reply
    case Answered(drops) => st.(drops := ListOrEmpty(drops), loading := false, error := None)
    case Failed(f) => st.(loading := false, error := Some(ErrorMessage(f, FetchFailedMessage)))
  }

  /**
   * `createDrop`: the drop the server answers with goes to the front of
   * the list and is returned; a failure sets the error, keeps the list
   * and returns nothing.
   */
  function CreateDrop(st: AdminState, reply: Reply<StoreDrop>): (r: Step<Option<StoreDrop>>)
    ensures reply.Answered? ==>
              && r.result == Some(reply.body) && r.state.error.None?
              && |r.state.drops| == |st.drops| + 1
              && r.state.drops[0] == reply.body && r.state.drops[1..] == st.drops
    ensures reply.Failed? ==>
              r.result.None? && r.state.drops == st.drops
              && r.state.error == Some(ErrorMessage(reply.failure, CreateFailedMessage))
    ensures r.state == st.(drops := r.state.drops, error := r.state.error)
  {
    match reply
    case Answered(drop) => Step(st.(drops := [drop] + st.drops, error := None), Some(drop))
    case Failed(f) => Step(st.(error := Some(ErrorMessage(f, CreateFailedMessage))), None)
  }

  /** Every drop with the given id replaced by `updated`; the others kept in place. */
  function Replace(drops: seq<StoreDrop>, id: string, updated: StoreDrop): (r: seq<StoreDrop>)
    ensures |r| == |drops|
    ensures forall i :: 0 <= i < |drops| && drops[i].id == id ==> r[i] == updated
    ensures forall i :: 0 <= i < |drops| && drops[i].id != id ==> r[i] == drops[i]
  {
    if drops == [] then []
    else [if drops[0].id == id then updated else drops[0]] + Replace(drops[1..], id, updated)
  }

  /** The drops whose id differs from the given one, in their order. */
  function Without(drops: seq<StoreDrop>, id: string): (r: seq<StoreDrop>)
    ensures |r| <= |drops|
    ensures forall d :: d in r <==> d in drops && d.id != id
  {
    if drops == [] then []
    else if drops[0].id == id then Without(drops[1..], id)
    else [drops[0]] + Without(drops[1..], id)
  }

  /** Filtering a concatenation filters each part and keeps their order. */
  lemma {:induction false} WithoutKeepsOrder(a: seq<StoreDrop>, b: seq<StoreDrop>, id: string)
    ensures Without(a + b, id) == Without(a, id) + Without(b, id)
    decreases |a|
  {
    if a == [] {
      assert a + b == b;
    } else {
      assert (a + b)[0] == a[0] && (a + b)[1..] == a[1..] + b;
      WithoutKeepsOrder(a[1..], b, id);
    }
  }

  /** Filtering keeps every occurrence of the other drops and none of the removed id. */
  lemma {:induction false} WithoutCounts(drops: seq<StoreDrop>, id: string, d: StoreDrop)
    ensures multiset(Without(drops, id))[d] == if d.id == id then 0 else multiset(drops)[d]
    decreases |drops|
  {
    if drops != [] {
      WithoutCounts(drops[1..], id, d);
      assert drops == [drops[0]] + drops[1..];
    }
  }

  /**
   * `updateDrop`: every listed drop with that id becomes the server's
   * answer, which is returned; the list keeps its length and order. A
   * failure sets the error, keeps the list and returns nothing.
   */
  function UpdateDrop(st: AdminState, id: string, reply: Reply<StoreDrop>): (r: Step<Option<StoreDrop>>)
    ensures reply.Answered? ==>
              r.result == Some(reply.body) && r.state.error.None?
              && r.state.drops == Replace(st.drops, id, reply.body)
    ensures reply.Failed? ==>
              r.result.None? && r.state.drops == st.drops
              && r.state.error == Some(ErrorMessage(reply.failure, UpdateFailedMessage))
    ensures r.state == st.(drops := r.state.drops, error := r.state.error)
  {
    match reply
    case Answered(drop) => Step(st.(drops := Replace(st.drops, id, drop), error := None), Some(drop))
    case Failed(f) => Step(st.(error := Some(ErrorMessage(f, UpdateFailedMessage))), None)
  }

  /**
   * `deleteDrop`: declining the confirmation returns false and changes
   * nothing; a confirmed delete that succeeds drops every entry with
   * that id and returns true; one that fails sets the error and keeps
   * the list.
   */
  function DeleteDrop(st: AdminState, id: string, confirmed: bool, reply: Reply<()>): (r: Step<bool>)
    ensures !confirmed ==> r == Step(st, false)
    ensures r.result <==> confirmed && reply.Answered?
    ensures r.result ==> r.state.error.None? && r.state.drops == Without(st.drops, id)
    ensures confirmed && reply.Failed? ==>
              r.state.drops == st.drops && r.state.error == Some(ErrorMessage(reply.failure, DeleteFailedMessage))
    ensures r.state == st.(drops := r.state.drops, error := r.state.error)
  {
    if !confirmed then Step(st, false)
    else
      match reply
      case Answered(_) => Step(st.(drops := Without(st.drops, id), error := None), true)
      case Failed(f) => Step(st.(error := Some(ErrorMessage(f, DeleteFailedMessage))), false)
  }

  /** A successful delete leaves no drop with that id and every other drop as often as before. */
  lemma DeleteRemovesOnlyThatId(st: AdminState, id: string, d: StoreDrop)
    ensures var r := DeleteDrop(st, id, true, Answered(()));
            r.result
            && multiset(r.state.drops)[d] == (if d.id == id then 0 else multiset(st.drops)[d])
  {
    WithoutCounts(st.drops, id, d);
  }

  /**
   * Once a drop is deleted from the list, an update with the server's
   * answer for that id finds nothing to replace; and deleting after an
   * update of that id leaves what deleting alone leaves.
   */
  lemma {:induction false} UpdateAndDeleteOfOneId(drops: seq<StoreDrop>, id: string, updated: StoreDrop)
    ensures Replace(Without(drops, id), id, updated) == Without(drops, id)
    ensures updated.id == id ==> Without(Replace(drops, id, updated), id) == Without(drops, id)
    decreases |drops|
  {
    if drops != [] {
      UpdateAndDeleteOfOneId(drops[1..], id, updated);
      assert Replace(drops, id, updated)[1..] == Replace(drops[1..], id, updated);
    }
  }

  /**
   * The backend answers a repeated create with the drop it already
   * holds; the store still puts that answer in front of the list, so a
   * drop already listed is then listed twice.
   */
  lemma ReplayedCreateListsTwice(st: AdminState, d: StoreDrop)
    requires d in st.drops
    ensures multiset(CreateDrop(st, Answered(d)).state.drops)[d] == multiset(st.drops)[d] + 1
    ensures multiset(CreateDrop(st, Answered(d)).state.drops)[d] >= 2
  {
  }

  /** `setFormData`: the form becomes the given one. */
  function SetFormData(st: AdminState, form: FormData): (r: AdminState)
    ensures r.formData == form && r == st.(formData := form)
  {
    st.(formData := form)
  }

  /** The five fields of the form. */
  datatype FieldName = TitleField | DescriptionField | StockField | StartField | EndField

  /** A field's content: the text fields hold strings, the stock a number. */
  datatype FieldValue = Text(text: string) | Number(number: int)

  /** An edit of one field, carrying a value of that field's type. */
  datatype FieldEdit =
    | SetTitle(title: string)
    | SetDescription(description: string)
    | SetStock(stock: int)
    | SetStart(start: string)
    | SetEnd(end: string)

  function NameOf(e: FieldEdit): FieldName
  {
    match e
    case SetTitle(_) => TitleField
    case SetDescription(_) => DescriptionField
    case SetStock(_) => StockField
    case SetStart(_) => StartField
    case SetEnd(_) => EndField
  }

  function ValueOf(e: FieldEdit): FieldValue
  {
    match e
    case SetTitle(s) => Text(s)
    case SetDescription(s) => Text(s)
    case SetStock(n) => Number(n)
    case SetStart(s) => Text(s)
    case SetEnd(s) => Text(s)
  }

  /** Reading one field of the form. */
  function Field(form: FormData, name: FieldName): FieldValue
  {
    match name
    case TitleField => Text(form.title)
    case DescriptionField => Text(form.description)
    case StockField => Number(form.stock)
    case StartField => Text(form.claimWindowStart)
    case EndField => Text(form.claimWindowEnd)
  }

  /** Two forms that agree on every field are the same form. */
  lemma FieldsDetermineForm(a: FormData, b: FormData)
    requires forall n :: Field(a, n) == Field(b, n)
    ensures a == b
  {
    assert Field(a, TitleField) == Field(b, TitleField);
    assert Field(a, DescriptionField) == Field(b, DescriptionField);
    assert Field(a, StockField) == Field(b, StockField);
    assert Field(a, StartField) == Field(b, StartField);
    assert Field(a, EndField) == Field(b, EndField);
  }

  /** The form with one field overwritten. */
  function Edit(form: FormData, e: FieldEdit): FormData
  {
    match e
    case SetTitle(s) => form.(title := s)
    case SetDescription(s) => form.(description := s)
    case SetStock(n) => form.(stock := n)
    case SetStart(s) => form.(claimWindowStart := s)
    case SetEnd(s) => form.(claimWindowEnd := s)
  }

  /** `updateFormField`: the named field takes the value and every other field, and the rest of the state, stays. */
  function UpdateFormField(st: AdminState, e: FieldEdit): (r: AdminState)
    ensures Field(r.formData, NameOf(e)) == ValueOf(e)
    ensures forall n :: n != NameOf(e) ==> Field(r.formData, n) == Field(st.formData, n)
    ensures r == st.(formData := r.formData)
  {
    st.(formData := Edit(st.formData, e))
  }

  /** The later of two edits of the same field wins; edits of different fields commute. */
  lemma FieldEditsCompose(st: AdminState, e1: FieldEdit, e2: FieldEdit)
    ensures NameOf(e1) == NameOf(e2) ==> UpdateFormField(UpdateFormField(st, e1), e2) == UpdateFormField(st, e2)
    ensures NameOf(e1) != NameOf(e2) ==>
              UpdateFormField(UpdateFormField(st, e1), e2) == UpdateFormField(UpdateFormField(st, e2), e1)
  {
    var a := UpdateFormField(UpdateFormField(st, e1), e2);
    if NameOf(e1) == NameOf(e2) {
      FieldsDetermineForm(a.formData, UpdateFormField(st, e2).formData);
    } else {
      FieldsDetermineForm(a.formData, UpdateFormField(UpdateFormField(st, e2), e1).formData);
    }
  }

  /** `resetForm`: the form goes back to its initial content. */
  function ResetForm(st: AdminState): (r: AdminState)
    ensures r.formData == InitialFormData && r == st.(formData := InitialFormData)
  {
    st.(formData := InitialFormData)
  }

  /** `description || ''`. */
  function OrEmpty(s: Option<string>): (r: string)
    ensures r == "" <==> s.None? || s.value == ""
  {
    if s.Some? && s.value != "" then s.value else ""
  }

  /**
   * `startEdit`: the drop becomes the one edited, the form is filled from
   * it and the create form closes. `minuteText` turns a stored date into
   * the `YYYY-MM-DDTHH:mm` text of a date-time input.
   */
  function StartEdit(st: AdminState, drop: StoreDrop, minuteText: string -> string): (r: AdminState)
    ensures r.editingDrop == Some(drop) && !r.showCreateForm
    ensures r.formData.title == drop.title && r.formData.stock == drop.stock
    ensures r.formData.description == "" <==> drop.description.None? || drop.description.value == ""
    ensures drop.description.Some? ==> r.formData.description == drop.description.value
    ensures r.formData.claimWindowStart == minuteText(drop.claimWindowStart)
    ensures r.formData.claimWindowEnd == minuteText(drop.claimWindowEnd)
    ensures r.drops == st.drops && r.error == st.error && r.loading == st.loading
  {
    st.(editingDrop := Some(drop),
        formData := FormData(drop.title, OrEmpty(drop.description), drop.stock,
                             minuteText(drop.claimWindowStart), minuteText(drop.claimWindowEnd)),
        showCreateForm := false)
  }

  /** `cancelEdit`: nothing is edited any more and the form is back to its initial content. */
  function CancelEdit(st: AdminState): (r: AdminState)
    ensures r.editingDrop.None? && r.formData == InitialFormData
    ensures r == st.(editingDrop := None, formData := InitialFormData)
  {
    st.(editingDrop := None, formData := InitialFormData)
  }

  /** Starting an edit and cancelling it leaves a closed, empty form with nothing edited. */
  lemma CancelUndoesStartEdit(st: AdminState, drop: StoreDrop, minuteText: string -> string)
    ensures CancelEdit(StartEdit(st, drop, minuteText))
            == st.(editingDrop := None, formData := InitialFormData, showCreateForm := false)
  {
  }

  /**
   * `toggleCreateForm`: an open form closes and is reset; a closed one
   * opens and keeps its content. Either way nothing is edited afterwards.
   */
  function ToggleCreateForm(st: AdminState): (r: AdminState)
    ensures r.showCreateForm == !st.showCreateForm && r.editingDrop.None?
    ensures st.showCreateForm ==> r.formData == InitialFormData
    ensures !st.showCreateForm ==> r.formData == st.formData
    ensures r.drops == st.drops && r.error == st.error && r.loading == st.loading
  {
    if st.showCreateForm then st.(showCreateForm := false, editingDrop := None, formData := InitialFormData)
    else st.(showCreateForm := true, editingDrop := None)
  }

  /**
   * Toggling twice restores whether the form is shown, but the form is
   * then reset and nothing is edited, whichever way it started.
   */
  lemma ToggleTwice(st: AdminState)
    ensures ToggleCreateForm(ToggleCreateForm(st)) == st.(editingDrop := None, formData := InitialFormData)
  {
  }

  /** `clearError`. */
  function ClearError(st: AdminState): (r: AdminState)
    ensures r.error.None? && r == st.(error := None)
  {
    st.(error := None)
  }
}

=== FILE: ai_controller.dfy ===
/**
 * `suggestDescription`: asks a language model for a drop description.
 * The title must be non-blank; the prompt asks to improve the current
 * description when there is one and to write a fresh one otherwise; the
 * answer is trimmed, refused when empty, and cut to 500 characters.
 * Whether the API key is configured and what the model answered are
 * inputs of the model.
 */
module AiController {
  import opened Wrappers
  import JsStrings

  /** The longest description the endpoint returns. */
  const MaxLength: nat := 500
  /** Characters kept from an over-long suggestion, before the ellipsis. */
  const KeptLength: nat := 497
  const Ellipsis: string := "..."

  const TitleRequiredMessage: string := "Başlık gereklidir."
  const MissingKeyMessage: string :=
    "OpenAI API anahtarı yapılandırılmamış. Lütfen OPENAI_API_KEY ortam değişkenini ayarlayın."
  const EmptySuggestionMessage: string := "AI açıklama önerisi oluşturulamadı."
  const SuggestedMessage: string := "Açıklama önerisi başarıyla oluşturuldu."
  const InvalidKeyMessage: string := "OpenAI API anahtarı geçersiz. Lütfen OPENAI_API_KEY değerini kontrol edin."
  const RateLimitMessage: string := "OpenAI API rate limit aşıldı. Lütfen daha sonra tekrar deneyin."
  const UpstreamFailedMessage: string := "AI açıklama önerisi oluşturulurken bir hata oluştu."

  /** The two user prompts: improve a current description, or write a new one. */
  datatype Prompt = ImprovePrompt(title: string, description: string) | FreshPrompt(title: string)

  /**
   * What the completion call produced: the first choice's content, if
   * any, or an exception carrying an optional HTTP status.
   */
  datatype Completion = Answered(content: Option<string>) | Failed(status: Option<int>)

  datatype AiResponse = AiResponse(status: int, message: string, description: Option<string>)

  /** An optional text, empty when absent. */
  function TextOf(s: Option<string>): string
  {
    if s.Some? then s.value else ""
  }

  /** `!title || title.trim().length === 0`. */
  predicate BlankTitle(title: Option<string>)
  {
    title.None? || title.value == "" || JsStrings.Trim(title.value) == ""
  }

  /** A title is refused exactly when it is absent or made only of white space. */
  lemma BlankTitleIsWhitespace(title: Option<string>)
    ensures BlankTitle(title) <==> title.None? || JsStrings.AllWhitespace(title.value)
  {
    if title.Some? {
      JsStrings.TrimEmptyIffBlank(title.value);
    }
  }

  /** The prompt chosen for a title and an optional current description. */
  function ChoosePrompt(title: string, description: Option<string>): (p: Prompt)
    ensures p.title == title
    ensures p.ImprovePrompt? <==> description.Some? && !JsStrings.AllWhitespace(description.value)
    ensures p.ImprovePrompt? ==> p.description == description.value
  {
    if description.Some? && description.value != "" && |JsStrings.Trim(description.value)| > 0 then
      JsStrings.TrimEmptyIffBlank(description.value);
      ImprovePrompt(title, description.value)
    else
      JsStrings.TrimEmptyIffBlank(TextOf(description));
      FreshPrompt(title)
  }

  /** The fixed parts of the two user prompts, around the title and the description. */
  const ImproveIntro: string :=
    "Aşağıdaki başlık için mevcut açıklamayı geliştir ve daha çekici hale getir. Maksimum 500 karakter olmalı.\n\nBaşlık: "
  const DescriptionLabel: string := "\nMevcut Açıklama: "
  const ImproveClosing: string :=
    "\n\nYeni ve geliştirilmiş açıklamayı sadece metin olarak döndür, başka açıklama ekleme."
  const FreshIntro: string :=
    "Aşağıdaki başlık için çekici ve profesyonel bir açıklama yaz. Maksimum 500 karakter olmalı.\n\nBaşlık: "
  const FreshClosing: string := "\n\nAçıklamayı sadece metin olarak döndür, başka açıklama ekleme."

  /** The user message sent for a prompt. */
  function PromptText(p: Prompt): (text: string)
    ensures |text| > |p.title|
  {
    assert |ImproveIntro| > 0 && |FreshIntro| > 0;
    match p
    case ImprovePrompt(title, description) =>
      ImproveIntro + title + DescriptionLabel + description + ImproveClosing
    case FreshPrompt(title) =>
      FreshIntro + title + FreshClosing
  }

  /** The `n` characters of `text` from index `i`, empty when they do not fit. */
  function Slice(text: string, i: int, n: nat): string
  {
    if 0 <= i && i + n <= |text| then text[i..i + n] else []
  }

  /** `t` occurs in `text` as a contiguous slice. */
  predicate Contains(text: string, t: string)
  {
    exists i :: 0 <= i <= |text| - |t| && Slice(text, i, |t|) == t
  }

  /** Text appended after a slice does not change the slice. */
  lemma SliceOfPrefix(x: string, y: string, i: int, n: nat)
    requires 0 <= i && i + n <= |x|
    ensures Slice(x + y, i, n) == Slice(x, i, n)
  {
    assert (x + y)[i..i + n] == x[i..i + n];
  }

  /** `t` sits right after `a` in `a + t + b`. */
  lemma SliceAfter(a: string, t: string, b: string)
    ensures Slice(a + t + b, |a|, |t|) == t
  {
    assert (a + t + b)[|a|..|a| + |t|] == t;
  }

  /** The prompt sent carries the title, and the current description when it is improved. */
  lemma PromptCarriesInputs(p: Prompt)
    ensures Contains(PromptText(p), p.title)
    ensures p.ImprovePrompt? ==> Contains(PromptText(p), p.description)
  {
    match p
    case ImprovePrompt(title, description) =>
      var withTitle := ImproveIntro + title + DescriptionLabel;
      SliceAfter(ImproveIntro, title, DescriptionLabel);
      SliceOfPrefix(withTitle, description, |ImproveIntro|, |title|);
      SliceOfPrefix(withTitle + description, ImproveClosing, |ImproveIntro|, |title|);
      SliceAfter(withTitle, description, ImproveClosing);
    case FreshPrompt(title) =>
      SliceAfter(FreshIntro, title, FreshClosing);
  }

  /**
   * The user prompt the endpoint sends, or `None` when it answers before
   * calling the model.
   */
  function SentPrompt(title: Option<string>, description: Option<string>, apiKeyConfigured: bool): (p: Option<string>)
    ensures p.Some? <==> !BlankTitle(title) && apiKeyConfigured
    ensures p.Some? ==> p.value == PromptText(ChoosePrompt(title.value, description))
  {
    if BlankTitle(title) || !apiKeyConfigured then None
    else Some(PromptText(ChoosePrompt(title.value, description)))
  }

  /** Cutting an over-long suggestion to 497 characters followed by "...". */
  function Truncate(s: string): (r: string)
    ensures |r| <= MaxLength
    ensures |s| <= MaxLength ==> r == s
    ensures |s| > MaxLength ==> |r| == MaxLength && r[..KeptLength] == s[..KeptLength] && r[KeptLength..] == Ellipsis
  {
    if |s| > MaxLength then s[..KeptLength] + Ellipsis else s
  }

  /** A truncated suggestion is short enough to be returned unchanged by a second cut. */
  lemma TruncateIsIdempotent(s: string)
    ensures Truncate(Truncate(s)) == Truncate(s)
  {
  }

  /** The suggestion text: the content, trimmed, or empty when there is none. */
  function Suggestion(content: Option<string>): (s: string)
    ensures content.None? ==> s == ""
    ensures content.Some? ==> s == JsStrings.Trim(content.value)
  {
    if content.Some? then JsStrings.Trim(content.value) else ""
  }

  /**
   * `suggestDescription`: 400 for a blank title, 500 without an API key,
   * 500 for an empty suggestion, 200 with the cut suggestion, and 500 with
   * a message of its own for an upstream 401 or 429 and a generic one for
   * any other upstream failure.
   */
  function SuggestDescription(title: Option<string>, description: Option<string>, apiKeyConfigured: bool,
                              completion: Completion): (r: AiResponse)
    ensures BlankTitle(title) ==> r == AiResponse(400, TitleRequiredMessage, None)
    ensures !BlankTitle(title) && !apiKeyConfigured ==> r == AiResponse(500, MissingKeyMessage, None)
    ensures r.status == 200 <==>
              !BlankTitle(title) && apiKeyConfigured && completion.Answered?
              && !JsStrings.AllWhitespace(TextOf(completion.content))
    ensures r.status == 200 ==>
              r.description == Some(Truncate(Suggestion(completion.content)))
              && |r.description.value| <= MaxLength
    ensures r.status != 200 ==> r.description.None?
    ensures !BlankTitle(title) && apiKeyConfigured && completion.Failed? ==>
              r.status == 500
              && (completion.status == Some(401) ==> r.message == InvalidKeyMessage)
              && (completion.status == Some(429) ==> r.message == RateLimitMessage)
              && (completion.status != Some(401) && completion.status != Some(429) ==>
                    r.message == UpstreamFailedMessage)
    ensures !BlankTitle(title) && apiKeyConfigured && completion.Answered?
            && JsStrings.AllWhitespace(TextOf(completion.content)) ==>
              r == AiResponse(500, EmptySuggestionMessage, None)
  {
    if BlankTitle(title) then AiResponse(400, TitleRequiredMessage, None)
    else if !apiKeyConfigured then AiResponse(500, MissingKeyMessage, None)
    else
      match completion
      case Answered(content) =>
        var suggestion := Suggestion(content);
        JsStrings.TrimEmptyIffBlank(TextOf(content));
        if suggestion == "" then AiResponse(500, EmptySuggestionMessage, None)
        else AiResponse(200, SuggestedMessage, Some(Truncate(suggestion)))
      case Failed(status) =>
        if status == Some(401) then AiResponse(500, InvalidKeyMessage, None)
        else if status == Some(429) then AiResponse(500, RateLimitMessage, None)
        else AiResponse(500, UpstreamFailedMessage, None)
  }

  /** The returned description starts with the suggestion's first characters and never exceeds 500. */
  lemma SuggestionKeepsItsStart(title: Option<string>, description: Option<string>, content: string)
    requires !BlankTitle(title) && !JsStrings.AllWhitespace(content)
    ensures var r := SuggestDescription(title, description, true, Answered(Some(content)));
            var s := JsStrings.Trim(content);
            r.status == 200 && |r.description.value| <= MaxLength
            && (|s| <= MaxLength ==> r.description.value == s)
            && (|s| > MaxLength ==> r.description.value[..KeptLength] == s[..KeptLength])
  {
  }
}

=== FILE: api_error_handler.dfy ===
/**
 * `apiErrorHandler`: turns an error thrown inside an endpoint into an
 * HTTP status and a JSON body. The thrown error's message doubles as its
 * code; the code picks a status from a fixed table, and the message shown
 * comes from the endpoint's own texts, then a fixed table, then the raw
 * message, then the endpoint's fallback text. A unique-constraint
 * violation (Prisma's P2002) can instead be answered with the resource
 * that already exists.
 */
module ApiErrorHandler {
  import opened Wrappers
  import opened Records

  /**
   * What the handler reads from a thrown value: `message`, a numeric
   * `status` it may carry, and the database client's error `code`.
   */
  datatype ThrownError = ThrownError(message: string, status: Option<int>, dbCode: Option<string>)

  /** The record an idempotent handler found: `{ entry }` or `{ claimCode }`. */
  datatype Resource = EntryResource(entry: WaitlistEntry) | CodeResource(claimCode: ClaimCode)

  /** JSON bodies: a plain message, an error with its code, or an existing resource. */
  datatype Body =
    | MessageBody(message: string)
    | ErrorBody(message: string, code: string)
    | ExistingBody(message: string, code: string, resource: Resource)

  datatype Response = Response(status: int, body: Body)

  /**
   * What the endpoint's idempotent handler returned for this request: the
   * existing record, `null`, or an exception of its own.
   */
  datatype Lookup = Found(resource: Resource) | NothingFound | HandlerThrew

  /**
   * The options an endpoint passes. `idempotent` is `None` when the
   * endpoint supplies no handler, and otherwise what that handler yields.
   */
  datatype Options = Options(customMessages: map<string, string>, idempotent: Option<Lookup>,
                             defaultMessage: string)

  const UnknownError: string := "UNKNOWN_ERROR"
  const GenericDefaultMessage: string := "İşlem sırasında bir hata oluştu."
  const AlreadyExistsMessage: string := "Kaynak zaten mevcut."
  const AlreadyExistsCode: string := "ALREADY_EXISTS"
  /** Prisma's code for a unique-constraint violation. */
  const UniqueViolation: string := "P2002"

  /** `ERROR_STATUS_MAP`. */
  const StatusMap: map<string, int> := map[
    "NOT_FOUND" := 404,
    "UNAUTHORIZED" := 401,
    "FORBIDDEN" := 403,
    "BAD_REQUEST" := 400,
    "CONFLICT" := 409,
    "CLAIM_WINDOW_CLOSED" := 400,
    "CLAIM_WINDOW_NOT_OPEN" := 400,
    "NOT_ON_WAITLIST" := 400,
    "POSITION_TOO_HIGH" := 400,
    "NOT_YOUR_TURN" := 400,
    "STOCK_EXHAUSTED" := 400
  ]

  /** `ERROR_MESSAGE_MAP`. */
  const MessageMap: map<string, string> := map[
    "NOT_FOUND" := "Kaynak bulunamadı.",
    "UNAUTHORIZED" := "Yetkilendirme gereklidir.",
    "FORBIDDEN" := "Bu işlem için yetkiniz yok.",
    "BAD_REQUEST" := "Geçersiz istek.",
    "CONFLICT" := "Kaynak çakışması.",
    "CLAIM_WINDOW_CLOSED" := "Bu drop için claim window kapanmıştır.",
    "CLAIM_WINDOW_NOT_OPEN" := "Claim penceresi şu anda açık değil.",
    "NOT_ON_WAITLIST" := "Bu drop için waitlist'te değilsiniz.",
    "POSITION_TOO_HIGH" := "Pozisyonunuz stock miktarını aşıyor.",
    "NOT_YOUR_TURN" := "Sıranız henüz gelmedi. Claim code'lar sırayla verilmektedir.",
    "STOCK_EXHAUSTED" := "Drop stoku tükenmiştir."
  ]

  /** The six claim-flow codes, all of which the status table sends to 400. */
  const DomainCodes: set<string> := {
    "CLAIM_WINDOW_CLOSED", "CLAIM_WINDOW_NOT_OPEN", "NOT_ON_WAITLIST",
    "POSITION_TOO_HIGH", "NOT_YOUR_TURN", "STOCK_EXHAUSTED"
  }

  /** The statuses the table gives the generic codes. */
  lemma GenericStatuses()
    ensures "UNAUTHORIZED" in StatusMap && StatusMap["UNAUTHORIZED"] == 401
    ensures "NOT_FOUND" in StatusMap && StatusMap["NOT_FOUND"] == 404
  {
  }

  /** The error's code: its message, or UNKNOWN_ERROR when the message is empty. */
  function ErrorCode(e: ThrownError): (code: string)
    ensures code != ""
    ensures e.message != "" ==> code == e.message
    ensures e.message == "" ==> code == UnknownError
  {
    if e.message != "" then e.message else UnknownError
  }

  /** JavaScript truthiness of an optional number. */
  predicate TruthyStatus(status: Option<int>)
  {
    status.Some? && status.value != 0
  }

  /** The status chain `ERROR_STATUS_MAP[code] || error.status || 500`. */
  function ResolveStatus(e: ThrownError): (status: int)
    ensures status != 0
    ensures ErrorCode(e) in StatusMap ==> status == StatusMap[ErrorCode(e)]
    ensures ErrorCode(e) !in StatusMap && TruthyStatus(e.status) ==> status == e.status.value
    ensures ErrorCode(e) !in StatusMap && !TruthyStatus(e.status) ==> status == 500
  {
    var code := ErrorCode(e);
    if code in StatusMap then StatusMap[code]
    else if TruthyStatus(e.status) then e.status.value
    else 500
  }

  /**
   * The message chain `{ ...ERROR_MESSAGE_MAP, ...customMessages }[code]
   * || error.message || defaultMessage`. Dafny's map union keeps the
   * right-hand value on a shared key, as the object spread does.
   */
  function ResolveMessage(e: ThrownError, customMessages: map<string, string>, defaultMessage: string): (m: string)
  {
    var messages := MessageMap + customMessages;
    var code := ErrorCode(e);
    if code in messages && messages[code] != "" then messages[code]
    else if e.message != "" then e.message
    else defaultMessage
  }

  /**
   * Precedence of the message sources: an endpoint's own text beats the
   * fixed table, the table beats the raw message, and the raw message
   * beats the fallback text.
   */
  lemma MessagePrecedence(e: ThrownError, customMessages: map<string, string>, defaultMessage: string)
    ensures var code := ErrorCode(e);
            code in customMessages && customMessages[code] != "" ==>
              ResolveMessage(e, customMessages, defaultMessage) == customMessages[code]
    ensures var code := ErrorCode(e);
            code !in customMessages && code in MessageMap ==>
              ResolveMessage(e, customMessages, defaultMessage) == MessageMap[code]
    ensures var code := ErrorCode(e);
            code !in customMessages && code !in MessageMap && e.message != "" ==>
              ResolveMessage(e, customMessages, defaultMessage) == e.message
    ensures e.message == "" && UnknownError !in customMessages ==>
              ResolveMessage(e, customMessages, defaultMessage) == defaultMessage
  {
    assert forall k :: k in MessageMap ==> MessageMap[k] != "";
    assert UnknownError !in MessageMap;
  }

  /** An empty text supplied by the endpoint does not count and defers to the raw message. */
  lemma EmptyCustomTextDefersToMessage(e: ThrownError, customMessages: map<string, string>, defaultMessage: string)
    requires ErrorCode(e) in customMessages && customMessages[ErrorCode(e)] == ""
    ensures ResolveMessage(e, customMessages, defaultMessage)
            == (if e.message != "" then e.message else defaultMessage)
  {
  }

  /**
   * `apiErrorHandler(error, req, res, next, options)`: the 200 answer
   * for a unique violation whose handler found the record, and otherwise
   * the resolved status with `{ message, code }`.
   */
  function HandleError(e: ThrownError, opts: Options): (r: Response)
    ensures r.body.ExistingBody? <==>
              e.dbCode == Some(UniqueViolation) && opts.idempotent.Some? && opts.idempotent.value.Found?
    ensures (e.dbCode == Some(UniqueViolation) && opts.idempotent.Some? && opts.idempotent.value.Found?) ==>
              r == Response(200, ExistingBody(AlreadyExistsMessage, AlreadyExistsCode, opts.idempotent.value.resource))
    ensures !r.body.ExistingBody? ==>
              r == Response(ResolveStatus(e), ErrorBody(ResolveMessage(e, opts.customMessages, opts.defaultMessage),
                                                        ErrorCode(e)))
  {
    if e.dbCode == Some(UniqueViolation) && opts.idempotent.Some? && opts.idempotent.value.Found? then
      Response(200, ExistingBody(AlreadyExistsMessage, AlreadyExistsCode, opts.idempotent.value.resource))
    else
      Response(ResolveStatus(e), ErrorBody(ResolveMessage(e, opts.customMessages, opts.defaultMessage), ErrorCode(e)))
  }

  /** Every claim-flow code answers 400, whatever status the error carries. */
  lemma DomainCodesAre400(e: ThrownError, opts: Options)
    requires e.message in DomainCodes
    ensures ResolveStatus(e) == 400
    ensures e.dbCode != Some(UniqueViolation) ==> HandleError(e, opts).status == 400
  {
  }

  /** Every claim-flow code has a text of its own in the fixed table. */
  lemma DomainCodesHaveTexts()
    ensures forall c :: c in DomainCodes ==> c in MessageMap && MessageMap[c] != ""
  {
  }

  /** A code the status table lacks answers with the error's own status, or 500 without one. */
  lemma UnmappedCodesFallBack(e: ThrownError)
    requires ErrorCode(e) !in StatusMap
    ensures ResolveStatus(e) == (if TruthyStatus(e.status) then e.status.value else 500)
  {
  }

  /**
   * Errors thrown with a code the table lacks and no status answer 500:
   * HAS_CLAIM_CODE, the score's "User not found" and "Drop not found",
   * and an error with no message at all.
   */
  lemma UnmappedFailuresAre500()
    ensures ResolveStatus(ThrownError("HAS_CLAIM_CODE", None, None)) == 500
    ensures ResolveStatus(ThrownError("User not found", None, None)) == 500
    ensures ResolveStatus(ThrownError("Drop not found", None, None)) == 500
    ensures ResolveStatus(ThrownError("", None, None)) == 500
  {
    assert "HAS_CLAIM_CODE" !in StatusMap;
    assert "User not found" !in StatusMap;
    assert "Drop not found" !in StatusMap;
    assert UnknownError !in StatusMap;
  }

  /**
   * A handler that finds nothing or throws changes nothing: the response
   * is the one the endpoint would give without a handler.
   */
  lemma HandlerMissFallsThrough(e: ThrownError, opts: Options)
    requires opts.idempotent.Some? && !opts.idempotent.value.Found?
    ensures HandleError(e, opts) == HandleError(e, opts.(idempotent := None))
    ensures HandleError(e, opts).status == ResolveStatus(e)
  {
  }

  /** The body's `code` is the thrown message, or UNKNOWN_ERROR for an empty one. */
  lemma ResponseCodeIsMessage(e: ThrownError, opts: Options)
    requires !HandleError(e, opts).body.ExistingBody?
    ensures HandleError(e, opts).body.ErrorBody?
    ensures e.message != "" ==> HandleError(e, opts).body.code == e.message
    ensures e.message == "" ==> HandleError(e, opts).body.code == UnknownError
  {
  }
}

/**
 * The error answers of the drop endpoints: each endpoint's texts and
 * fallback, the idempotent handlers of join and claim, the admin refusal
 * of join, and claim's answer to a transaction conflict (Prisma's P2034).
 */
module DropsErrorResponses {
  import opened Wrappers
  import opened Records
  import opened ApiErrorHandler
  import DropHelpers
  import DropsController
  import Hex

  const AuthRequiredMessage: string := "Yetkilendirme gereklidir."
  const DropNotFoundMessage: string := "Drop bulunamadı."
  const AdminJoinMessage: string := "Admin kullanıcıları waitlist'e katılamaz."
  const LeaveWithCodeMessage: string := "Claim kodunuz olduğu için waitlist'ten ayrılamazsınız."
  const ClaimExistsMessage: string := "Zaten claim code'unuz mevcut."
  const ConflictMessage: string := "Başka bir işlem devam ediyor. Lütfen tekrar deneyin."
  const ConflictCode: string := "TRANSACTION_CONFLICT"
  /** Prisma's code for a transaction that could not be serialized. */
  const TransactionConflict: string := "P2034"

  /** A failure is thrown as `new Error(CODE)`: a message only. */
  function Thrown(f: Failure): (e: ThrownError)
    ensures e.message == f.Message() && e.status.None? && e.dbCode.None?
  {
    ThrownError(f.Message(), None, None)
  }

  /** `getActiveDrops`'s error options. */
  function ListingOptions(): Options
  {
    Options(map["UNAUTHORIZED" := AuthRequiredMessage], None, "Drop'lar listelenirken bir hata oluştu.")
  }

  /** `getWaitlistStatus`'s error options. */
  function StatusOptions(): Options
  {
    Options(map["UNAUTHORIZED" := AuthRequiredMessage], None, "Waitlist durumu kontrol edilirken bir hata oluştu.")
  }

  /** `joinWaitlist`'s idempotent handler: the user's entry for the drop, if any. */
  function JoinLookup(st: Store, userId: Id, dropId: Id): (l: Lookup)
    ensures l.Found? <==> DropsController.HasEntry(st.entries, userId, dropId)
    ensures l.Found? ==> l.resource.EntryResource? && l.resource.entry in st.entries
                         && DropHelpers.IsEntryOf(l.resource.entry, userId, dropId)
  {
    match DropHelpers.FindWaitlistEntry(st.entries, userId, dropId)
    case Some(i) => Found(EntryResource(st.entries[i]))
    case None => NothingFound
  }

  /** `joinWaitlist`'s error options. */
  function JoinOptions(st: Store, userId: Id, dropId: Id): Options
  {
    Options(map["NOT_FOUND" := DropNotFoundMessage, "UNAUTHORIZED" := AuthRequiredMessage],
            Some(JoinLookup(st, userId, dropId)), "Waitlist'e katılırken bir hata oluştu.")
  }

  /** `leaveWaitlist`'s error options. */
  function LeaveOptions(): Options
  {
    Options(map["UNAUTHORIZED" := AuthRequiredMessage, "HAS_CLAIM_CODE" := LeaveWithCodeMessage],
            None, "Waitlist'ten ayrılırken bir hata oluştu.")
  }

  /** `claimDropErrorHandler`'s idempotent handler: the user's code for the drop, if any. */
  function ClaimLookup(st: Store, userId: Id, dropId: Id): (l: Lookup)
    ensures l.Found? <==> DropsController.HasCode(st.codes, userId, dropId)
    ensures l.Found? ==> l.resource.CodeResource? && l.resource.claimCode in st.codes
                         && DropHelpers.IsCodeOf(l.resource.claimCode, userId, dropId)
  {
    match DropHelpers.FindClaimCode(st.codes, userId, dropId)
    case Some(c) => Found(CodeResource(c))
    case None => NothingFound
  }

  /** `claimDropErrorHandler`'s options. */
  function ClaimOptions(st: Store, userId: Id, dropId: Id): Options
  {
    Options(map["NOT_FOUND" := DropNotFoundMessage, "ALREADY_EXISTS" := ClaimExistsMessage],
            Some(ClaimLookup(st, userId, dropId)), "Claim işlemi sırasında bir hata oluştu.")
  }

  /** `joinWaitlist`'s answer to a failure: admins are refused directly, the rest go through the handler. */
  function JoinFailureResponse(f: Failure, st: Store, userId: Id, dropId: Id): (r: Response)
    ensures f == Forbidden <==> r == Response(403, MessageBody(AdminJoinMessage))
    ensures f != Forbidden ==> r == HandleError(Thrown(f), JoinOptions(st, userId, dropId))
  {
    if f == Forbidden then Response(403, MessageBody(AdminJoinMessage))
    else HandleError(Thrown(f), JoinOptions(st, userId, dropId))
  }

  /** `claimDrop`'s catch block: a transaction conflict is a 409, anything else goes to the claim handler. */
  function ClaimErrorResponse(e: ThrownError, st: Store, userId: Id, dropId: Id): (r: Response)
    ensures e.dbCode == Some(TransactionConflict) ==> r == Response(409, ErrorBody(ConflictMessage, ConflictCode))
    ensures e.dbCode != Some(TransactionConflict) ==> r == HandleError(e, ClaimOptions(st, userId, dropId))
  {
    if e.dbCode == Some(TransactionConflict) then Response(409, ErrorBody(ConflictMessage, ConflictCode))
    else HandleError(e, ClaimOptions(st, userId, dropId))
  }

  /** The claim endpoint's answer to each failure it can throw. */
  lemma ClaimFailureResponse(f: Failure, st: Store, holder: Id, dropId: Id)
    requires f in {Unauthorized, NotFound, ClaimWindowNotOpen, NotOnWaitlist, StockExhausted,
                   PositionTooHigh, NotYourTurn}
    ensures var r := ClaimErrorResponse(Thrown(f), st, holder, dropId);
            400 <= r.status < 500
            && (f == Unauthorized ==> r == Response(401, ErrorBody(AuthRequiredMessage, "UNAUTHORIZED")))
            && (f == NotFound ==> r == Response(404, ErrorBody(DropNotFoundMessage, "NOT_FOUND")))
            && (f != Unauthorized && f != NotFound ==>
                  f.Message() in DomainCodes && r == Response(400, ErrorBody(MessageMap[f.Message()], f.Message())))
  {
    if f == Unauthorized {
      UnauthorizedClaimResponse(st, holder, dropId);
    } else if f == NotFound {
      NotFoundClaimResponse(st, holder, dropId);
    } else {
      DomainCodeResponse(f, st, holder, dropId);
    }
  }

  /** A claim without a user answers 401 with the endpoint's text. */
  lemma UnauthorizedClaimResponse(st: Store, holder: Id, dropId: Id)
    ensures ClaimErrorResponse(Thrown(Unauthorized), st, holder, dropId)
            == Response(401, ErrorBody(AuthRequiredMessage, "UNAUTHORIZED"))
  {
    var opts := ClaimOptions(st, holder, dropId);
    GenericStatuses();
    AuthTextIsTheTables();
    MessagePrecedence(Thrown(Unauthorized), opts.customMessages, opts.defaultMessage);
  }

  /** The endpoints' text for a missing user is the table's. */
  lemma AuthTextIsTheTables()
    ensures "UNAUTHORIZED" in MessageMap && MessageMap["UNAUTHORIZED"] == AuthRequiredMessage
  {
  }

  /** A claim on an unknown drop answers 404 with the endpoint's text. */
  lemma NotFoundClaimResponse(st: Store, holder: Id, dropId: Id)
    ensures ClaimErrorResponse(Thrown(NotFound), st, holder, dropId)
            == Response(404, ErrorBody(DropNotFoundMessage, "NOT_FOUND"))
  {
    var opts := ClaimOptions(st, holder, dropId);
    GenericStatuses();
    assert "NOT_FOUND" in opts.customMessages && opts.customMessages["NOT_FOUND"] == DropNotFoundMessage;
    MessagePrecedence(Thrown(NotFound), opts.customMessages, opts.defaultMessage);
  }

  /** A claim-flow refusal answers 400 with the fixed table's text and its code. */
  lemma DomainCodeResponse(f: Failure, st: Store, holder: Id, dropId: Id)
    requires f in {ClaimWindowNotOpen, NotOnWaitlist, StockExhausted, PositionTooHigh, NotYourTurn}
    ensures f.Message() in DomainCodes
    ensures ClaimErrorResponse(Thrown(f), st, holder, dropId) == Response(400, ErrorBody(MessageMap[f.Message()], f.Message()))
  {
    var opts := ClaimOptions(st, holder, dropId);
    assert f.Message() !in opts.customMessages;
    DomainCodesHaveTexts();
    MessagePrecedence(Thrown(f), opts.customMessages, opts.defaultMessage);
    DomainCodesAre400(Thrown(f), opts);
  }

  /**
   * Every way `claimDrop` can refuse is a client error: 401 without a
   * user, 404 for an unknown drop with the endpoint's text, and 400 for
   * each turn and stock rule with the fixed table's text.
   */
  lemma ClaimFailuresAreClientErrors(st: Store, userId: Option<Id>, dropId: Id, now: int,
                                     draws: seq<seq<Hex.Byte>>, holder: Id)
    requires DropHelpers.WellFormedDraws(draws) && DropHelpers.HasFreshDraw(st.codes, draws)
    requires DropsController.Claim(st, userId, dropId, now, draws).Err?
    ensures var f := DropsController.Claim(st, userId, dropId, now, draws).error;
            var r := ClaimErrorResponse(Thrown(f), st, holder, dropId);
            400 <= r.status < 500
            && (f == Unauthorized ==> r == Response(401, ErrorBody(AuthRequiredMessage, "UNAUTHORIZED")))
            && (f == NotFound ==> r == Response(404, ErrorBody(DropNotFoundMessage, "NOT_FOUND")))
            && (f != Unauthorized && f != NotFound ==>
                  f.Message() in DomainCodes && r == Response(400, ErrorBody(MessageMap[f.Message()], f.Message())))
  {
    ClaimFailureResponse(DropsController.Claim(st, userId, dropId, now, draws).error, st, holder, dropId);
  }

  /**
   * A user who holds a code and asks to leave is refused with the
   * endpoint's own text but status 500: HAS_CLAIM_CODE is not in the
   * status table.
   */
  lemma LeaveWithCodeAnswers500(st: Store, userId: Option<Id>, dropId: Id)
    requires DropsController.Leave(st, userId, dropId) == Err(HasClaimCode)
    ensures HandleError(Thrown(HasClaimCode), LeaveOptions())
            == Response(500, ErrorBody(LeaveWithCodeMessage, "HAS_CLAIM_CODE"))
  {
    HasClaimCodeResponse();
  }

  /** The leave handler's answer to a thrown `HAS_CLAIM_CODE`, whatever the store. */
  lemma HasClaimCodeResponse()
    ensures HandleError(Thrown(HasClaimCode), LeaveOptions())
            == Response(500, ErrorBody(LeaveWithCodeMessage, "HAS_CLAIM_CODE"))
  {
    var e := Thrown(HasClaimCode);
    UnmappedFailuresAre500();
    assert e == ThrownError("HAS_CLAIM_CODE", None, None);
    MessagePrecedence(e, LeaveOptions().customMessages, LeaveOptions().defaultMessage);
  }

  /**
   * A join that loses a unique-constraint race to a concurrent join of
   * the same user answers 200 with the entry that won; without such an
   * entry the raw database error is a 500.
   */
  lemma JoinRaceReturnsExistingEntry(e: ThrownError, st: Store, userId: Id, dropId: Id)
    requires e.dbCode == Some(UniqueViolation)
    ensures DropsController.HasEntry(st.entries, userId, dropId) ==>
              var r := HandleError(e, JoinOptions(st, userId, dropId));
              r.status == 200 && r.body.ExistingBody? && r.body.code == AlreadyExistsCode
              && r.body.resource.EntryResource? && r.body.resource.entry in st.entries
              && DropHelpers.IsEntryOf(r.body.resource.entry, userId, dropId)
    ensures !DropsController.HasEntry(st.entries, userId, dropId) ==>
              HandleError(e, JoinOptions(st, userId, dropId)).status == ResolveStatus(e)
    ensures !DropsController.HasEntry(st.entries, userId, dropId) && !TruthyStatus(e.status)
            && ErrorCode(e) !in StatusMap ==>
              HandleError(e, JoinOptions(st, userId, dropId)).status == 500
  {
  }

  /**
   * A claim that loses a unique-constraint race answers 200 with the code
   * the user already holds; a transaction conflict is a 409 whatever the
   * store holds.
   */
  lemma ClaimRaceReturnsExistingCode(e: ThrownError, st: Store, userId: Id, dropId: Id)
    ensures e.dbCode == Some(UniqueViolation) && DropsController.HasCode(st.codes, userId, dropId) ==>
              var r := ClaimErrorResponse(e, st, userId, dropId);
              r.status == 200 && r.body.ExistingBody? && r.body.code == AlreadyExistsCode
              && r.body.resource.CodeResource? && r.body.resource.claimCode in st.codes
              && DropHelpers.IsCodeOf(r.body.resource.claimCode, userId, dropId)
    ensures e.dbCode == Some(TransactionConflict) ==> ClaimErrorResponse(e, st, userId, dropId).status == 409
  {
  }
}

=== FILE: countdown_timer.dfy ===
/**
 * The `CountdownTimer` component: the time left until a target instant,
 * split into days, hours, minutes and seconds, each shown with at least
 * two digits. Instants are milliseconds; the clock reading is an input.
 */
module CountdownTimer {
  import opened JsNumbers
  import JsStrings

  const MsPerSecond: int := 1000
  const MsPerMinute: int := 1000 * 60
  const MsPerHour: int := 1000 * 60 * 60
  const MsPerDay: int := 1000 * 60 * 60 * 24

  /** The component's `timeLeft` state. */
  datatype TimeLeft = TimeLeft(days: int, hours: int, minutes: int, seconds: int, isPast: bool)

  /** One run of `calculateTimeLeft`: the new state, and whether `onComplete` is called. */
  datatype Tick = Tick(timeLeft: TimeLeft, callsOnComplete: bool)

  /**
   * `calculateTimeLeft`: past (all zero, `onComplete` called) when the
   * target is not after now; otherwise whole days, then the hours,
   * minutes and seconds of what remains, each by JavaScript's `%` and
   * `Math.floor`.
   */
  function CalculateTimeLeft(target: int, now: int): (t: Tick)
    ensures t.callsOnComplete <==> t.timeLeft.isPast
  {
    var difference := target - now;
    if difference <= 0 then Tick(TimeLeft(0, 0, 0, 0, true), true)
    else
      Tick(TimeLeft(difference / MsPerDay,
                    JsRem(difference, MsPerDay) / MsPerHour,
                    JsRem(difference, MsPerHour) / MsPerMinute,
                    JsRem(difference, MsPerMinute) / MsPerSecond,
                    false), false)
  }

  /** The milliseconds a decomposition stands for. */
  function Total(t: TimeLeft): int
  {
    t.days * MsPerDay + t.hours * MsPerHour + t.minutes * MsPerMinute + t.seconds * MsPerSecond
  }

  /** Reducing modulo a multiple of `m`, then modulo `m`, is reducing modulo `m`. */
  lemma ModOfMultiple(x: int, m: int, k: int)
    requires x >= 0 && m > 0 && k > 0
    ensures (x % (k * m)) % m == x % m
  {
    var q := x / (k * m);
    var r := x % (k * m);
    assert x == q * (k * m) + r;
    assert r == (r / m) * m + r % m;
    assert q * (k * m) == (q * k) * m;
    DivModUnique(x, m, q * k + r / m, r % m);
  }

  /**
   * The target is reached exactly when the difference is not positive;
   * then every field is zero.
   */
  lemma PastIffReached(target: int, now: int)
    ensures CalculateTimeLeft(target, now).timeLeft.isPast <==> target <= now
    ensures target <= now ==> CalculateTimeLeft(target, now).timeLeft == TimeLeft(0, 0, 0, 0, true)
  {
  }

  /**
   * Before the target: days are the whole days left, hours lie in 0..23
   * and minutes and seconds in 0..59, and together they account for the
   * difference up to less than one second.
   */
  lemma DecompositionIsExact(target: int, now: int)
    requires target > now
    ensures var t := CalculateTimeLeft(target, now).timeLeft;
            && t.days == (target - now) / MsPerDay
            && 0 <= t.hours <= 23 && 0 <= t.minutes <= 59 && 0 <= t.seconds <= 59
            && Total(t) <= target - now < Total(t) + MsPerSecond
  {
    var d := target - now;
    JsRemOfNonNegative(d, MsPerDay);
    JsRemOfNonNegative(d, MsPerHour);
    JsRemOfNonNegative(d, MsPerMinute);
    Split(d);
  }

  /**
   * The Euclidean form of the decomposition: whole days, then hours,
   * minutes and seconds of the remainders, add up to all but the
   * milliseconds.
   */
  lemma Split(d: int)
    requires d > 0
    ensures 0 <= (d % MsPerDay) / MsPerHour <= 23
    ensures 0 <= (d % MsPerHour) / MsPerMinute <= 59
    ensures 0 <= (d % MsPerMinute) / MsPerSecond <= 59
    ensures var total := (d / MsPerDay) * MsPerDay + ((d % MsPerDay) / MsPerHour) * MsPerHour
                         + ((d % MsPerHour) / MsPerMinute) * MsPerMinute
                         + ((d % MsPerMinute) / MsPerSecond) * MsPerSecond;
            total <= d < total + MsPerSecond
  {
    ModOfMultiple(d, MsPerHour, 24);
    ModOfMultiple(d, MsPerMinute, 60);
    ModOfMultiple(d, MsPerSecond, 60);
    assert d == (d / MsPerDay) * MsPerDay + d % MsPerDay;
    assert d % MsPerDay == ((d % MsPerDay) / MsPerHour) * MsPerHour + d % MsPerHour;
    assert d % MsPerHour == ((d % MsPerHour) / MsPerMinute) * MsPerMinute + d % MsPerMinute;
    assert d % MsPerMinute == ((d % MsPerMinute) / MsPerSecond) * MsPerSecond + d % MsPerSecond;
  }

  /** `value.toString().padStart(2, '0')`: at least two digits that read back as the value. */
  function Pad2(value: nat): (s: string)
    ensures |s| >= 2
    ensures forall i :: 0 <= i < |s| ==> JsStrings.IsDigit(s[i])
    ensures JsStrings.DecimalValue(s) == value
  {
    PaddedReadsBack(value);
    JsStrings.PadStart(JsStrings.DecimalString(value), 2, '0')
  }

  /** A leading zero does not change the value the digits read as. */
  lemma PaddedReadsBack(value: nat)
    ensures JsStrings.DecimalValue(JsStrings.PadStart(JsStrings.DecimalString(value), 2, '0')) == value
  {
    JsStrings.DecimalLength(value);
    JsStrings.DecimalRoundTrip(value);
    var digits := JsStrings.DecimalString(value);
    if value < 10 {
      var s := JsStrings.PadStart(digits, 2, '0');
      assert s == ['0'] + digits;
      assert s[..|s| - 1] == ['0'];
      assert JsStrings.DecimalValue(['0']) == 0 by {
        assert ['0'][..0] == [];
      }
      assert digits == [digits[0]] && digits[..0] == [];
    }
  }

  /**
   * Values 0..9 get a leading zero, 10..99 keep their two digits, and
   * larger values keep all of theirs.
   */
  lemma Pad2Shows(value: nat)
    ensures value < 10 ==> Pad2(value) == ['0'] + JsStrings.DecimalString(value) && |Pad2(value)| == 2
    ensures 10 <= value < 100 ==> Pad2(value) == JsStrings.DecimalString(value) && |Pad2(value)| == 2
    ensures value >= 100 ==> Pad2(value) == JsStrings.DecimalString(value)
  {
    JsStrings.DecimalLength(value);
  }

  /** The four boxes shown before the target: days, hours, minutes, seconds. */
  function Display(t: TimeLeft): (boxes: seq<string>)
    requires !t.isPast && t.days >= 0 && t.hours >= 0 && t.minutes >= 0 && t.seconds >= 0
    ensures |boxes| == 4
    ensures JsStrings.DecimalValue(boxes[0]) == t.days && JsStrings.DecimalValue(boxes[1]) == t.hours
    ensures JsStrings.DecimalValue(boxes[2]) == t.minutes && JsStrings.DecimalValue(boxes[3]) == t.seconds
  {
    var days, hours, minutes, seconds := Pad2(t.days), Pad2(t.hours), Pad2(t.minutes), Pad2(t.seconds);
    assert JsStrings.DecimalValue(days) == t.days && JsStrings.DecimalValue(hours) == t.hours;
    assert JsStrings.DecimalValue(minutes) == t.minutes && JsStrings.DecimalValue(seconds) == t.seconds;
    [days, hours, minutes, seconds]
  }

  /** Two days, three hours, fifteen minutes and thirty seconds ahead show as 02, 03, 15, 30. */
  lemma TwoDaysExample(now: int)
    ensures var t := CalculateTimeLeft(now + 2 * MsPerDay + 3 * MsPerHour + 15 * MsPerMinute + 30 * MsPerSecond,
                                       now).timeLeft;
            t == TimeLeft(2, 3, 15, 30, false)
            && Display(t) == ["02", "03", "15", "30"]
  {
    TwoDaysFields(now);
    PaddedExamples();
  }

  /** The fields for a target two days, three hours, fifteen minutes and thirty seconds ahead. */
  lemma TwoDaysFields(now: int)
    ensures CalculateTimeLeft(now + 2 * MsPerDay + 3 * MsPerHour + 15 * MsPerMinute + 30 * MsPerSecond,
                              now).timeLeft == TimeLeft(2, 3, 15, 30, false)
  {
    var d := 2 * MsPerDay + 3 * MsPerHour + 15 * MsPerMinute + 30 * MsPerSecond;
    assert d == 184530000;
    assert now + d - now == d;
    JsRemOfNonNegative(d, MsPerDay);
    JsRemOfNonNegative(d, MsPerHour);
    JsRemOfNonNegative(d, MsPerMinute);
  }

  /** The boxes for 2, 3, 15 and 30. */
  lemma PaddedExamples()
    ensures Pad2(2) == "02" && Pad2(3) == "03" && Pad2(15) == "15" && Pad2(30) == "30"
  {
    PaddedOneDigit(2);
    PaddedOneDigit(3);
    PaddedTwoDigits(15);
    PaddedTwoDigits(30);
  }

  /** A one-digit value gets a leading zero. */
  lemma PaddedOneDigit(value: nat)
    requires value < 10
    ensures Pad2(value) == ['0', JsStrings.DigitChar(value)]
  {
  }

  /** A two-digit value is shown as its two digits. */
  lemma PaddedTwoDigits(value: nat)
    requires 10 <= value < 100
    ensures Pad2(value) == [JsStrings.DigitChar(value / 10), JsStrings.DigitChar(value % 10)]
  {
    assert JsStrings.DecimalString(value / 10) == [JsStrings.DigitChar(value / 10)];
  }
}

=== FILE: drop_helpers.dfy ===
/**
 * The lookups and checks the drop endpoints share: finding a drop, a
 * waitlist entry or a claim code, the claim-window tests, the
 * authentication guard, and drawing a claim code nobody holds yet.
 * Recalculation of positions is in the Ranking module.
 */
module DropHelpers {
  import opened Wrappers
  import opened Records
  import opened Hex

  /** `isClaimWindowOpen`: both ends of the window are inclusive. */
  predicate IsClaimWindowOpen(drop: Drop, now: int)
  {
    drop.claimWindowStart <= now <= drop.claimWindowEnd
  }

  /** `isClaimWindowClosed`: the window has ended strictly before `now`. */
  predicate IsClaimWindowClosed(drop: Drop, now: int)
  {
    drop.claimWindowEnd < now
  }

  /**
   * A drop is in exactly one phase at a time: not yet open, open, or
   * closed. At the end instant the window is still open and not yet closed.
   */
  lemma WindowPhases(drop: Drop, now: int)
    ensures !(IsClaimWindowOpen(drop, now) && IsClaimWindowClosed(drop, now))
    ensures IsClaimWindowOpen(drop, now) <==> !IsClaimWindowClosed(drop, now) && drop.claimWindowStart <= now
    ensures !IsClaimWindowOpen(drop, now) && !IsClaimWindowClosed(drop, now) ==> now < drop.claimWindowStart
    ensures now == drop.claimWindowEnd && drop.claimWindowStart <= now ==>
              IsClaimWindowOpen(drop, now) && !IsClaimWindowClosed(drop, now)
  {
  }

  predicate HasDrop(drops: seq<Drop>, id: Id)
  {
    exists i :: 0 <= i < |drops| && drops[i].id == id
  }

  /** `findDropById`: the drop with the given id, or NOT_FOUND. */
  function FindDropById(drops: seq<Drop>, id: Id): (r: Result<Drop, Failure>)
    ensures r.Ok? <==> HasDrop(drops, id)
    ensures r.Ok? ==> r.value.id == id && r.value in drops
    ensures r.Ok? ==> exists i :: 0 <= i < |drops| && drops[i] == r.value && forall j :: 0 <= j < i ==> drops[j].id != id
    ensures r.Err? ==> r.error == NotFound
  {
    if |drops| == 0 then Err(NotFound)
    else if drops[0].id == id then Ok(drops[0])
    else
      var rest := FindDropById(drops[1..], id);
      assert HasDrop(drops, id) ==> HasDrop(drops[1..], id) by {
        if HasDrop(drops, id) {
          var i :| 0 <= i < |drops| && drops[i].id == id;
          assert drops[1..][i - 1].id == id;
        }
      }
      if rest.Ok? then
        var i :| 0 <= i < |drops[1..]| && drops[1..][i] == rest.value && forall j :: 0 <= j < i ==> drops[1..][j].id != id;
        assert drops[i + 1] == rest.value;
        assert forall j :: 0 <= j < i + 1 ==> drops[j].id != id by {
          forall j | 0 <= j < i + 1 ensures drops[j].id != id {
            if j > 0 { assert drops[j] == drops[1..][j - 1]; }
          }
        }
        rest
      else rest
  }

  predicate IsEntryOf(e: WaitlistEntry, userId: Id, dropId: Id)
  {
    e.userId == userId && e.dropId == dropId
  }

  /** `findWaitlistEntry`: the index of the user's entry for the drop, if any. */
  function FindWaitlistEntry(es: seq<WaitlistEntry>, userId: Id, dropId: Id): (r: Option<nat>)
    ensures r.None? <==> forall i :: 0 <= i < |es| ==> !IsEntryOf(es[i], userId, dropId)
    ensures r.Some? ==> r.value < |es| && IsEntryOf(es[r.value], userId, dropId)
    ensures r.Some? ==> forall j :: 0 <= j < r.value ==> !IsEntryOf(es[j], userId, dropId)
    decreases |es|
  {
    if |es| == 0 then None
    else if IsEntryOf(es[|es| - 1], userId, dropId) then
      match FindWaitlistEntry(es[..|es| - 1], userId, dropId)
      case Some(i) => Some(i)
      case None => Some(|es| - 1)
    else
      match FindWaitlistEntry(es[..|es| - 1], userId, dropId)
      case Some(i) => Some(i)
      case None => None
  }

  predicate IsCodeOf(c: ClaimCode, userId: Id, dropId: Id)
  {
    c.userId == userId && c.dropId == dropId
  }

  /** `claimCode.findFirst({ userId, dropId })`: the first code the user holds for the drop. */
  function FindClaimCode(codes: seq<ClaimCode>, userId: Id, dropId: Id): (r: Option<ClaimCode>)
    ensures r.None? <==> forall i :: 0 <= i < |codes| ==> !IsCodeOf(codes[i], userId, dropId)
    ensures r.Some? ==> IsCodeOf(r.value, userId, dropId)
    ensures r.Some? ==> exists i :: 0 <= i < |codes| && codes[i] == r.value
                          && forall j :: 0 <= j < i ==> !IsCodeOf(codes[j], userId, dropId)
  {
    if |codes| == 0 then None
    else if IsCodeOf(codes[0], userId, dropId) then Some(codes[0])
    else
      var rest := FindClaimCode(codes[1..], userId, dropId);
      assert forall i :: 1 <= i < |codes| ==> codes[i] == codes[1..][i - 1];
      if rest.Some? then
        var i :| 0 <= i < |codes[1..]| && codes[1..][i] == rest.value
                 && forall j :: 0 <= j < i ==> !IsCodeOf(codes[1..][j], userId, dropId);
        assert codes[i + 1] == rest.value;
        rest
      else rest
  }

  /** `requireAuth`: an absent or empty user id is UNAUTHORIZED. */
  function RequireAuth(userId: Option<Id>): (r: Result<Id, Failure>)
    ensures r.Ok? <==> userId.Some? && userId.value != ""
    ensures r.Ok? ==> r.value == userId.value
    ensures r.Err? ==> r.error == Unauthorized
  {
    match userId
    case Some(u) => if u == "" then Err(Unauthorized) else Ok(u)
    case None => Err(Unauthorized)
  }

  /** Some stored claim code carries the text `code`. */
  predicate CodeInUse(codes: seq<ClaimCode>, code: string)
  {
    exists i :: 0 <= i < |codes| && codes[i].code == code
  }

  /** Eight random bytes per draw: the bytes `randomBytes(8)` would return, in order. */
  predicate WellFormedDraws(draws: seq<seq<Byte>>)
  {
    forall i :: 0 <= i < |draws| ==> |draws[i]| == 8
  }

  /** Some draw yields an unused code, so the generation loop stops within the draws. */
  predicate HasFreshDraw(codes: seq<ClaimCode>, draws: seq<seq<Byte>>)
  {
    exists i :: 0 <= i < |draws| && !CodeInUse(codes, EncodeUpper(draws[i]))
  }

  /**
   * `generateUniqueClaimCode`: keep drawing eight random bytes until their
   * upper-case hexadecimal text is not a stored code. The random source is
   * the sequence `draws`; the result is the first draw that is free.
   */
  function GenerateUniqueClaimCode(codes: seq<ClaimCode>, draws: seq<seq<Byte>>): (code: string)
    requires WellFormedDraws(draws) && HasFreshDraw(codes, draws)
    ensures |code| == 16 && IsUpperHexString(code)
    ensures !CodeInUse(codes, code)
    ensures exists k :: 0 <= k < |draws| && code == EncodeUpper(draws[k])
              && forall j :: 0 <= j < k ==> CodeInUse(codes, EncodeUpper(draws[j]))
  {
    var first := EncodeUpper(draws[0]);
    if !CodeInUse(codes, first) then first
    else
      assert HasFreshDraw(codes, draws[1..]) by {
        var i :| 0 <= i < |draws| && !CodeInUse(codes, EncodeUpper(draws[i]));
        assert draws[1..][i - 1] == draws[i];
      }
      var code := GenerateUniqueClaimCode(codes, draws[1..]);
      var k :| 0 <= k < |draws[1..]| && code == EncodeUpper(draws[1..][k])
               && forall j :: 0 <= j < k ==> CodeInUse(codes, EncodeUpper(draws[1..][j]));
      assert code == EncodeUpper(draws[k + 1]);
      assert forall j :: 0 <= j < k + 1 ==> CodeInUse(codes, EncodeUpper(draws[j])) by {
        forall j | 0 <= j < k + 1 ensures CodeInUse(codes, EncodeUpper(draws[j])) {
          if j > 0 { assert draws[j] == draws[1..][j - 1]; }
        }
      }
      code
  }

  /** The drawn code is the text of its eight bytes, which can be read back from it. */
  lemma ClaimCodeDecodes(codes: seq<ClaimCode>, draws: seq<seq<Byte>>)
    requires WellFormedDraws(draws) && HasFreshDraw(codes, draws)
    ensures IsHexString(GenerateUniqueClaimCode(codes, draws))
    ensures Decode(GenerateUniqueClaimCode(codes, draws)) in draws
  {
    var code := GenerateUniqueClaimCode(codes, draws);
    var k :| 0 <= k < |draws| && code == EncodeUpper(draws[k])
             && forall j :: 0 <= j < k ==> CodeInUse(codes, EncodeUpper(draws[j]));
    DecodeEncode(draws[k]);
  }
}

=== FILE: drops_controller.dfy ===
/**
 * The drop endpoints: join and leave a waitlist, read one's status, claim
 * a code, and the pagination arithmetic of the active-drop listing. Each
 * endpoint runs in one database transaction, so each is a function from
 * the store before to the store after (or to the error it throws).
 */
module DropsController {
  import opened Wrappers
  import opened Records
  import opened Ranking
  import opened DropHelpers
  import opened Hex
  import SeedGenerator
  import PriorityScore

  // ---------------------------------------------------------------------
  // Counting codes.

  /** `claimCode.count({ where: { dropId } })`. */
  function ClaimCount(codes: seq<ClaimCode>, d: Id): nat
  {
    if |codes| == 0 then 0
    else ClaimCount(codes[..|codes| - 1], d) + (if codes[|codes| - 1].dropId == d then 1 else 0)
  }

  lemma ClaimCountAppend(codes: seq<ClaimCode>, c: ClaimCode, d: Id)
    ensures ClaimCount(codes + [c], d) == ClaimCount(codes, d) + (if c.dropId == d then 1 else 0)
  {
    assert (codes + [c])[..|codes|] == codes;
  }

  /** The count is the number of stored codes of the drop. */
  lemma ClaimCountIsCardinality(codes: seq<ClaimCode>, d: Id)
    ensures ClaimCount(codes, d) == |set i | 0 <= i < |codes| && codes[i].dropId == d|
  {
    CodesBelowCount(codes, d, |codes|);
    assert codes[..|codes|] == codes;
  }

  /** Indices below `n` of the codes of drop `d`. */
  ghost function CodesBelow(codes: seq<ClaimCode>, d: Id, n: nat): set<int>
    requires n <= |codes|
  {
    set i | 0 <= i < n && codes[i].dropId == d
  }

  lemma {:induction false} CodesBelowCount(codes: seq<ClaimCode>, d: Id, n: nat)
    requires n <= |codes|
    ensures |CodesBelow(codes, d, n)| == ClaimCount(codes[..n], d)
  {
    if n == 0 {
      assert CodesBelow(codes, d, 0) == {};
    } else {
      CodesBelowCount(codes, d, n - 1);
      assert codes[..n][..n - 1] == codes[..n - 1];
      var below, before := CodesBelow(codes, d, n), CodesBelow(codes, d, n - 1);
      assert forall i :: i in below <==> i in before || (i == n - 1 && n - 1 in below);
      if n - 1 in below {
        assert below == before + {n - 1};
      } else {
        assert below == before;
      }
    }
  }

  predicate HasEntry(es: seq<WaitlistEntry>, u: Id, d: Id)
  {
    exists i :: 0 <= i < |es| && IsEntryOf(es[i], u, d)
  }

  predicate HasCode(codes: seq<ClaimCode>, u: Id, d: Id)
  {
    exists i :: 0 <= i < |codes| && IsCodeOf(codes[i], u, d)
  }

  // ---------------------------------------------------------------------
  // The store invariant the endpoints keep.

  ghost predicate UniqueDropIds(drops: seq<Drop>)
  {
    forall i, j :: 0 <= i < |drops| && 0 <= j < |drops| && i != j ==> drops[i].id != drops[j].id
  }

  /** The `userId_dropId` unique key of the waitlist table. */
  ghost predicate UniqueEntries(es: seq<WaitlistEntry>)
  {
    forall i, j :: 0 <= i < |es| && 0 <= j < |es| && i != j ==> !IsEntryOf(es[j], es[i].userId, es[i].dropId)
  }

  /** At most one code per user and drop. */
  ghost predicate OneCodePerHolder(codes: seq<ClaimCode>)
  {
    forall i, j :: 0 <= i < |codes| && 0 <= j < |codes| && i != j ==> !IsCodeOf(codes[j], codes[i].userId, codes[i].dropId)
  }

  /** The unique key on the code text. */
  ghost predicate UniqueCodeTexts(codes: seq<ClaimCode>)
  {
    forall i, j :: 0 <= i < |codes| && 0 <= j < |codes| && i != j ==> codes[i].code != codes[j].code
  }

  ghost predicate StockRespected(st: Store)
  {
    forall drop :: drop in st.drops ==> ClaimCount(st.codes, drop.id) <= drop.stock
  }

  ghost predicate HoldersOnWaitlist(st: Store)
  {
    forall i :: 0 <= i < |st.codes| ==> HasEntry(st.entries, st.codes[i].userId, st.codes[i].dropId)
  }

  /**
   * What the endpoints keep true: unique keys, every drop's positions as
   * recalculation writes them (hence 1..N, in key order), never more codes
   * than stock, and only waitlisted users holding codes.
   */
  ghost predicate Valid(st: Store)
  {
    && UniqueDropIds(st.drops)
    && UniqueEntries(st.entries)
    && (forall d :: Canonical(st.entries, d))
    && OneCodePerHolder(st.codes)
    && UniqueCodeTexts(st.codes)
    && StockRespected(st)
    && HoldersOnWaitlist(st)
  }

  /** The empty database satisfies the invariant. */
  lemma EmptyStoreIsValid(users: map<Id, User>)
    ensures Valid(Store([], users, [], []))
  {
  }

  /** In a valid store every drop's positions run 1..N without gaps, in key order. */
  lemma ValidPositionsAreDense(st: Store, d: Id)
    requires Valid(st)
    ensures Dense(st.entries, d) && Ordered(st.entries, d)
  {
    assert Canonical(st.entries, d);
    CanonicalIsDenseAndOrdered(st.entries, d);
  }

  // ---------------------------------------------------------------------
  // joinWaitlist.

  const AdminRole: string := "ADMIN"

  datatype Joined = Joined(store: Store, entry: WaitlistEntry, alreadyJoined: bool)

  /** The caller passed authentication and is not an administrator. */
  predicate MayJoin(userId: Option<Id>, role: Option<string>)
  {
    RequireAuth(userId).Ok? && role != Some(AdminRole)
  }

  /** The caller gets past every check `joinWaitlist` makes before looking at the waitlist. */
  predicate JoinReachesWaitlist(st: Store, userId: Option<Id>, role: Option<string>, dropId: Id, now: int)
  {
    MayJoin(userId, role) && HasDrop(st.drops, dropId)
    && !IsClaimWindowClosed(FindDropById(st.drops, dropId).value, now)
  }

  /**
   * `joinWaitlist`: authentication, then administrators are refused, then
   * the drop must exist and its window must not have ended. A user already
   * on the waitlist gets the entry back unchanged; otherwise the entry is
   * written with the computed score and the drop's positions recalculated.
   */
  function Join(st: Store, k: SeedGenerator.Coefficients, userId: Option<Id>, role: Option<string>,
                dropId: Id, now: int): (r: Result<Joined, Failure>)
    requires k.Positive()
    ensures RequireAuth(userId).Err? ==> r == Err(Unauthorized)
    ensures RequireAuth(userId).Ok? && role == Some(AdminRole) ==> r == Err(Forbidden)
    ensures MayJoin(userId, role) && !HasDrop(st.drops, dropId) ==> r == Err(NotFound)
    ensures (MayJoin(userId, role) && HasDrop(st.drops, dropId)
             && IsClaimWindowClosed(FindDropById(st.drops, dropId).value, now)) ==> r == Err(ClaimWindowClosed)
    ensures r.Ok? ==> JoinReachesWaitlist(st, userId, role, dropId, now)
    ensures JoinReachesWaitlist(st, userId, role, dropId, now) && HasEntry(st.entries, userId.value, dropId) ==>
              r.Ok? && r.value.alreadyJoined
    ensures JoinReachesWaitlist(st, userId, role, dropId, now) && !HasEntry(st.entries, userId.value, dropId) ==>
              if userId.value in st.users then r.Ok? && !r.value.alreadyJoined else r == Err(UserNotFound)
    ensures r.Err? ==> r.error in {Unauthorized, Forbidden, NotFound, ClaimWindowClosed, UserNotFound}
    ensures r.Ok? ==> IsEntryOf(r.value.entry, userId.value, dropId)
    ensures r.Ok? ==> (r.value.alreadyJoined <==> HasEntry(st.entries, userId.value, dropId))
    ensures r.Ok? && r.value.alreadyJoined ==> r.value.store == st && r.value.entry in st.entries
    ensures r.Ok? && !r.value.alreadyJoined ==>
              && var es := r.value.store.entries;
              && r.value.store == st.(entries := es)
              && |es| == |st.entries| + 1
              && es[|st.entries|] == r.value.entry
              && r.value.entry.createdAt == now
              && r.value.entry.position == RankOf(es, dropId, |st.entries|)
              && es == Recalculate(st.entries + [r.value.entry.(position := 0)], dropId)
              && Size(es, dropId) == Size(st.entries, dropId) + 1
              && PriorityScore.CalculatePriorityScore(st, k, userId.value, dropId, now)
                 == Ok(r.value.entry.priorityScore)
  {
    var u :- RequireAuth(userId);
    if role == Some(AdminRole) then Err(Forbidden)
    else
      var drop :- FindDropById(st.drops, dropId);
      if IsClaimWindowClosed(drop, now) then Err(ClaimWindowClosed)
      else
        match FindWaitlistEntry(st.entries, u, dropId)
        case Some(i) => Ok(Joined(st, st.entries[i], true))
        case None =>
          var score :- PriorityScore.CalculatePriorityScore(st, k, u, dropId, now);
          var added := WaitlistEntry(u, dropId, score, now, 0);
          var es := Recalculate(st.entries + [added], dropId);
          RecalculateKeepsRankingData(st.entries + [added], dropId);
          RanksAgree(st.entries + [added], es, dropId);
          SizeOfConcat(st.entries, [added], dropId);
          assert [added][..0] == [];
          assert (st.entries + [added])[|st.entries|] == added;
          assert es[|st.entries|].(position := 0) == added;
          Ok(Joined(st.(entries := es), es[|st.entries|], false))
  }

  /**
   * Joining again at any time before the window ends changes nothing the
   * first join did not, and returns the same entry.
   */
  lemma JoinIsIdempotent(st: Store, k: SeedGenerator.Coefficients, userId: Option<Id>, role: Option<string>,
                         dropId: Id, now: int, later: int)
    requires k.Positive() && Valid(st)
    requires Join(st, k, userId, role, dropId, now).Ok?
    requires !IsClaimWindowClosed(FindDropById(st.drops, dropId).value, later)
    ensures var first := Join(st, k, userId, role, dropId, now).value;
            var again := Join(first.store, k, userId, role, dropId, later);
            again == Ok(Joined(first.store, first.entry, true))
  {
    var first := Join(st, k, userId, role, dropId, now).value;
    var u := userId.value;
    var es := first.store.entries;
    var i := FindWaitlistEntry(es, u, dropId);
    if !first.alreadyJoined {
      assert IsEntryOf(es[|st.entries|], u, dropId);
      JoinKeepsUniqueEntries(st, k, userId, role, dropId, now);
    } else {
      assert UniqueEntries(st.entries);
    }
  }

  lemma JoinKeepsUniqueEntries(st: Store, k: SeedGenerator.Coefficients, userId: Option<Id>, role: Option<string>,
                               dropId: Id, now: int)
    requires k.Positive() && UniqueEntries(st.entries)
    requires Join(st, k, userId, role, dropId, now).Ok?
    ensures UniqueEntries(Join(st, k, userId, role, dropId, now).value.store.entries)
  {
    var j := Join(st, k, userId, role, dropId, now).value;
    if !j.alreadyJoined {
      var es := j.store.entries;
      var n := |st.entries|;
      forall a, b | 0 <= a < |es| && 0 <= b < |es| && a != b
        ensures !IsEntryOf(es[b], es[a].userId, es[a].dropId)
      {
        if a < n && b < n {
          assert IsEntryOf(es[b], es[a].userId, es[a].dropId) <==> IsEntryOf(st.entries[b], st.entries[a].userId, st.entries[a].dropId);
        } else if a == n {
          assert IsEntryOf(es[b], es[a].userId, es[a].dropId) <==> IsEntryOf(st.entries[b], userId.value, dropId);
        } else {
          assert IsEntryOf(es[b], es[a].userId, es[a].dropId) <==> IsEntryOf(st.entries[a], userId.value, dropId);
        }
      }
    }
  }

  /** Every successful join keeps the store invariant. */
  lemma JoinPreservesValid(st: Store, k: SeedGenerator.Coefficients, userId: Option<Id>, role: Option<string>,
                           dropId: Id, now: int)
    requires k.Positive() && Valid(st)
    requires Join(st, k, userId, role, dropId, now).Ok?
    ensures Valid(Join(st, k, userId, role, dropId, now).value.store)
  {
    var j := Join(st, k, userId, role, dropId, now).value;
    if !j.alreadyJoined {
      var st' := j.store;
      var added := j.entry.(position := 0);
      var appended := st.entries + [added];
      assert st'.entries == Recalculate(appended, dropId);
      JoinKeepsUniqueEntries(st, k, userId, role, dropId, now);
      forall x
        ensures Canonical(st'.entries, x)
      {
        if x == dropId {
          RecalculateIsCanonical(appended, dropId);
        } else {
          assert Canonical(st.entries, x);
          AppendKeepsCanonical(st.entries, added, x);
          RecalculateFramesOtherDrops(appended, dropId, x);
        }
      }
      forall i | 0 <= i < |st'.codes|
        ensures HasEntry(st'.entries, st'.codes[i].userId, st'.codes[i].dropId)
      {
        var c := st.codes[i];
        assert HasEntry(st.entries, c.userId, c.dropId);
        var e :| 0 <= e < |st.entries| && IsEntryOf(st.entries[e], c.userId, c.dropId);
        assert IsEntryOf(st'.entries[e], c.userId, c.dropId);
      }
    }
  }

  // ---------------------------------------------------------------------
  // getWaitlistStatus.

  datatype WaitlistStatus = WaitlistStatus(isOnWaitlist: bool, entry: Option<WaitlistEntry>, claimCode: Option<ClaimCode>)

  /** `getWaitlistStatus`: the caller's entry and code for the drop, if any; the drop need not exist. */
  function GetWaitlistStatus(st: Store, userId: Option<Id>, dropId: Id): (r: Result<WaitlistStatus, Failure>)
    ensures RequireAuth(userId).Err? <==> r == Err(Unauthorized)
    ensures r.Ok? ==> (r.value.isOnWaitlist <==> HasEntry(st.entries, userId.value, dropId))
    ensures r.Ok? ==> (r.value.isOnWaitlist <==> r.value.entry.Some?)
    ensures r.Ok? && r.value.entry.Some? ==>
              r.value.entry.value in st.entries && IsEntryOf(r.value.entry.value, userId.value, dropId)
    ensures r.Ok? ==> (r.value.claimCode.Some? <==> HasCode(st.codes, userId.value, dropId))
    ensures r.Ok? && r.value.claimCode.Some? ==> r.value.claimCode.value in st.codes
  {
    var u :- RequireAuth(userId);
    var entry := match FindWaitlistEntry(st.entries, u, dropId)
                 case Some(i) => Some(st.entries[i])
                 case None => None;
    var code := FindClaimCode(st.codes, u, dropId);
    Ok(WaitlistStatus(entry.Some?, entry, code))
  }

  // ---------------------------------------------------------------------
  // leaveWaitlist.

  datatype Left = Left(store: Store, wasOnWaitlist: bool)

  /**
   * `leaveWaitlist`: not being on the list is a success that changes
   * nothing; a user holding a code may not leave; otherwise the entry is
   * deleted and every entry of the drop behind it moves up one place.
   */
  function Leave(st: Store, userId: Option<Id>, dropId: Id): (r: Result<Left, Failure>)
    ensures RequireAuth(userId).Err? <==> r == Err(Unauthorized)
    ensures RequireAuth(userId).Ok? && !HasEntry(st.entries, userId.value, dropId) ==> r == Ok(Left(st, false))
    ensures RequireAuth(userId).Ok? && HasEntry(st.entries, userId.value, dropId) ==>
              (r == Err(HasClaimCode) <==> HasCode(st.codes, userId.value, dropId))
    ensures r.Ok? && r.value.wasOnWaitlist ==>
              && !HasCode(st.codes, userId.value, dropId)
              && r.value.store == st.(entries := r.value.store.entries)
              && |r.value.store.entries| == |st.entries| - 1
              && Size(r.value.store.entries, dropId) == Size(st.entries, dropId) - 1
    ensures r.Ok? && r.value.wasOnWaitlist ==>
              && FindWaitlistEntry(st.entries, userId.value, dropId).Some?
              && r.value.store.entries == LeaveAt(st.entries, FindWaitlistEntry(st.entries, userId.value, dropId).value)
  {
    var u :- RequireAuth(userId);
    match FindWaitlistEntry(st.entries, u, dropId)
    case None => Ok(Left(st, false))
    case Some(i) =>
      if FindClaimCode(st.codes, u, dropId).Some? then Err(HasClaimCode)
      else
        RemovalSize(st.entries, i, dropId);
        RanksAgree(RemoveAt(st.entries, i), LeaveAt(st.entries, i), dropId);
        Ok(Left(st.(entries := LeaveAt(st.entries, i)), true))
  }

  /** Every successful leave keeps the store invariant, and the user is then off the drop's list. */
  lemma LeavePreservesValid(st: Store, userId: Option<Id>, dropId: Id)
    requires Valid(st)
    requires Leave(st, userId, dropId).Ok?
    ensures Valid(Leave(st, userId, dropId).value.store)
    ensures !HasEntry(Leave(st, userId, dropId).value.store.entries, userId.value, dropId)
  {
    var l := Leave(st, userId, dropId).value;
    var u := userId.value;
    if l.wasOnWaitlist {
      var k := FindWaitlistEntry(st.entries, u, dropId).value;
      var es := st.entries;
      var es' := l.store.entries;
      assert es' == LeaveAt(es, k);
      forall x
        ensures Canonical(es', x)
      {
        assert Canonical(es, x);
        LeaveKeepsCanonical(es, k, x);
      }
      LeaveAtKeepsUnique(es, k);
      LeaveAtRemovesEntry(es, k);
      forall i | 0 <= i < |l.store.codes|
        ensures HasEntry(es', l.store.codes[i].userId, l.store.codes[i].dropId)
      {
        var c := st.codes[i];
        assert !IsCodeOf(c, u, dropId);
        LeaveAtKeepsOthers(es, k, c.userId, c.dropId);
      }
    }
  }

  /** Removing one entry keeps the `userId_dropId` key unique. */
  lemma LeaveAtKeepsUnique(es: seq<WaitlistEntry>, k: int)
    requires 0 <= k < |es| && UniqueEntries(es)
    ensures UniqueEntries(LeaveAt(es, k))
  {
    var es' := LeaveAt(es, k);
    forall a, b | 0 <= a < |es'| && 0 <= b < |es'| && a != b
      ensures !IsEntryOf(es'[b], es'[a].userId, es'[a].dropId)
    {
      LeaveEntry(es, k, a);
      LeaveEntry(es, k, b);
      assert Origin(k, a) != Origin(k, b);
    }
  }

  /** With unique keys, the entry removed was the user's only one for that drop. */
  lemma LeaveAtRemovesEntry(es: seq<WaitlistEntry>, k: int)
    requires 0 <= k < |es| && UniqueEntries(es)
    ensures !HasEntry(LeaveAt(es, k), es[k].userId, es[k].dropId)
  {
    var es' := LeaveAt(es, k);
    forall i | 0 <= i < |es'|
      ensures !IsEntryOf(es'[i], es[k].userId, es[k].dropId)
    {
      LeaveEntry(es, k, i);
    }
  }

  /** Every other user and drop keeps its entry through a removal. */
  lemma LeaveAtKeepsOthers(es: seq<WaitlistEntry>, k: int, u: Id, d: Id)
    requires 0 <= k < |es| && HasEntry(es, u, d) && !IsEntryOf(es[k], u, d)
    ensures HasEntry(LeaveAt(es, k), u, d)
  {
    var e :| 0 <= e < |es| && IsEntryOf(es[e], u, d);
    var e' := if e < k then e else e - 1;
    LeaveEntry(es, k, e');
    assert IsEntryOf(LeaveAt(es, k)[e'], u, d);
  }

  // ---------------------------------------------------------------------
  // claimDrop.

  datatype Claimed = Claimed(store: Store, code: ClaimCode, alreadyClaimed: bool)

  /** The caller's own entry for the drop, when there is one. */
  function EntryOf(st: Store, u: Id, dropId: Id): (e: Option<WaitlistEntry>)
    ensures e.Some? <==> HasEntry(st.entries, u, dropId)
    ensures e.Some? ==> e.value in st.entries && IsEntryOf(e.value, u, dropId)
  {
    match FindWaitlistEntry(st.entries, u, dropId)
    case Some(i) => Some(st.entries[i])
    case None => None
  }

  /** The caller gets past every check `claimDrop` makes before looking at codes and the waitlist. */
  predicate ClaimReachesQueue(st: Store, userId: Option<Id>, dropId: Id, now: int)
  {
    RequireAuth(userId).Ok? && HasDrop(st.drops, dropId)
    && IsClaimWindowOpen(FindDropById(st.drops, dropId).value, now)
  }

  /**
   * `claimDrop`: authentication, the drop must exist and its window be
   * open; a user who already holds a code gets it back; otherwise the
   * user must be on the waitlist, stock must remain, the position must not
   * exceed stock, and the position must be exactly the next to be served.
   * The code text is the first unused draw of eight random bytes.
   */
  function Claim(st: Store, userId: Option<Id>, dropId: Id, now: int, draws: seq<seq<Byte>>)
    : (r: Result<Claimed, Failure>)
    requires WellFormedDraws(draws) && HasFreshDraw(st.codes, draws)
    ensures RequireAuth(userId).Err? ==> r == Err(Unauthorized)
    ensures RequireAuth(userId).Ok? && !HasDrop(st.drops, dropId) ==> r == Err(NotFound)
    ensures (RequireAuth(userId).Ok? && HasDrop(st.drops, dropId)
             && !IsClaimWindowOpen(FindDropById(st.drops, dropId).value, now)) ==> r == Err(ClaimWindowNotOpen)
    ensures r.Ok? ==> ClaimReachesQueue(st, userId, dropId, now)
    ensures ClaimReachesQueue(st, userId, dropId, now) && HasCode(st.codes, userId.value, dropId) ==>
              r.Ok? && r.value.alreadyClaimed
    ensures ClaimReachesQueue(st, userId, dropId, now) && !HasCode(st.codes, userId.value, dropId) ==>
              var entry := EntryOf(st, userId.value, dropId);
              var claimed := ClaimCount(st.codes, dropId);
              var stock := FindDropById(st.drops, dropId).value.stock;
              if entry.None? then r == Err(NotOnWaitlist)
              else if claimed >= stock then r == Err(StockExhausted)
              else if entry.value.position > stock then r == Err(PositionTooHigh)
              else if entry.value.position != claimed + 1 then r == Err(NotYourTurn)
              else r.Ok? && !r.value.alreadyClaimed
    ensures r.Ok? ==> IsCodeOf(r.value.code, userId.value, dropId)
    ensures r.Ok? ==> (r.value.alreadyClaimed <==> HasCode(st.codes, userId.value, dropId))
    ensures r.Ok? && r.value.alreadyClaimed ==> r.value.store == st && r.value.code in st.codes
    ensures r.Ok? && !r.value.alreadyClaimed ==>
              && r.value.store == st.(codes := st.codes + [r.value.code])
              && !CodeInUse(st.codes, r.value.code.code)
              && |r.value.code.code| == 16 && IsUpperHexString(r.value.code.code)
              && r.value.code.createdAt == now
              && EntryOf(st, userId.value, dropId).Some?
              && EntryOf(st, userId.value, dropId).value.position == ClaimCount(st.codes, dropId) + 1
              && ClaimCount(st.codes, dropId) < FindDropById(st.drops, dropId).value.stock
    ensures r.Err? ==> r.error in {Unauthorized, NotFound, ClaimWindowNotOpen, NotOnWaitlist,
                                   StockExhausted, PositionTooHigh, NotYourTurn}
    ensures r.Err? && r.error == StockExhausted ==>
              ClaimCount(st.codes, dropId) >= FindDropById(st.drops, dropId).value.stock
    ensures r.Err? && r.error == NotYourTurn ==>
              EntryOf(st, userId.value, dropId).Some?
              && EntryOf(st, userId.value, dropId).value.position != ClaimCount(st.codes, dropId) + 1
  {
    var u :- RequireAuth(userId);
    var drop :- FindDropById(st.drops, dropId);
    if !IsClaimWindowOpen(drop, now) then Err(ClaimWindowNotOpen)
    else
      match FindClaimCode(st.codes, u, dropId)
      case Some(c) => Ok(Claimed(st, c, true))
      case None =>
        match EntryOf(st, u, dropId)
        case None => Err(NotOnWaitlist)
        case Some(entry) =>
          var claimed := ClaimCount(st.codes, dropId);
          if claimed >= drop.stock then Err(StockExhausted)
          else if entry.position > drop.stock then Err(PositionTooHigh)
          else if entry.position != claimed + 1 then Err(NotYourTurn)
          else
            var code := ClaimCode(GenerateUniqueClaimCode(st.codes, draws), u, dropId, now);
            Ok(Claimed(st.(codes := st.codes + [code]), code, false))
  }

  /**
   * POSITION_TOO_HIGH never turns away a claim that would otherwise
   * succeed: whenever it fires, the turn check behind it would fail too.
   */
  lemma PositionCheckIsSubsumed(st: Store, userId: Option<Id>, dropId: Id, now: int, draws: seq<seq<Byte>>)
    requires WellFormedDraws(draws) && HasFreshDraw(st.codes, draws)
    requires Claim(st, userId, dropId, now, draws) == Err(PositionTooHigh)
    ensures EntryOf(st, userId.value, dropId).Some?
    ensures EntryOf(st, userId.value, dropId).value.position != ClaimCount(st.codes, dropId) + 1
  {
  }

  /** Claiming again returns the same code and changes nothing. */
  lemma ClaimIsIdempotent(st: Store, userId: Option<Id>, dropId: Id, now: int, later: int,
                          draws: seq<seq<Byte>>, draws': seq<seq<Byte>>)
    requires WellFormedDraws(draws) && HasFreshDraw(st.codes, draws)
    requires Claim(st, userId, dropId, now, draws).Ok?
    requires WellFormedDraws(draws') && HasFreshDraw(Claim(st, userId, dropId, now, draws).value.store.codes, draws')
    requires IsClaimWindowOpen(FindDropById(st.drops, dropId).value, later)
    ensures var first := Claim(st, userId, dropId, now, draws).value;
            Claim(first.store, userId, dropId, later, draws') == Ok(Claimed(first.store, first.code, true))
  {
    var first := Claim(st, userId, dropId, now, draws).value;
    ClaimedCodeIsFound(st, userId, dropId, now, draws);
    assert first.store.drops == st.drops;
  }

  /** After a successful claim, looking up the caller's code finds the one just returned. */
  lemma ClaimedCodeIsFound(st: Store, userId: Option<Id>, dropId: Id, now: int, draws: seq<seq<Byte>>)
    requires WellFormedDraws(draws) && HasFreshDraw(st.codes, draws)
    requires Claim(st, userId, dropId, now, draws).Ok?
    ensures var first := Claim(st, userId, dropId, now, draws).value;
            FindClaimCode(first.store.codes, userId.value, dropId) == Some(first.code)
  {
    var first := Claim(st, userId, dropId, now, draws).value;
    var codes := first.store.codes;
    var u := userId.value;
    var found := FindClaimCode(codes, u, dropId);
    assert HasCode(codes, u, dropId) by {
      if first.alreadyClaimed {
        assert first.code in st.codes;
      } else {
        assert codes[|st.codes|] == first.code;
      }
    }
    var i :| 0 <= i < |codes| && codes[i] == found.value
             && forall j :: 0 <= j < i ==> !IsCodeOf(codes[j], u, dropId);
    if first.alreadyClaimed {
      var c := FindClaimCode(st.codes, u, dropId).value;
      assert c == first.code;
    } else {
      assert !HasCode(st.codes, u, dropId);
      assert i == |st.codes|;
    }
  }

  lemma HasCodeAppend(codes: seq<ClaimCode>, c: ClaimCode, u: Id, d: Id)
    ensures HasCode(codes + [c], u, d) <==> HasCode(codes, u, d) || IsCodeOf(c, u, d)
  {
    var codes' := codes + [c];
    if HasCode(codes', u, d) {
      var j :| 0 <= j < |codes'| && IsCodeOf(codes'[j], u, d);
      if j < |codes| { assert codes[j] == codes'[j]; }
    }
    if HasCode(codes, u, d) {
      var j :| 0 <= j < |codes| && IsCodeOf(codes[j], u, d);
      assert codes'[j] == codes[j];
    }
    assert codes'[|codes|] == c;
  }

  /**
   * Issuing a fresh code to a waitlisted user without one, while the drop
   * has stock left, keeps the invariant.
   */
  lemma IssueCodeKeepsValid(st: Store, code: ClaimCode, drop: Drop)
    requires Valid(st)
    requires HasEntry(st.entries, code.userId, code.dropId)
    requires !HasCode(st.codes, code.userId, code.dropId)
    requires !CodeInUse(st.codes, code.code)
    requires drop in st.drops && drop.id == code.dropId && ClaimCount(st.codes, drop.id) < drop.stock
    ensures Valid(st.(codes := st.codes + [code]))
  {
    var st' := st.(codes := st.codes + [code]);
    var n := |st.codes|;
    IssueCodeKeepsStock(st, code, drop);
    forall i | 0 <= i < |st'.codes|
      ensures HasEntry(st'.entries, st'.codes[i].userId, st'.codes[i].dropId)
    {
      if i < n {
        assert st'.codes[i] == st.codes[i];
      }
    }
    forall a, b | 0 <= a < |st'.codes| && 0 <= b < |st'.codes| && a != b
      ensures !IsCodeOf(st'.codes[b], st'.codes[a].userId, st'.codes[a].dropId)
      ensures st'.codes[a].code != st'.codes[b].code
    {
      if a == n {
        assert st'.codes[b] == st.codes[b];
      } else if b == n {
        assert st'.codes[a] == st.codes[a];
      }
    }
  }

  lemma IssueCodeKeepsStock(st: Store, code: ClaimCode, drop: Drop)
    requires UniqueDropIds(st.drops) && StockRespected(st)
    requires drop in st.drops && drop.id == code.dropId && ClaimCount(st.codes, drop.id) < drop.stock
    ensures StockRespected(st.(codes := st.codes + [code]))
  {
    forall other | other in st.drops
      ensures ClaimCount(st.codes + [code], other.id) <= other.stock
    {
      ClaimCountAppend(st.codes, code, other.id);
      if other.id == drop.id {
        var a :| 0 <= a < |st.drops| && st.drops[a] == other;
        var b :| 0 <= b < |st.drops| && st.drops[b] == drop;
        assert a == b;
      }
    }
  }

  /** Every successful claim keeps the store invariant. */
  lemma ClaimPreservesValid(st: Store, userId: Option<Id>, dropId: Id, now: int, draws: seq<seq<Byte>>)
    requires WellFormedDraws(draws) && HasFreshDraw(st.codes, draws)
    requires Valid(st)
    requires Claim(st, userId, dropId, now, draws).Ok?
    ensures Valid(Claim(st, userId, dropId, now, draws).value.store)
  {
    var c := Claim(st, userId, dropId, now, draws).value;
    if !c.alreadyClaimed {
      var drop := FindDropById(st.drops, dropId).value;
      IssueCodeKeepsValid(st, c.code, drop);
    }
  }

  // ---------------------------------------------------------------------
  // Codes go out in waitlist order.

  /**
   * The users holding a code for drop `d` are exactly those on positions
   * 1..C, where C is the number of codes issued for it.
   */
  ghost predicate ClaimsFollowRank(st: Store, d: Id)
  {
    forall i :: 0 <= i < |st.entries| && st.entries[i].dropId == d ==>
      (HasCode(st.codes, st.entries[i].userId, d) <==> st.entries[i].position <= ClaimCount(st.codes, d))
  }

  /** Issuing the code to position C + 1 extends the served prefix to 1..C + 1. */
  lemma IssueCodeKeepsClaimsFollowRank(st: Store, code: ClaimCode, a: int, d: Id)
    requires Valid(st) && ClaimsFollowRank(st, d)
    requires 0 <= a < |st.entries| && IsEntryOf(st.entries[a], code.userId, code.dropId)
    requires st.entries[a].position == ClaimCount(st.codes, code.dropId) + 1
    ensures ClaimsFollowRank(st.(codes := st.codes + [code]), d)
  {
    var es := st.entries;
    var codes' := st.codes + [code];
    ClaimCountAppend(st.codes, code, d);
    assert Canonical(es, code.dropId);
    CanonicalIsDenseAndOrdered(es, code.dropId);
    forall i | 0 <= i < |es| && es[i].dropId == d
      ensures HasCode(codes', es[i].userId, d) <==> es[i].position <= ClaimCount(codes', d)
    {
      HasCodeAppend(st.codes, code, es[i].userId, d);
      if d == code.dropId && i != a {
        assert es[i].position != es[a].position;
        assert es[i].userId != code.userId;
      }
    }
  }

  lemma ClaimKeepsClaimsFollowRank(st: Store, userId: Option<Id>, dropId: Id, now: int,
                                   draws: seq<seq<Byte>>, d: Id)
    requires WellFormedDraws(draws) && HasFreshDraw(st.codes, draws)
    requires Valid(st) && ClaimsFollowRank(st, d)
    requires Claim(st, userId, dropId, now, draws).Ok?
    ensures ClaimsFollowRank(Claim(st, userId, dropId, now, draws).value.store, d)
  {
    var c := Claim(st, userId, dropId, now, draws).value;
    if !c.alreadyClaimed {
      var e := EntryOf(st, userId.value, dropId).value;
      var a :| 0 <= a < |st.entries| && st.entries[a] == e;
      IssueCodeKeepsClaimsFollowRank(st, c.code, a, d);
    }
  }

  /** Leaving never disturbs the served prefix: a leaver holds no code, so stands behind it. */
  lemma LeaveKeepsClaimsFollowRank(st: Store, userId: Option<Id>, dropId: Id, d: Id)
    requires ClaimsFollowRank(st, d)
    requires Leave(st, userId, dropId).Ok?
    ensures ClaimsFollowRank(Leave(st, userId, dropId).value.store, d)
  {
    var l := Leave(st, userId, dropId).value;
    if l.wasOnWaitlist {
      var u := userId.value;
      var k := FindWaitlistEntry(st.entries, u, dropId).value;
      var es := st.entries;
      var es' := l.store.entries;
      assert !HasCode(st.codes, es[k].userId, es[k].dropId);
      forall i | 0 <= i < |es'| && es'[i].dropId == d
        ensures HasCode(st.codes, es'[i].userId, d) <==> es'[i].position <= ClaimCount(st.codes, d)
      {
        LeaveEntry(es, k, i);
        assert es'[i].userId == es[Origin(k, i)].userId by {
          assert RemoveAt(es, k)[i] == es[Origin(k, i)];
        }
      }
    }
  }

  /**
   * Joining is allowed while the window is open, and a newcomer with a
   * higher score is ranked ahead of users already served. From then on
   * no claim can issue a new code: the next position to be served belongs
   * to someone who already holds one. The store below is that situation,
   * reached by one join from a valid store that served its first user.
   */
  function ServedStore(): (st: Store)
    ensures |st.entries| == 1 && |st.codes| == 1
  {
    Store([Drop("d", "Drop", None, 2, 0, 100, 0)],
          map["a" := User("a", 0), "b" := User("b", 0)],
          [WaitlistEntry("a", "d", 1000, 5, 1)],
          [ClaimCode("C0", "a", "d", 6)])
  }

  function StalledStore(): (st: Store)
    ensures st.drops == ServedStore().drops && st.codes == ServedStore().codes
  {
    ServedStore().(entries := [WaitlistEntry("a", "d", 1000, 5, 2), WaitlistEntry("b", "d", 1003, 10, 1)])
  }

  lemma JoinCanOvertakeServedUsers()
    ensures Valid(ServedStore()) && ClaimsFollowRank(ServedStore(), "d")
    ensures var j := Join(ServedStore(), SeedGenerator.Coefficients(7, 13, 3), Some("b"), None, "d", 10);
            j.Ok? && j.value.store == StalledStore()
    ensures !ClaimsFollowRank(StalledStore(), "d")
  {
    ServedStoreIsServed();
    JoinOntoServedStore();
    assert HasCode(StalledStore().codes, "a", "d") by {
      assert IsCodeOf(StalledStore().codes[0], "a", "d");
    }
  }

  /** The served store is valid and has served position 1. */
  lemma ServedStoreIsServed()
    ensures Valid(ServedStore()) && ClaimsFollowRank(ServedStore(), "d")
    ensures ClaimCount(ServedStore().codes, "d") == 1
  {
    var st := ServedStore();
    forall x
      ensures Canonical(st.entries, x)
    {
      assert st.entries[..0] == [];
    }
    assert HasCode(st.codes, "a", "d") by {
      assert IsCodeOf(st.codes[0], "a", "d");
    }
    assert HasEntry(st.entries, "a", "d") by {
      assert IsEntryOf(st.entries[0], "a", "d");
    }
    assert ClaimCount(st.codes, "d") == 1 by {
      assert st.codes[..0] == [];
    }
  }

  /** The newcomer scores 1003, beats the served user's 1000, and takes position 1. */
  lemma JoinOntoServedStore()
    ensures var j := Join(ServedStore(), SeedGenerator.Coefficients(7, 13, 3), Some("b"), None, "d", 10);
            j.Ok? && j.value.store == StalledStore()
  {
    NewcomerScore();
    NewcomerRanksFirst();
  }

  /** The newcomer's score on the served store, with no recent actions: 1003. */
  lemma NewcomerScore()
    ensures PriorityScore.CalculatePriorityScore(ServedStore(), SeedGenerator.Coefficients(7, 13, 3), "b", "d", 10)
            == Ok(1003)
  {
    var st := ServedStore();
    var since := 10 - PriorityScore.RapidWindowMs;
    assert PriorityScore.RecentJoins(st.entries, "b", since) == 0 by {
      assert st.entries[..0] == [];
    }
    assert PriorityScore.RecentClaims(st.codes, "b", since) == 0 by {
      assert st.codes[..0] == [];
    }
  }

  /** Recalculation puts the newcomer's 1003 ahead of the served user's 1000. */
  lemma NewcomerRanksFirst()
    ensures Recalculate(ServedStore().entries + [WaitlistEntry("b", "d", 1003, 10, 0)], "d") == StalledStore().entries
  {
    var es := ServedStore().entries + [WaitlistEntry("b", "d", 1003, 10, 0)];
    assert RankOf(es, "d", 0) == 2 by {
      assert !Ahead(es, 0, 0) && Ahead(es, 1, 0);
      assert AheadCount(es, "d", 0, 1) == 0;
    }
    assert RankOf(es, "d", 1) == 1 by {
      assert !Ahead(es, 0, 1) && !Ahead(es, 1, 1);
      assert AheadCount(es, "d", 1, 1) == 0;
    }
  }

  /** In the stalled store every claim either returns an existing code or fails. */
  lemma StalledStoreIssuesNoCode(u: Id, now: int, draws: seq<seq<Byte>>)
    requires WellFormedDraws(draws) && HasFreshDraw(StalledStore().codes, draws)
    ensures var c := Claim(StalledStore(), Some(u), "d", now, draws);
            c.Ok? ==> c.value.alreadyClaimed
  {
    var st := StalledStore();
    assert ClaimCount(st.codes, "d") == 1 by {
      assert st.codes[..0] == [];
    }
  }

  // ---------------------------------------------------------------------
  // getActiveDrops: which drops are listed and the pagination block.

  /** Listed drops: those whose window ends strictly after `now`. */
  function ActiveDrops(drops: seq<Drop>, now: int): (r: seq<Drop>)
    ensures forall drop :: drop in r <==> drop in drops && drop.claimWindowEnd > now
    ensures |r| <= |drops|
  {
    if |drops| == 0 then []
    else
      var rest := ActiveDrops(drops[..|drops| - 1], now);
      var last := drops[|drops| - 1];
      assert forall drop :: drop in drops <==> drop in drops[..|drops| - 1] || drop == last by {
        assert drops == drops[..|drops| - 1] + [last];
      }
      if last.claimWindowEnd > now then rest + [last] else rest
  }

  /**
   * A listed drop is never closed, but at the very instant its window ends
   * a drop can still be claimed while it has left the listing.
   */
  lemma ListingVersusClaimWindow(drop: Drop, now: int)
    ensures drop.claimWindowEnd > now ==> !IsClaimWindowClosed(drop, now)
    ensures now == drop.claimWindowEnd && drop.claimWindowStart <= now ==>
              IsClaimWindowOpen(drop, now) && drop !in ActiveDrops([drop], now)
  {
  }

  /** `parseInt(query) || fallback`: an absent, unparsable or zero value falls back. */
  function OrDefault(parsed: Option<int>, fallback: int): (v: int)
    ensures parsed.Some? && parsed.value != 0 ==> v == parsed.value
    ensures parsed.None? || parsed.value == 0 ==> v == fallback
  {
    match parsed
    case Some(x) => if x != 0 then x else fallback
    case None => fallback
  }

  const DefaultPage: int := 1
  const DefaultLimit: int := 10

  /** `Math.ceil(total / limit)` for a non-zero limit. */
  function CeilDiv(total: nat, limit: int): (q: int)
    requires limit != 0
    ensures limit > 0 ==> (q - 1) * limit < total <= q * limit || (total == 0 && q == 0)
    ensures limit > 0 ==> q >= 0
    ensures limit < 0 ==> q <= 0
  {
    if limit > 0 then
      var q := (total + limit - 1) / limit;
      JsNumbersBridge(total + limit - 1, limit);
      q
    else -(total / -limit)
  }

  lemma JsNumbersBridge(x: int, l: int)
    requires x >= 0 && l > 0
    ensures (x / l) * l <= x < (x / l) * l + l
  {
  }

  datatype PageMeta = PageMeta(page: int, limit: int, total: nat, totalPages: int,
                               hasNextPage: bool, hasPrevPage: bool)

  /** The `pagination` block of the listing response. */
  function ListingMeta(pageQuery: Option<int>, limitQuery: Option<int>, total: nat): (m: PageMeta)
    ensures m.page != 0 && m.limit != 0
    ensures m.page == OrDefault(pageQuery, DefaultPage) && m.limit == OrDefault(limitQuery, DefaultLimit)
    ensures m.hasPrevPage <==> m.page > 1
    ensures m.limit > 0 ==> (m.hasNextPage <==> m.page * m.limit < total)
    ensures m.limit > 0 && total > 0 ==> m.totalPages >= 1 && (m.totalPages - 1) * m.limit < total <= m.totalPages * m.limit
  {
    var page := OrDefault(pageQuery, DefaultPage);
    var limit := OrDefault(limitQuery, DefaultLimit);
    var totalPages := CeilDiv(total, limit);
    HasNextMeansMoreItems(page, limit, total, totalPages);
    PageMeta(page, limit, total, totalPages, page < totalPages, page > 1)
  }

  lemma HasNextMeansMoreItems(page: int, limit: int, total: nat, totalPages: int)
    requires limit != 0 && totalPages == CeilDiv(total, limit)
    ensures limit > 0 ==> (page < totalPages <==> page * limit < total)
  {
    if limit < 0 {
    } else if page < totalPages {
      assert page <= totalPages - 1;
      assert page * limit <= (totalPages - 1) * limit;
    } else {
      assert page * limit >= totalPages * limit;
    }
  }

  /** `skip = (page - 1) * limit`: the items before the requested page. */
  function Skip(page: int, limit: int): (n: int)
    ensures page >= 1 && limit >= 1 ==> n >= 0 && n + limit == page * limit
  {
    (page - 1) * limit
  }
}

=== FILE: drops_page.dfy ===
/**
 * The drops list page: each listed drop's status badge, which instant
 * its countdown runs to, and when the page shows the pagination control.
 */
module DropsPage {
  import opened Wrappers
  import opened Records
  import DropHelpers
  import DropsController
  import CountdownTimer
  import Pagination

  datatype DropStatus = Upcoming | Active | Ended

  /** `getDropStatus`: before the window, inside it (both ends included), or after it. */
  function GetDropStatus(drop: Drop, now: int): (s: DropStatus)
    ensures s == Upcoming <==> now < drop.claimWindowStart
    ensures s == Active <==> drop.claimWindowStart <= now <= drop.claimWindowEnd
    ensures s == Ended <==> drop.claimWindowStart <= now && drop.claimWindowEnd < now
  {
    if now < drop.claimWindowStart then Upcoming
    else if drop.claimWindowStart <= now <= drop.claimWindowEnd then Active
    else Ended
  }

  /**
   * The page's "active" badge and the server's claim check agree: a drop
   * shows as active exactly when its claim window is open.
   */
  lemma ActiveIsClaimWindowOpen(drop: Drop, now: int)
    ensures GetDropStatus(drop, now) == Active <==> DropHelpers.IsClaimWindowOpen(drop, now)
    ensures GetDropStatus(drop, now) == Ended ==> DropHelpers.IsClaimWindowClosed(drop, now)
  {
  }

  /** The instant the card's countdown runs to: the start when upcoming, the end when active, none when ended. */
  function CountdownTarget(drop: Drop, now: int): (t: Option<int>)
    ensures GetDropStatus(drop, now) == Upcoming ==> t == Some(drop.claimWindowStart)
    ensures GetDropStatus(drop, now) == Active ==> t == Some(drop.claimWindowEnd)
    ensures GetDropStatus(drop, now) == Ended <==> t.None?
  {
    match GetDropStatus(drop, now)
    case Upcoming => Some(drop.claimWindowStart)
    case Active => Some(drop.claimWindowEnd)
    case Ended => None
  }

  /**
   * Every drop the listing returns has a countdown still running: the
   * listing keeps drops whose window ends after now, so none of them is
   * ended and the instant counted down to lies ahead.
   */
  lemma ListedDropsCountDown(drops: seq<Drop>, now: int, drop: Drop)
    requires drop in DropsController.ActiveDrops(drops, now)
    ensures GetDropStatus(drop, now) != Ended
    ensures CountdownTarget(drop, now).Some? && CountdownTarget(drop, now).value > now
    ensures !CountdownTimer.CalculateTimeLeft(CountdownTarget(drop, now).value, now).timeLeft.isPast
  {
  }

  /** The pagination control is shown only when a `pagination` block says there is more than one page. */
  function ShowsPagination(pagination: Option<DropsController.PageMeta>): (shown: bool)
    ensures shown <==> pagination.Some? && pagination.value.totalPages > 1
  {
    pagination.Some? && pagination.value.totalPages > 1
  }

  /**
   * The page's own guard and the pagination component's early return
   * agree: the control is shown exactly when the component would render
   * a row for the reported page count.
   */
  lemma PageGuardMatchesComponent(pagination: Option<DropsController.PageMeta>, current: int)
    ensures ShowsPagination(pagination) <==>
              pagination.Some? && Pagination.Rendered(current, pagination.value.totalPages).Some?
  {
  }
}

=== FILE: drops_store.dfy ===
/**
 * The user-facing drops store: the listed drops, the drop being viewed
 * with its waitlist count, the user's waitlist entry and claim code.
 * Each asynchronous action is modelled by the state it leaves once its
 * requests have been answered; the answers are inputs.
 */
module DropsStore {
  import opened Wrappers
  import opened StoreRequests
  import AdminStore

  /** A listed drop with the number of waitlist entries the server counted. */
  datatype ActiveDrop = ActiveDrop(drop: AdminStore.StoreDrop, waitlistEntries: int)

  datatype EntryView = EntryView(id: string, userId: string, dropId: string, position: int, createdAt: string)

  datatype CodeView = CodeView(
    id: string,
    code: string,
    userId: string,
    dropId: string,
    used: bool,
    createdAt: string,
    usedAt: Option<string>)

  datatype DropsState = DropsState(
    activeDrops: seq<ActiveDrop>,
    currentDrop: Option<ActiveDrop>,
    waitlistEntry: Option<EntryView>,
    claimCode: Option<CodeView>,
    loading: bool,
    error: Option<string>)

  const InitialState: DropsState := DropsState([], None, None, None, false, None)

  /** The state an action leaves, and whether it reports success. */
  datatype Step = Step(state: DropsState, succeeded: bool)

  const ListFailedMessage: string := "Drop'lar yüklenirken hata oluştu."
  const DropFailedMessage: string := "Drop yüklenirken hata oluştu."
  const DropNotFoundMessage: string := "Drop bulunamadı."
  const JoinFailedMessage: string := "Waitlist'e katılırken hata oluştu."
  const LeaveFailedMessage: string := "Waitlist'ten ayrılırken hata oluştu."
  const NoClaimCodeMessage: string := "Claim code alınamadı."
  const ClaimFailedMessage: string := "Claim işlemi sırasında hata oluştu."

  /**
   * `fetchActiveDrops`: the listed drops become the response's (none
   * counts as empty); a failure keeps them and sets the error. Nothing
   * about the viewed drop changes.
   */
  function FetchActiveDrops(st: DropsState, reply: Reply<Option<seq<ActiveDrop>>>): (r: DropsState)
    ensures !r.loading
    ensures reply.Answered? ==> r.activeDrops == ListOrEmpty(reply.body) && r.error.None?
    ensures reply.Failed? ==>
              r.activeDrops == st.activeDrops && r.error == Some(ErrorMessage(reply.failure, ListFailedMessage))
    ensures r.currentDrop == st.currentDrop && r.waitlistEntry == st.waitlistEntry && r.claimCode == st.claimCode
  {
    match reply
    case Answered(drops) => st.(activeDrops := ListOrEmpty(drops), loading := false, error := None)
    case Failed(f) => st.(loading := false, error := Some(ErrorMessage(f, ListFailedMessage)))
  }

  /** `drops.find(d => d.id === id)`: the first drop with that id. */
  function FindDrop(drops: seq<ActiveDrop>, id: string): (r: Option<ActiveDrop>)
    ensures r.None? <==> forall d :: d in drops ==> d.drop.id != id
    ensures r.Some? ==> exists i :: 0 <= i < |drops| && drops[i] == r.value && r.value.drop.id == id
                                    && forall j :: 0 <= j < i ==> drops[j].drop.id != id
  {
    if drops == [] then None
    else if drops[0].drop.id == id then Some(drops[0])
    else
      var rest := FindDrop(drops[1..], id);
      if rest.Some? then
        ghost var i :| 0 <= i < |drops[1..]| && drops[1..][i] == rest.value && rest.value.drop.id == id
                      && forall j :: 0 <= j < i ==> drops[1..][j].drop.id != id;
        assert drops[i + 1] == rest.value;
        rest
      else
        rest
  }

  /**
   * `fetchDrop`: looks the id up in the listing. Found, it becomes the
   * viewed drop; missing, the viewed drop is cleared and the error says
   * it was not found; a failed request sets the error and keeps the
   * viewed drop.
   */
  function FetchDrop(st: DropsState, id: string, reply: Reply<Option<seq<ActiveDrop>>>): (r: DropsState)
    ensures !r.loading
    ensures reply.Answered? && FindDrop(ListOrEmpty(reply.body), id).None? ==>
              r.currentDrop.None? && r.error == Some(DropNotFoundMessage)
    ensures reply.Answered? && FindDrop(ListOrEmpty(reply.body), id).Some? ==>
              r.currentDrop == FindDrop(ListOrEmpty(reply.body), id) && r.currentDrop.value.drop.id == id
              && r.error.None?
    ensures reply.Failed? ==>
              r.currentDrop == st.currentDrop && r.error == Some(ErrorMessage(reply.failure, DropFailedMessage))
    ensures r.activeDrops == st.activeDrops && r.waitlistEntry == st.waitlistEntry && r.claimCode == st.claimCode
  {
    match reply
    case Answered(drops) =>
      var found := FindDrop(ListOrEmpty(drops), id);
      if found.None? then st.(error := Some(DropNotFoundMessage), loading := false, currentDrop := None)
      else st.(currentDrop := found, loading := false, error := None)
    case Failed(f) => st.(loading := false, error := Some(ErrorMessage(f, DropFailedMessage)))
  }

  /** The viewed drop with its waitlist count moved to `count`; nothing when none is viewed. */
  function WithCount(current: Option<ActiveDrop>, count: ActiveDrop -> int): (r: Option<ActiveDrop>)
    ensures r.None? <==> current.None?
    ensures r.Some? ==> r.value.drop == current.value.drop && r.value.waitlistEntries == count(current.value)
  {
    if current.Some? then Some(current.value.(waitlistEntries := count(current.value))) else None
  }

  /**
   * The listing after the refresh a join or leave awaits: the refreshed
   * drops, or the earlier ones and the refresh's error when it failed.
   */
  predicate Refreshed(r: DropsState, before: seq<ActiveDrop>, refresh: Reply<Option<seq<ActiveDrop>>>)
  {
    && !r.loading
    && (refresh.Answered? ==> r.activeDrops == ListOrEmpty(refresh.body) && r.error.None?)
    && (refresh.Failed? ==>
          r.activeDrops == before && r.error == Some(ErrorMessage(refresh.failure, ListFailedMessage)))
  }

  /**
   * `joinWaitlist`: on success the entry becomes the server's, the
   * viewed drop's count grows by one unless an entry was already held,
   * the listing is refreshed, and true is returned whatever the refresh
   * gives. A failed join sets the error and returns false.
   */
  function JoinWaitlist(st: DropsState, reply: Reply<Option<EntryView>>,
                        refresh: Reply<Option<seq<ActiveDrop>>>): (r: Step)
    ensures r.succeeded <==> reply.Answered?
    ensures reply.Answered? ==>
              && r.state.waitlistEntry == reply.body
              && (r.state.currentDrop.None? <==> st.currentDrop.None?)
              && (st.currentDrop.Some? ==>
                    r.state.currentDrop.value.drop == st.currentDrop.value.drop
                    && r.state.currentDrop.value.waitlistEntries
                       == st.currentDrop.value.waitlistEntries + (if st.waitlistEntry.Some? then 0 else 1))
              && Refreshed(r.state, st.activeDrops, refresh)
    ensures reply.Failed? ==>
              r.state == st.(error := Some(ErrorMessage(reply.failure, JoinFailedMessage)))
  {
    match reply
    case Answered(entry) =>
      var joined := st.(error := None, waitlistEntry := entry,
                        currentDrop := WithCount(st.currentDrop, (d: ActiveDrop) =>
                                                   d.waitlistEntries + (if st.waitlistEntry.Some? then 0 else 1)));
      Step(FetchActiveDrops(joined, refresh), true)
    case Failed(f) => Step(st.(error := Some(ErrorMessage(f, JoinFailedMessage))), false)
  }

  /** `Math.max(a, b)`. */
  function MaxInt(a: int, b: int): int { if a >= b then a else b }

  /**
   * `leaveWaitlist`: on success the entry is cleared, the viewed drop's
   * count drops by one but not below zero, the listing is refreshed and
   * true is returned. A failed leave sets the error and returns false.
   */
  function LeaveWaitlist(st: DropsState, reply: Reply<()>, refresh: Reply<Option<seq<ActiveDrop>>>): (r: Step)
    ensures r.succeeded <==> reply.Answered?
    ensures reply.Answered? ==>
              && r.state.waitlistEntry.None?
              && (r.state.currentDrop.None? <==> st.currentDrop.None?)
              && (st.currentDrop.Some? ==>
                    var before := st.currentDrop.value.waitlistEntries;
                    && r.state.currentDrop.value.drop == st.currentDrop.value.drop
                    && r.state.currentDrop.value.waitlistEntries >= 0
                    && (before >= 1 ==> r.state.currentDrop.value.waitlistEntries == before - 1)
                    && (before < 1 ==> r.state.currentDrop.value.waitlistEntries == 0))
              && Refreshed(r.state, st.activeDrops, refresh)
    ensures reply.Failed? ==>
              r.state == st.(error := Some(ErrorMessage(reply.failure, LeaveFailedMessage)))
  {
    match reply
    case Answered(_) =>
      var left := st.(error := None, waitlistEntry := None,
                      currentDrop := WithCount(st.currentDrop, (d: ActiveDrop) => MaxInt(0, d.waitlistEntries - 1)));
      Step(FetchActiveDrops(left, refresh), true)
    case Failed(f) => Step(st.(error := Some(ErrorMessage(f, LeaveFailedMessage))), false)
  }

  /**
   * Joining without an entry and then leaving brings the viewed drop's
   * count back to where it was, whatever the two refreshes give.
   */
  lemma JoinThenLeaveRestoresCount(st: DropsState, entry: Option<EntryView>,
                                   refresh1: Reply<Option<seq<ActiveDrop>>>,
                                   refresh2: Reply<Option<seq<ActiveDrop>>>)
    requires st.waitlistEntry.None? && st.currentDrop.Some? && st.currentDrop.value.waitlistEntries >= 0
    ensures var joined := JoinWaitlist(st, Answered(entry), refresh1).state;
            var left := LeaveWaitlist(joined, Answered(()), refresh2).state;
            left.currentDrop == st.currentDrop && left.waitlistEntry.None?
  {
  }

  /**
   * A second join, made while the first one's entry is held, does not
   * count the user again: two joins add exactly one.
   */
  lemma RepeatedJoinCountsOnce(st: DropsState, entry1: EntryView, entry2: EntryView,
                               refresh1: Reply<Option<seq<ActiveDrop>>>,
                               refresh2: Reply<Option<seq<ActiveDrop>>>)
    requires st.waitlistEntry.None? && st.currentDrop.Some?
    ensures var once := JoinWaitlist(st, Answered(Some(entry1)), refresh1).state;
            var twice := JoinWaitlist(once, Answered(Some(entry2)), refresh2).state;
            twice.currentDrop.Some?
            && twice.currentDrop.value.waitlistEntries == st.currentDrop.value.waitlistEntries + 1
            && twice.waitlistEntry == Some(entry2)
  {
  }

  /** A non-negative waitlist count stays non-negative through any join or leave. */
  lemma CountStaysNonNegative(st: DropsState, entry: Reply<Option<EntryView>>, left: Reply<()>,
                              refresh: Reply<Option<seq<ActiveDrop>>>)
    requires st.currentDrop.Some? ==> st.currentDrop.value.waitlistEntries >= 0
    ensures var j := JoinWaitlist(st, entry, refresh).state;
            j.currentDrop.Some? ==> j.currentDrop.value.waitlistEntries >= 0
    ensures var l := LeaveWaitlist(st, left, refresh).state;
            l.currentDrop.Some? ==> l.currentDrop.value.waitlistEntries >= 0
  {
  }

  /**
   * A successful join reports success even when the refresh of the
   * listing fails; the refresh's error is then what the store shows.
   */
  lemma JoinSucceedsDespiteFailedRefresh(st: DropsState, entry: Option<EntryView>, f: Failure)
    ensures var r := JoinWaitlist(st, Answered(entry), Failed(f));
            r.succeeded && r.state.error == Some(ErrorMessage(f, ListFailedMessage))
            && r.state.waitlistEntry == entry
  {
  }

  /**
   * `claimDrop`: true and the code stored exactly when the response
   * carries one; a response without one, or a failed request, sets the
   * error and returns false, keeping any code already held.
   */
  function ClaimDrop(st: DropsState, reply: Reply<Option<CodeView>>): (r: Step)
    ensures r.succeeded <==> reply.Answered? && reply.body.Some?
    ensures r.succeeded ==> r.state == st.(error := None, claimCode := reply.body)
    ensures reply.Answered? && reply.body.None? ==> r.state == st.(error := Some(NoClaimCodeMessage))
    ensures reply.Failed? ==> r.state == st.(error := Some(ErrorMessage(reply.failure, ClaimFailedMessage)))
  {
    match reply
    case Answered(code) =>
      if code.Some? then Step(st.(error := None, claimCode := code), true)
      else Step(st.(error := Some(NoClaimCodeMessage)), false)
    case Failed(f) => Step(st.(error := Some(ErrorMessage(f, ClaimFailedMessage))), false)
  }

  /** After a claim the store shows a code, or an error, never neither. */
  lemma ClaimShowsCodeOrError(st: DropsState, reply: Reply<Option<CodeView>>)
    ensures var r := ClaimDrop(st, reply);
            (r.succeeded ==> r.state.claimCode.Some? && r.state.error.None?)
            && (!r.succeeded ==> r.state.error.Some? && r.state.claimCode == st.claimCode)
  {
  }

  /** `checkWaitlistStatus`: the entry the server reports, or none when it reports none or the request fails. */
  function CheckWaitlistStatus(st: DropsState, reply: Reply<Option<EntryView>>): (r: DropsState)
    ensures reply.Answered? ==> r.waitlistEntry == reply.body
    ensures reply.Failed? ==> r.waitlistEntry.None?
    ensures r == st.(waitlistEntry := r.waitlistEntry)
  {
    st.(waitlistEntry := if reply.Answered? then reply.body else None)
  }

  /** `checkClaimCode`: the code the server reports, or none when it reports none or the request fails. */
  function CheckClaimCode(st: DropsState, reply: Reply<Option<CodeView>>): (r: DropsState)
    ensures reply.Answered? ==> r.claimCode == reply.body
    ensures reply.Failed? ==> r.claimCode.None?
    ensures r == st.(claimCode := r.claimCode)
  {
    st.(claimCode := if reply.Answered? then reply.body else None)
  }

  /** `clearError`. */
  function ClearError(st: DropsState): (r: DropsState)
    ensures r.error.None? && r == st.(error := None)
  {
    st.(error := None)
  }

  /** `resetCurrentDrop`: no viewed drop, entry or code; the listing and error stay. */
  function ResetCurrentDrop(st: DropsState): (r: DropsState)
    ensures r.currentDrop.None? && r.waitlistEntry.None? && r.claimCode.None?
    ensures r.activeDrops == st.activeDrops && r.error == st.error && r.loading == st.loading
  {
    st.(currentDrop := None, waitlistEntry := None, claimCode := None)
  }

  /** After a reset, joining or leaving leaves no viewed drop. */
  lemma NoViewedDropAfterReset(st: DropsState, entry: Reply<Option<EntryView>>, left: Reply<()>,
                               refresh: Reply<Option<seq<ActiveDrop>>>)
    ensures JoinWaitlist(ResetCurrentDrop(st), entry, refresh).state.currentDrop.None?
    ensures LeaveWaitlist(ResetCurrentDrop(st), left, refresh).state.currentDrop.None?
  {
  }
}

=== FILE: hex.dfy ===
/**
 * Hexadecimal text: the digit alphabet `parseInt(…, 16)` reads and the
 * upper-case encoding `buf.toString('hex').toUpperCase()` writes.
 */
module Hex {

  type Byte = x: int | 0 <= x < 256

  predicate IsHexDigit(c: char)
  {
    ('0' <= c <= '9') || ('a' <= c <= 'f') || ('A' <= c <= 'F')
  }

  predicate IsUpperHexDigit(c: char)
  {
    ('0' <= c <= '9') || ('A' <= c <= 'F')
  }

  predicate IsHexString(s: string)
  {
    forall i :: 0 <= i < |s| ==> IsHexDigit(s[i])
  }

  /** The value of one hexadecimal digit, either case. */
  function HexDigitValue(c: char): (v: nat)
    requires IsHexDigit(c)
    ensures v < 16
    ensures '0' <= c <= '9' ==> v == c as int - '0' as int
  {
    if '0' <= c <= '9' then c as int - '0' as int
    else if 'a' <= c <= 'f' then c as int - 'a' as int + 10
    else c as int - 'A' as int + 10
  }

  /** The upper-case digit for a value below 16. */
  function UpperDigit(v: nat): (c: char)
    requires v < 16
    ensures IsUpperHexDigit(c) && IsHexDigit(c)
    ensures HexDigitValue(c) == v
  {
    if v < 10 then ('0' as int + v) as char else ('A' as int + v - 10) as char
  }

  /** Two upper-case hexadecimal digits for one byte, high nibble first. */
  function ByteToHex(b: Byte): (s: string)
    ensures |s| == 2
    ensures IsUpperHexDigit(s[0]) && IsUpperHexDigit(s[1])
    ensures 16 * HexDigitValue(s[0]) + HexDigitValue(s[1]) == b
  {
    [UpperDigit(b / 16), UpperDigit(b % 16)]
  }

  predicate IsUpperHexString(s: string)
  {
    forall i :: 0 <= i < |s| ==> IsUpperHexDigit(s[i])
  }

  /** `Buffer.from(bytes).toString('hex').toUpperCase()`. */
  function EncodeUpper(bytes: seq<Byte>): (s: string)
    ensures |s| == 2 * |bytes|
    ensures IsUpperHexString(s)
  {
    if |bytes| == 0 then [] else ByteToHex(bytes[0]) + EncodeUpper(bytes[1..])
  }

  /** Reads pairs of hexadecimal digits back into bytes. */
  function Decode(s: string): seq<Byte>
    requires |s| % 2 == 0
    requires IsHexString(s)
  {
    if |s| == 0 then []
    else [16 * HexDigitValue(s[0]) + HexDigitValue(s[1])] + Decode(s[2..])
  }

  /** Decoding what `EncodeUpper` wrote returns the bytes it was given. */
  lemma {:induction false} DecodeEncode(bytes: seq<Byte>)
    ensures IsHexString(EncodeUpper(bytes))
    ensures Decode(EncodeUpper(bytes)) == bytes
  {
    var s := EncodeUpper(bytes);
    assert IsHexString(s) by {
      forall i | 0 <= i < |s| ensures IsHexDigit(s[i]) {
        assert IsUpperHexDigit(s[i]);
      }
    }
    if |bytes| > 0 {
      DecodeEncode(bytes[1..]);
      assert s[2..] == EncodeUpper(bytes[1..]);
    }
  }

  /** Distinct byte strings encode to distinct codes. */
  lemma EncodeInjective(a: seq<Byte>, b: seq<Byte>)
    requires EncodeUpper(a) == EncodeUpper(b)
    ensures a == b
  {
    DecodeEncode(a);
    DecodeEncode(b);
  }
}

=== FILE: js_semantics.dfy ===
/**
 * The few JavaScript built-ins the modelled code relies on, with their
 * ECMAScript meaning written out: Dafny's `%` is Euclidean, JavaScript's
 * keeps the sign of the dividend; `String.prototype.trim` strips a fixed
 * set of white-space and line-terminator code points.
 */
module JsNumbers {

  function Abs(x: int): nat
  {
    if x < 0 then -x else x
  }

  /** `Math.trunc(a / b)`: integer division rounding toward zero. */
  function JsQuot(a: int, b: int): int
    requires b > 0
  {
    if a >= 0 then a / b else -((-a) / b)
  }

  /**
   * JavaScript's remainder operator `a % b` on integral numbers: the
   * result has the sign of the dividend and a magnitude below `b`, and
   * completes the truncating division `a == trunc(a / b) * b + r`.
   */
  function JsRem(a: int, b: int): (r: int)
    requires b > 0
    ensures Abs(r) < b
    ensures a >= 0 ==> r >= 0
    ensures a <= 0 ==> r <= 0
    ensures a == JsQuot(a, b) * b + r
  {
    if a >= 0 then a % b
    else
      var q := (-a) / b;
      assert -a == q * b + (-a) % b;
      assert (-q) * b == -(q * b);
      -((-a) % b)
  }

  /** Division with remainder has only one answer. */
  lemma DivModUnique(x: int, b: int, q: int, r: int)
    requires b > 0 && 0 <= r < b && x == q * b + r
    ensures x / b == q && x % b == r
  {
    var q', r' := x / b, x % b;
    var m := q - q';
    assert m * b == r' - r;
    assert m >= 1 ==> m * b >= b;
    assert m <= -1 ==> m * b <= -b;
  }

  /** Adding the divisor to a non-negative dividend leaves the remainder unchanged. */
  lemma JsRemPeriodic(a: int, b: int)
    requires a >= 0 && b > 0
    ensures JsRem(a + b, b) == JsRem(a, b)
  {
    DivModUnique(a + b, b, a / b + 1, a % b);
  }

  /** On a non-negative dividend the truncating and the Euclidean remainder agree. */
  lemma JsRemOfNonNegative(a: int, b: int)
    requires a >= 0 && b > 0
    ensures JsRem(a, b) == a % b
  {
  }
}

module JsStrings {

  /** The code points `String.prototype.trim` removes (WhiteSpace and LineTerminator). */
  predicate IsJsWhitespace(c: char)
  {
    c == ' ' || c == '\t' || c == '\n' || c == '\r' ||
    c == '\U{B}' || c == '\U{C}' || c == '\U{A0}' || c == '\U{FEFF}' ||
    c == '\U{1680}' || ('\U{2000}' <= c <= '\U{200A}') ||
    c == '\U{2028}' || c == '\U{2029}' || c == '\U{202F}' || c == '\U{205F}' || c == '\U{3000}'
  }

  predicate AllWhitespace(s: string)
  {
    forall i :: 0 <= i < |s| ==> IsJsWhitespace(s[i])
  }

  /** The first index at or after `i` whose character is not white space, or `|s|`. */
  function SkipLeading(s: string, i: nat): (n: nat)
    requires i <= |s|
    ensures i <= n <= |s|
    ensures forall k :: i <= k < n ==> IsJsWhitespace(s[k])
    ensures n < |s| ==> !IsJsWhitespace(s[n])
    decreases |s| - i
  {
    if i < |s| && IsJsWhitespace(s[i]) then SkipLeading(s, i + 1) else i
  }

  /** The index just past the last character in `s[lo..j]` that is not white space, or `lo`. */
  function SkipTrailing(s: string, lo: nat, j: nat): (m: nat)
    requires lo <= j <= |s|
    ensures lo <= m <= j
    ensures forall k :: m <= k < j ==> IsJsWhitespace(s[k])
    ensures m > lo ==> !IsJsWhitespace(s[m - 1])
    decreases j
  {
    if j > lo && IsJsWhitespace(s[j - 1]) then SkipTrailing(s, lo, j - 1) else j
  }

  /** `r` is `s` with a white-space prefix and a white-space suffix cut off. */
  ghost predicate IsTrimmedSlice(s: string, r: string)
  {
    exists i, j :: 0 <= i <= j <= |s| && r == s[i..j]
      && (forall k :: 0 <= k < i ==> IsJsWhitespace(s[k]))
      && (forall k :: j <= k < |s| ==> IsJsWhitespace(s[k]))
  }

  /** `s.trim()`: `s` with its leading and trailing white space removed. */
  function Trim(s: string): (r: string)
    ensures IsTrimmedSlice(s, r)
    ensures |r| > 0 ==> !IsJsWhitespace(r[0]) && !IsJsWhitespace(r[|r| - 1])
  {
    var i := SkipLeading(s, 0);
    var j := SkipTrailing(s, i, |s|);
    assert IsTrimmedSlice(s, s[i..j]);
    s[i..j]
  }

  /** A string trims to nothing exactly when it is made of white space only. */
  lemma TrimEmptyIffBlank(s: string)
    ensures Trim(s) == [] <==> AllWhitespace(s)
  {
    var i, j :| 0 <= i <= j <= |s| && Trim(s) == s[i..j]
      && (forall k :: 0 <= k < i ==> IsJsWhitespace(s[k]))
      && (forall k :: j <= k < |s| ==> IsJsWhitespace(s[k]));
    if Trim(s) != [] {
      assert s[i] == Trim(s)[0];
    }
  }

  predicate IsDigit(c: char) { '0' <= c <= '9' }

  function DigitValue(c: char): nat
  {
    if '0' <= c <= '9' then (c as int - '0' as int) as nat else 0
  }

  /** The decimal digit for `d`, which reads back as `d`. */
  function DigitChar(d: nat): (c: char)
    requires d < 10
    ensures IsDigit(c) && DigitValue(c) == d
  {
    ('0' as int + d) as char
  }

  /** The decimal value of a string of digits. */
  function DecimalValue(s: string): nat
  {
    if |s| == 0 then 0 else DecimalValue(s[..|s| - 1]) * 10 + DigitValue(s[|s| - 1])
  }

  /** `n.toString()` for a non-negative integer: its decimal digits, no leading zero. */
  function DecimalString(n: nat): (r: string)
    ensures 1 <= |r|
    ensures forall i :: 0 <= i < |r| ==> IsDigit(r[i])
    ensures |r| > 1 ==> r[0] != '0'
  {
    if n < 10 then [DigitChar(n)] else DecimalString(n / 10) + [DigitChar(n % 10)]
  }

  /** Reading back the digits `DecimalString` writes gives the number again. */
  lemma {:induction false} DecimalRoundTrip(n: nat)
    ensures DecimalValue(DecimalString(n)) == n
  {
    if n >= 10 {
      DecimalRoundTrip(n / 10);
      var s := DecimalString(n);
      assert s == DecimalString(n / 10) + [DigitChar(n % 10)];
      assert s[..|s| - 1] == DecimalString(n / 10);
      assert DigitValue(s[|s| - 1]) == n % 10;
    }
  }

  /** Numbers below 10 print as one digit, numbers from 10 to 99 as two. */
  lemma DecimalLength(n: nat)
    ensures n < 10 ==> |DecimalString(n)| == 1
    ensures 10 <= n < 100 ==> |DecimalString(n)| == 2
    ensures n >= 100 ==> |DecimalString(n)| >= 3
  {
  }

  function Repeat(c: char, n: nat): (r: string)
    ensures |r| == n
    ensures forall i :: 0 <= i < n ==> r[i] == c
  {
    if n == 0 then [] else [c] + Repeat(c, n - 1)
  }

  /** `s.padStart(width, fill)` for a one-character filler. */
  function PadStart(s: string, width: nat, fill: char): (r: string)
    ensures |r| == if |s| >= width then |s| else width
    ensures r[|r| - |s|..] == s
    ensures forall i :: 0 <= i < |r| - |s| ==> r[i] == fill
  {
    if |s| >= width then s else Repeat(fill, width - |s|) + s
  }
}

=== FILE: pagination.dfy ===
/**
 * The `Pagination` component: the list of page buttons and ellipses it
 * shows, which entry is highlighted, and the pages the previous and next
 * buttons ask for.
 */
module Pagination {
  import opened Wrappers
  import DropsController

  /** One item of the button row: a page number or an ellipsis. */
  datatype PageItem = PageNumber(n: int) | Ellipsis

  /** At most this many pages are listed without ellipses. */
  const MaxVisible: int := 5

  /** The page numbers `lo..hi`, both ends included; empty when `lo > hi`. */
  function Run(lo: int, hi: int): (r: seq<PageItem>)
    ensures |r| == if lo <= hi then hi - lo + 1 else 0
    ensures forall i :: 0 <= i < |r| ==> r[i] == PageNumber(lo + i)
    decreases hi - lo
  {
    if lo > hi then [] else [PageNumber(lo)] + Run(lo + 1, hi)
  }

  function Max(a: int, b: int): int { if a >= b then a else b }
  function Min(a: int, b: int): int { if a <= b then a else b }

  /**
   * `getPageNumbers`: every page when there are at most five; otherwise
   * the first page, an ellipsis when the current page is past 3, the
   * pages around the current one, an ellipsis when it is more than two
   * before the last, and the last page.
   */
  function PageNumbers(current: int, total: int): (items: seq<PageItem>)
  {
    if total <= MaxVisible then Run(1, total)
    else
      [PageNumber(1)]
      + (if current > 3 then [Ellipsis] else [])
      + Run(Max(2, current - 1), Min(total - 1, current + 1))
      + (if current < total - 2 then [Ellipsis] else [])
      + [PageNumber(total)]
  }

  /** The button row, or nothing at all when there is at most one page. */
  function Rendered(current: int, total: int): (r: Option<seq<PageItem>>)
    ensures r.None? <==> total <= 1
    ensures r.Some? ==> r.value == PageNumbers(current, total)
  {
    if total <= 1 then None else Some(PageNumbers(current, total))
  }

  /** The numbers of the listed pages appear in strictly increasing order. */
  predicate StrictlyIncreasing(items: seq<PageItem>)
  {
    forall i, j :: 0 <= i < j < |items| && items[i].PageNumber? && items[j].PageNumber? ==> items[i].n < items[j].n
  }

  /** A highlighted button: the one whose number is the current page. */
  predicate IsActive(item: PageItem, current: int)
  {
    item == PageNumber(current)
  }

  /** Up to five pages are all listed, in order, with no ellipsis. */
  lemma FewPagesAreAllListed(current: int, total: int)
    requires total <= MaxVisible
    ensures PageNumbers(current, total) == Run(1, total)
    ensures forall i :: 0 <= i < |PageNumbers(current, total)| ==> PageNumbers(current, total)[i] == PageNumber(i + 1)
  {
  }

  /**
   * With more than five pages the row starts at page 1 and ends at the
   * last page, and the middle run is `max(2, cur - 1) .. min(total - 1,
   * cur + 1)`.
   */
  lemma ManyPagesFrameTheRow(current: int, total: int)
    requires total > MaxVisible
    ensures var items := PageNumbers(current, total);
            var lead := if current > 3 then 1 else 0;
            var run := Run(Max(2, current - 1), Min(total - 1, current + 1));
            && |items| >= 2
            && items[0] == PageNumber(1) && items[|items| - 1] == PageNumber(total)
            && items[1 + lead..1 + lead + |run|] == run
  {
    var items := PageNumbers(current, total);
    var lead := if current > 3 then 1 else 0;
    var run := Run(Max(2, current - 1), Min(total - 1, current + 1));
    var e1: seq<PageItem> := if current > 3 then [Ellipsis] else [];
    var e2: seq<PageItem> := if current < total - 2 then [Ellipsis] else [];
    assert items == [PageNumber(1)] + e1 + run + e2 + [PageNumber(total)];
    assert items[1 + lead..1 + lead + |run|] == run;
  }

  /**
   * For a current page between 1 and the last, the leading ellipsis is
   * shown exactly when the current page is past 3 and the trailing one
   * exactly when it is more than two pages before the last.
   */
  lemma EllipsisPlacement(current: int, total: int)
    requires total > MaxVisible && 1 <= current <= total
    ensures var items := PageNumbers(current, total);
            (items[1] == Ellipsis <==> current > 3)
            && (items[|items| - 2] == Ellipsis <==> current < total - 2)
  {
    var items := PageNumbers(current, total);
    var run := Run(Max(2, current - 1), Min(total - 1, current + 1));
    var e1: seq<PageItem> := if current > 3 then [Ellipsis] else [];
    var e2: seq<PageItem> := if current < total - 2 then [Ellipsis] else [];
    assert items == [PageNumber(1)] + e1 + run + e2 + [PageNumber(total)];
    assert |run| >= 1;
    assert current <= 3 ==> items[1] == run[0];
    assert current >= total - 2 ==> items[|items| - 2] == run[|run| - 1];
  }

  /**
   * A row for page `current` of `total`: listed numbers rise strictly and
   * lie in 1..total, there are at most seven items, the current page is
   * listed, and exactly one button is highlighted.
   */
  ghost predicate WellFormedRow(items: seq<PageItem>, current: int, total: int)
  {
    && StrictlyIncreasing(items)
    && (forall i :: 0 <= i < |items| && items[i].PageNumber? ==> 1 <= items[i].n <= total)
    && |items| <= 7
    && (exists i :: 0 <= i < |items| && IsActive(items[i], current))
    && (forall i, j ::
          (0 <= i < |items| && 0 <= j < |items| && IsActive(items[i], current)
           && IsActive(items[j], current)) ==> i == j)
  }

  /** For a current page between 1 and the last, the row is well formed. */
  lemma RowIsWellFormed(current: int, total: int)
    requires 1 <= current <= total
    ensures WellFormedRow(PageNumbers(current, total), current, total)
  {
    if total <= MaxVisible {
      assert PageNumbers(current, total)[current - 1] == PageNumber(current);
    } else {
      ManyPagesRow(current, total);
    }
  }

  /** Where each number of a long row sits: first, in the middle run, or last. */
  lemma ManyPagesNumbers(current: int, total: int)
    requires total > MaxVisible && 1 <= current <= total
    ensures var items := PageNumbers(current, total);
            var a := if current > 3 then 1 else 0;
            var lo := Max(2, current - 1);
            var run := Run(lo, Min(total - 1, current + 1));
            && |run| <= 3 && |items| == 2 + a + |run| + (if current < total - 2 then 1 else 0)
            && items[0] == PageNumber(1) && items[|items| - 1] == PageNumber(total)
            && items[1 + a..1 + a + |run|] == run
            && (forall i :: 0 <= i < |items| && items[i].PageNumber? ==>
                  (i == 0 && items[i].n == 1)
                  || (1 + a <= i < 1 + a + |run| && items[i].n == lo + (i - 1 - a))
                  || (i == |items| - 1 && items[i].n == total))
  {
    var items := PageNumbers(current, total);
    var run := Run(Max(2, current - 1), Min(total - 1, current + 1));
    var e1: seq<PageItem> := if current > 3 then [Ellipsis] else [];
    var e2: seq<PageItem> := if current < total - 2 then [Ellipsis] else [];
    assert items == [PageNumber(1)] + e1 + run + e2 + [PageNumber(total)];
  }

  /** A long row is well formed. */
  lemma ManyPagesRow(current: int, total: int)
    requires total > MaxVisible && 1 <= current <= total
    ensures WellFormedRow(PageNumbers(current, total), current, total)
  {
    var items := PageNumbers(current, total);
    ManyPagesNumbers(current, total);
    ManyPagesIncreasing(current, total);
    ManyPagesListCurrent(current, total);
    IncreasingHasOneActive(items, current);
  }

  lemma ManyPagesIncreasing(current: int, total: int)
    requires total > MaxVisible && 1 <= current <= total
    ensures StrictlyIncreasing(PageNumbers(current, total))
  {
    ManyPagesNumbers(current, total);
  }

  lemma ManyPagesListCurrent(current: int, total: int)
    requires total > MaxVisible && 1 <= current <= total
    ensures exists i :: 0 <= i < |PageNumbers(current, total)| && IsActive(PageNumbers(current, total)[i], current)
  {
    var items := PageNumbers(current, total);
    var a := if current > 3 then 1 else 0;
    var lo := Max(2, current - 1);
    var hi := Min(total - 1, current + 1);
    ManyPagesNumbers(current, total);
    if current == 1 {
      assert IsActive(items[0], current);
    } else if current == total {
      assert IsActive(items[|items| - 1], current);
    } else {
      assert items[1 + a + (current - lo)] == Run(lo, hi)[current - lo];
      assert IsActive(items[1 + a + (current - lo)], current);
    }
  }

  /** In a row with rising numbers, at most one button carries the current page. */
  lemma IncreasingHasOneActive(items: seq<PageItem>, current: int)
    requires StrictlyIncreasing(items)
    ensures forall i, j ::
              (0 <= i < |items| && 0 <= j < |items| && IsActive(items[i], current)
               && IsActive(items[j], current)) ==> i == j
  {
  }

  /** The previous and next buttons: the page each asks for, and whether it is disabled. */
  datatype NavButton = NavButton(target: int, disabled: bool)

  function PrevButton(current: int, hasPrevPage: bool): (b: NavButton)
    ensures b.target == current - 1 && (b.disabled <==> !hasPrevPage)
  {
    NavButton(current - 1, !hasPrevPage)
  }

  function NextButton(current: int, hasNextPage: bool): (b: NavButton)
    ensures b.target == current + 1 && (b.disabled <==> !hasNextPage)
  {
    NavButton(current + 1, !hasNextPage)
  }

  /**
   * Fed with the listing's `pagination` block, an enabled previous
   * button never asks for a page before the first, and an enabled next
   * button never asks for a page past the last.
   */
  lemma NavigationStaysInRange(pageQuery: Option<int>, limitQuery: Option<int>,
                               total: nat)
    ensures var m := DropsController.ListingMeta(pageQuery, limitQuery, total);
            !PrevButton(m.page, m.hasPrevPage).disabled ==> PrevButton(m.page, m.hasPrevPage).target >= 1
    ensures var m := DropsController.ListingMeta(pageQuery, limitQuery, total);
            m.limit > 0 && !NextButton(m.page, m.hasNextPage).disabled ==>
              NextButton(m.page, m.hasNextPage).target <= m.totalPages
  {
    var m := DropsController.ListingMeta(pageQuery, limitQuery, total);
    if m.limit > 0 && m.hasNextPage {
      assert m.page * m.limit < total <= m.totalPages * m.limit;
      assert m.page >= m.totalPages ==> m.page * m.limit >= m.totalPages * m.limit;
    }
  }
}

=== FILE: priority_score.dfy ===
/**
 * `calculatePriorityScore`: a base of 1000, plus the join latency and
 * the account age in days each reduced by JavaScript's remainder, minus
 * the number of joins and claims of the last five minutes reduced the
 * same way. The coefficients A, B and C come from the seed.
 */
module PriorityScore {
  import opened Wrappers
  import opened Records
  import opened JsNumbers
  import opened SeedGenerator
  import DropHelpers
  import Hex

  const Base: int := 1000
  const MsPerDay: int := 1000 * 60 * 60 * 24
  /** The spam window: actions of the last five minutes are counted. */
  const RapidWindowMs: int := 5 * 60 * 1000

  /** Waitlist entries of `userId` created at or after `since`. */
  function RecentJoins(es: seq<WaitlistEntry>, userId: Id, since: int): nat
  {
    if |es| == 0 then 0
    else RecentJoins(es[..|es| - 1], userId, since)
         + (if es[|es| - 1].userId == userId && es[|es| - 1].createdAt >= since then 1 else 0)
  }

  /** Claim codes of `userId` created at or after `since`. */
  function RecentClaims(codes: seq<ClaimCode>, userId: Id, since: int): nat
  {
    if |codes| == 0 then 0
    else RecentClaims(codes[..|codes| - 1], userId, since)
         + (if codes[|codes| - 1].userId == userId && codes[|codes| - 1].createdAt >= since then 1 else 0)
  }

  /** Indices below `n` of the user's entries created at or after `since`. */
  ghost function JoinRowsBelow(es: seq<WaitlistEntry>, userId: Id, since: int, n: nat): set<int>
    requires n <= |es|
  {
    set i | 0 <= i < n && es[i].userId == userId && es[i].createdAt >= since
  }

  /** `waitlistEntry.count`: the number of stored rows that match, whatever their drop. */
  lemma RecentJoinsCountsRows(es: seq<WaitlistEntry>, userId: Id, since: int)
    ensures RecentJoins(es, userId, since)
            == |set i | 0 <= i < |es| && es[i].userId == userId && es[i].createdAt >= since|
  {
    JoinRowsBelowCount(es, userId, since, |es|);
    assert es[..|es|] == es;
  }

  lemma {:induction false} JoinRowsBelowCount(es: seq<WaitlistEntry>, userId: Id, since: int, n: nat)
    requires n <= |es|
    ensures |JoinRowsBelow(es, userId, since, n)| == RecentJoins(es[..n], userId, since)
  {
    if n == 0 {
      assert JoinRowsBelow(es, userId, since, 0) == {};
    } else {
      JoinRowsBelowCount(es, userId, since, n - 1);
      assert es[..n][..n - 1] == es[..n - 1];
      var below, before := JoinRowsBelow(es, userId, since, n), JoinRowsBelow(es, userId, since, n - 1);
      assert forall i :: i in below <==> i in before || (i == n - 1 && n - 1 in below);
      if n - 1 in below {
        assert below == before + {n - 1};
      } else {
        assert below == before;
      }
    }
  }

  /** Indices below `n` of the user's codes created at or after `since`. */
  ghost function ClaimRowsBelow(codes: seq<ClaimCode>, userId: Id, since: int, n: nat): set<int>
    requires n <= |codes|
  {
    set i | 0 <= i < n && codes[i].userId == userId && codes[i].createdAt >= since
  }

  /** `claimCode.count`: the number of stored rows that match, whatever their drop. */
  lemma RecentClaimsCountsRows(codes: seq<ClaimCode>, userId: Id, since: int)
    ensures RecentClaims(codes, userId, since)
            == |set i | 0 <= i < |codes| && codes[i].userId == userId && codes[i].createdAt >= since|
  {
    ClaimRowsBelowCount(codes, userId, since, |codes|);
    assert codes[..|codes|] == codes;
  }

  lemma {:induction false} ClaimRowsBelowCount(codes: seq<ClaimCode>, userId: Id, since: int, n: nat)
    requires n <= |codes|
    ensures |ClaimRowsBelow(codes, userId, since, n)| == RecentClaims(codes[..n], userId, since)
  {
    if n == 0 {
      assert ClaimRowsBelow(codes, userId, since, 0) == {};
    } else {
      ClaimRowsBelowCount(codes, userId, since, n - 1);
      assert codes[..n][..n - 1] == codes[..n - 1];
      var below, before := ClaimRowsBelow(codes, userId, since, n), ClaimRowsBelow(codes, userId, since, n - 1);
      assert forall i :: i in below <==> i in before || (i == n - 1 && n - 1 in below);
      if n - 1 in below {
        assert below == before + {n - 1};
      } else {
        assert below == before;
      }
    }
  }

  /** `Math.floor(accountAgeMs / 86400000)`: whole days, rounded down also for negative ages. */
  function AccountAgeDays(accountAgeMs: int): (days: int)
    ensures days * MsPerDay <= accountAgeMs < (days + 1) * MsPerDay
    ensures accountAgeMs >= 0 ==> days >= 0
    ensures accountAgeMs < 0 ==> days < 0
  {
    accountAgeMs / MsPerDay
  }

  /** The score formula on its three measured inputs. */
  function Score(k: Coefficients, signupLatencyMs: int, accountAgeDays: int, rapidActions: nat): (s: int)
    requires k.Positive()
    ensures Base - (k.a - 1) - (k.b - 1) - (k.c - 1) <= s <= Base + (k.a - 1) + (k.b - 1)
    ensures signupLatencyMs >= 0 && accountAgeDays >= 0 ==> s >= Base - (k.c - 1)
  {
    Base + JsRem(signupLatencyMs, k.a) + JsRem(accountAgeDays, k.b) - JsRem(rapidActions, k.c)
  }

  /**
   * The penalty repeats every C actions: C more actions in the window
   * cost nothing more, and a multiple of C costs nothing at all.
   */
  lemma RapidPenaltyIsPeriodic(k: Coefficients, latency: int, days: int, rapid: nat)
    requires k.Positive()
    ensures Score(k, latency, days, rapid + k.c) == Score(k, latency, days, rapid)
    ensures rapid % k.c == 0 ==> Score(k, latency, days, rapid) == Score(k, latency, days, 0)
  {
    JsRemPeriodic(rapid, k.c);
  }

  /**
   * The latency term is not a reward for joining early: within one cycle
   * of A milliseconds a later join scores higher, and a whole cycle later
   * scores the same.
   */
  lemma LatencyTermIsCyclic(k: Coefficients, days: int, rapid: nat)
    requires k.Positive() && k.a >= 2
    ensures Score(k, 0, days, rapid) < Score(k, 1, days, rapid)
    ensures Score(k, k.a, days, rapid) == Score(k, 0, days, rapid)
  {
    JsRemOfNonNegative(0, k.a);
    JsRemOfNonNegative(1, k.a);
    JsRemOfNonNegative(k.a, k.a);
  }

  /**
   * `calculatePriorityScore(userId, dropId, joinTime)`: fails with
   * "User not found" first, then "Drop not found"; otherwise scores the
   * join from the store as it stands before the new entry is written.
   */
  function CalculatePriorityScore(st: Store, k: Coefficients, userId: Id, dropId: Id, joinTime: int)
    : (r: Result<int, Failure>)
    requires k.Positive()
    ensures userId !in st.users ==> r == Err(UserNotFound)
    ensures userId in st.users && !DropHelpers.HasDrop(st.drops, dropId) ==> r == Err(DropNotFound)
    ensures r.Ok? <==> userId in st.users && DropHelpers.HasDrop(st.drops, dropId)
    ensures r.Ok? ==> Base - (k.a - 1) - (k.b - 1) - (k.c - 1) <= r.value <= Base + (k.a - 1) + (k.b - 1)
    ensures r.Ok? ==>
              var drop := DropHelpers.FindDropById(st.drops, dropId).value;
              r.value == Score(k, joinTime - drop.createdAt,
                               AccountAgeDays(joinTime - st.users[userId].createdAt),
                               RecentJoins(st.entries, userId, joinTime - RapidWindowMs)
                               + RecentClaims(st.codes, userId, joinTime - RapidWindowMs))
  {
    if userId !in st.users then Err(UserNotFound)
    else
      match DropHelpers.FindDropById(st.drops, dropId)
      case Err(_) => Err(DropNotFound)
      case Ok(drop) =>
        var user := st.users[userId];
        var since := joinTime - RapidWindowMs;
        var rapid := RecentJoins(st.entries, userId, since) + RecentClaims(st.codes, userId, since);
        Ok(Score(k, joinTime - drop.createdAt, AccountAgeDays(joinTime - user.createdAt), rapid))
  }

  /** With the coefficients the seed can produce, every score lies in 968..1028. */
  lemma ScoreRangeForSeedCoefficients(st: Store, seed: string, userId: Id, dropId: Id, joinTime: int)
    requires |seed| >= 6 && Hex.IsHexString(seed[..6])
    ensures var r := CalculatePriorityScore(st, CalculateCoefficients(seed), userId, dropId, joinTime);
            r.Ok? ==> 968 <= r.value <= 1028
  {
  }
}

=== FILE: ranking.dfy ===
/**
 * Waitlist ranking. `recalculateWaitlistPositions` reads a drop's entries
 * ordered by priority score (descending) then creation time (ascending)
 * and writes positions 1..N in that order. The model computes the same
 * positions by counting: an entry's position is one more than the number
 * of entries of its drop that rank ahead of it. Entries whose score and
 * creation time are both equal are ordered by storage order, which is one
 * of the orders the database may return for such ties.
 */
module Ranking {
  import opened Records
  import SetCounting

  /** `a` ranks strictly ahead of `b` by key: higher score, then earlier creation. */
  predicate KeyAhead(a: WaitlistEntry, b: WaitlistEntry)
  {
    a.priorityScore > b.priorityScore ||
    (a.priorityScore == b.priorityScore && a.createdAt < b.createdAt)
  }

  predicate SameKey(a: WaitlistEntry, b: WaitlistEntry)
  {
    a.priorityScore == b.priorityScore && a.createdAt == b.createdAt
  }

  /** Entry `j` ranks ahead of entry `i`: a better key, or the same key and stored earlier. */
  predicate Ahead(es: seq<WaitlistEntry>, j: int, i: int)
    requires 0 <= j < |es| && 0 <= i < |es|
  {
    KeyAhead(es[j], es[i]) || (SameKey(es[j], es[i]) && j < i)
  }

  /** N: the number of entries of drop `d`. */
  function Size(es: seq<WaitlistEntry>, d: Id): nat
  {
    if |es| == 0 then 0
    else Size(es[..|es| - 1], d) + (if es[|es| - 1].dropId == d then 1 else 0)
  }

  /** The number of entries of drop `d` among the first `n` that rank ahead of entry `i`. */
  function AheadCount(es: seq<WaitlistEntry>, d: Id, i: int, n: nat): nat
    requires 0 <= i < |es| && n <= |es|
  {
    if n == 0 then 0
    else AheadCount(es, d, i, n - 1) + (if es[n - 1].dropId == d && Ahead(es, n - 1, i) then 1 else 0)
  }

  /** The position recalculation gives entry `i` within drop `d`. */
  function RankOf(es: seq<WaitlistEntry>, d: Id, i: int): nat
    requires 0 <= i < |es|
  {
    1 + AheadCount(es, d, i, |es|)
  }

  /** `recalculateWaitlistPositions(d)`: rewrite the positions of drop `d`'s entries. */
  function Recalculate(es: seq<WaitlistEntry>, d: Id): (r: seq<WaitlistEntry>)
    ensures |r| == |es|
    ensures forall i :: 0 <= i < |es| ==> r[i].(position := es[i].position) == es[i]
    ensures forall i :: 0 <= i < |es| && es[i].dropId != d ==> r[i] == es[i]
  {
    seq(|es|, i requires 0 <= i < |es| =>
      if es[i].dropId == d then es[i].(position := RankOf(es, d, i)) else es[i])
  }

  /** Positions of drop `d` are 1..N, each used once. */
  ghost predicate Dense(es: seq<WaitlistEntry>, d: Id)
  {
    && (forall i :: 0 <= i < |es| && es[i].dropId == d ==> 1 <= es[i].position <= Size(es, d))
    && (forall i, j :: 0 <= i < |es| && 0 <= j < |es| && i != j && es[i].dropId == d && es[j].dropId == d
          ==> es[i].position != es[j].position)
  }

  /** A better key always means a smaller position within drop `d`. */
  ghost predicate Ordered(es: seq<WaitlistEntry>, d: Id)
  {
    forall i, j :: 0 <= i < |es| && 0 <= j < |es| && es[i].dropId == d && es[j].dropId == d && KeyAhead(es[i], es[j])
      ==> es[i].position < es[j].position
  }

  /** Every position of drop `d` is the one recalculation would write. */
  ghost predicate Canonical(es: seq<WaitlistEntry>, d: Id)
  {
    forall i :: 0 <= i < |es| && es[i].dropId == d ==> es[i].position == RankOf(es, d, i)
  }

  /** No two entries of drop `d` share both score and creation time. */
  ghost predicate DistinctKeys(es: seq<WaitlistEntry>, d: Id)
  {
    forall i, j :: 0 <= i < |es| && 0 <= j < |es| && i != j && es[i].dropId == d && es[j].dropId == d
      ==> !SameKey(es[i], es[j])
  }

  /** Two tables that agree on everything ranking reads: drop ids and keys, index by index. */
  ghost predicate SameRankingData(a: seq<WaitlistEntry>, b: seq<WaitlistEntry>)
  {
    |a| == |b| &&
    forall i :: 0 <= i < |a| ==> a[i].dropId == b[i].dropId && SameKey(a[i], b[i])
  }

  // ---------------------------------------------------------------------
  // The ranking relation is a strict total order on a drop's entries.

  lemma AheadIsStrictTotal(es: seq<WaitlistEntry>, i: int, j: int, k: int)
    requires 0 <= i < |es| && 0 <= j < |es| && 0 <= k < |es|
    ensures !Ahead(es, i, i)
    ensures i != j ==> Ahead(es, i, j) || Ahead(es, j, i)
    ensures Ahead(es, i, j) ==> !Ahead(es, j, i)
    ensures Ahead(es, i, j) && Ahead(es, j, k) ==> Ahead(es, i, k)
  {
  }

  // ---------------------------------------------------------------------
  // Counting.

  lemma SizeOfPrefixStep(es: seq<WaitlistEntry>, d: Id, n: nat)
    requires 0 < n <= |es|
    ensures Size(es[..n], d) == Size(es[..n - 1], d) + (if es[n - 1].dropId == d then 1 else 0)
  {
    assert es[..n][..n - 1] == es[..n - 1];
  }

  lemma {:induction false} SizeOfConcat(a: seq<WaitlistEntry>, b: seq<WaitlistEntry>, d: Id)
    ensures Size(a + b, d) == Size(a, d) + Size(b, d)
    decreases |b|
  {
    if |b| == 0 {
      assert a + b == a;
    } else {
      SizeOfConcat(a, b[..|b| - 1], d);
      assert (a + b)[..|a + b| - 1] == a + b[..|b| - 1];
    }
  }

  /** Entry `i` itself is not ahead of itself, so at most N - 1 entries rank ahead of it. */
  lemma {:induction false} AheadCountBound(es: seq<WaitlistEntry>, d: Id, i: int, n: nat)
    requires 0 <= i < |es| && n <= |es| && es[i].dropId == d
    ensures AheadCount(es, d, i, n) + (if i < n then 1 else 0) <= Size(es[..n], d)
  {
    if n > 0 {
      AheadCountBound(es, d, i, n - 1);
      SizeOfPrefixStep(es, d, n);
      AheadIsStrictTotal(es, i, i, i);
    }
  }

  /** Whatever ranks ahead of `i` also ranks ahead of `j` when `i` ranks ahead of `j`, and so does `i`. */
  lemma {:induction false} AheadCountMonotone(es: seq<WaitlistEntry>, d: Id, i: int, j: int, n: nat)
    requires 0 <= i < |es| && 0 <= j < |es| && n <= |es|
    requires es[i].dropId == d && Ahead(es, i, j)
    ensures AheadCount(es, d, i, n) + (if i < n then 1 else 0) <= AheadCount(es, d, j, n)
  {
    if n > 0 {
      AheadCountMonotone(es, d, i, j, n - 1);
      AheadIsStrictTotal(es, n - 1, i, j);
      AheadIsStrictTotal(es, i, i, i);
    }
  }

  lemma RankInRange(es: seq<WaitlistEntry>, d: Id, i: int)
    requires 0 <= i < |es| && es[i].dropId == d
    ensures 1 <= RankOf(es, d, i) <= Size(es, d)
  {
    AheadCountBound(es, d, i, |es|);
    assert es[..|es|] == es;
  }

  /** Ranking ahead means a strictly smaller position. */
  lemma RankRespectsAhead(es: seq<WaitlistEntry>, d: Id, i: int, j: int)
    requires 0 <= i < |es| && 0 <= j < |es| && es[i].dropId == d
    requires Ahead(es, i, j)
    ensures RankOf(es, d, i) < RankOf(es, d, j)
  {
    AheadCountMonotone(es, d, i, j, |es|);
  }

  /** Positions are compared exactly as the ranking relation orders the entries. */
  lemma RankOrderIsAhead(es: seq<WaitlistEntry>, d: Id, i: int, j: int)
    requires 0 <= i < |es| && 0 <= j < |es| && es[i].dropId == d && es[j].dropId == d
    ensures RankOf(es, d, i) < RankOf(es, d, j) <==> Ahead(es, i, j)
    ensures i != j ==> RankOf(es, d, i) != RankOf(es, d, j)
  {
    AheadIsStrictTotal(es, i, j, j);
    if Ahead(es, i, j) {
      RankRespectsAhead(es, d, i, j);
    } else if i != j {
      RankRespectsAhead(es, d, j, i);
    }
  }

  /** Ranking reads only drop ids and keys: tables that agree on those rank alike. */
  lemma {:induction false} CountsAgree(a: seq<WaitlistEntry>, b: seq<WaitlistEntry>, d: Id, i: int, n: nat)
    requires SameRankingData(a, b)
    requires 0 <= i < |a| && n <= |a|
    ensures Size(a[..n], d) == Size(b[..n], d)
    ensures AheadCount(a, d, i, n) == AheadCount(b, d, i, n)
  {
    if n > 0 {
      CountsAgree(a, b, d, i, n - 1);
      SizeOfPrefixStep(a, d, n);
      SizeOfPrefixStep(b, d, n);
    }
  }

  lemma RanksAgree(a: seq<WaitlistEntry>, b: seq<WaitlistEntry>, d: Id)
    requires SameRankingData(a, b)
    ensures Size(a, d) == Size(b, d)
    ensures forall i :: 0 <= i < |a| ==> RankOf(a, d, i) == RankOf(b, d, i)
  {
    assert a[..|a|] == a && b[..|b|] == b;
    if |a| > 0 {
      CountsAgree(a, b, d, 0, |a|);
    } else {
      assert a == [] && b == [];
    }
    forall i | 0 <= i < |a|
      ensures RankOf(a, d, i) == RankOf(b, d, i)
    {
      CountsAgree(a, b, d, i, |a|);
    }
  }

  // ---------------------------------------------------------------------
  // What recalculation establishes.

  lemma RecalculateKeepsRankingData(es: seq<WaitlistEntry>, d: Id)
    ensures SameRankingData(es, Recalculate(es, d))
  {
  }

  /** After recalculation the drop's entries hold their recalculated ranks. */
  lemma RecalculateIsCanonical(es: seq<WaitlistEntry>, d: Id)
    ensures Canonical(Recalculate(es, d), d)
  {
    var r := Recalculate(es, d);
    RecalculateKeepsRankingData(es, d);
    RanksAgree(es, r, d);
  }

  /** Recalculation leaves the drop's positions a permutation of 1..N, in key order. */
  lemma RecalculateDenseAndOrdered(es: seq<WaitlistEntry>, d: Id)
    ensures Dense(Recalculate(es, d), d)
    ensures Ordered(Recalculate(es, d), d)
    ensures Size(Recalculate(es, d), d) == Size(es, d)
  {
    RecalculateIsCanonical(es, d);
    CanonicalIsDenseAndOrdered(Recalculate(es, d), d);
    RecalculateKeepsRankingData(es, d);
    RanksAgree(es, Recalculate(es, d), d);
  }

  /** Positions written by recalculation form 1..N with no gap, ordered by key, ties by storage order. */
  lemma CanonicalIsDenseAndOrdered(es: seq<WaitlistEntry>, d: Id)
    requires Canonical(es, d)
    ensures Dense(es, d)
    ensures Ordered(es, d)
    ensures forall i, j :: 0 <= i < j < |es| && es[i].dropId == d && es[j].dropId == d && SameKey(es[i], es[j])
              ==> es[i].position < es[j].position
  {
    forall i | 0 <= i < |es| && es[i].dropId == d
      ensures 1 <= es[i].position <= Size(es, d)
    {
      RankInRange(es, d, i);
    }
    forall i, j | 0 <= i < |es| && 0 <= j < |es| && es[i].dropId == d && es[j].dropId == d
      ensures i != j ==> es[i].position != es[j].position
      ensures KeyAhead(es[i], es[j]) ==> es[i].position < es[j].position
      ensures i < j && SameKey(es[i], es[j]) ==> es[i].position < es[j].position
    {
      RankOrderIsAhead(es, d, i, j);
    }
  }

  /** Recalculating twice changes nothing the first run did not. */
  lemma RecalculateIdempotent(es: seq<WaitlistEntry>, d: Id)
    ensures Recalculate(Recalculate(es, d), d) == Recalculate(es, d)
  {
    var r := Recalculate(es, d);
    RecalculateKeepsRankingData(es, d);
    RanksAgree(es, r, d);
  }

  /** A canonical table is a fixed point of recalculation. */
  lemma CanonicalIsFixedPoint(es: seq<WaitlistEntry>, d: Id)
    requires Canonical(es, d)
    ensures Recalculate(es, d) == es
  {
  }

  // ---------------------------------------------------------------------
  // Density means every position 1..N is taken.

  ghost function MembersBelow(es: seq<WaitlistEntry>, d: Id, n: nat): set<int>
    requires n <= |es|
  {
    set i | 0 <= i < n && es[i].dropId == d
  }

  lemma {:induction false} MembersBelowSize(es: seq<WaitlistEntry>, d: Id, n: nat)
    requires n <= |es|
    ensures |MembersBelow(es, d, n)| == Size(es[..n], d)
  {
    if n == 0 {
      assert MembersBelow(es, d, 0) == {};
    } else {
      MembersBelowSize(es, d, n - 1);
      SizeOfPrefixStep(es, d, n);
      var below, before := MembersBelow(es, d, n), MembersBelow(es, d, n - 1);
      assert forall i :: i in below <==> i in before || (i == n - 1 && n - 1 in below);
      if n - 1 in below {
        assert below == before + {n - 1};
      } else {
        assert below == before;
      }
    }
  }

  ghost function PositionAt(es: seq<WaitlistEntry>): int -> int
  {
    i => if 0 <= i < |es| then es[i].position else 0
  }

  /** A dense drop occupies every position from 1 to N. */
  lemma DenseIsOnto(es: seq<WaitlistEntry>, d: Id, p: int)
    requires Dense(es, d)
    requires 1 <= p <= Size(es, d)
    ensures exists i :: 0 <= i < |es| && es[i].dropId == d && es[i].position == p
  {
    var members := MembersBelow(es, d, |es|);
    var f := PositionAt(es);
    var range := SetCounting.Interval(1, Size(es, d) + 1);
    DensePositionsFitRange(es, d);
    MembersBelowSize(es, d, |es|);
    assert es[..|es|] == es;
    SetCounting.InjectiveImageSize(members, f);
    SetCounting.IntervalSize(1, Size(es, d) + 1);
    SetCounting.SubsetOfSameSize(SetCounting.Image(members, f), range);
    assert p in SetCounting.Image(members, f);
    var i :| i in members && f(i) == p;
    assert es[i].dropId == d && es[i].position == p;
  }

  /** The positions of a dense drop are distinct and lie in 1..N. */
  lemma DensePositionsFitRange(es: seq<WaitlistEntry>, d: Id)
    requires Dense(es, d)
    ensures SetCounting.InjectiveOn(MembersBelow(es, d, |es|), PositionAt(es))
    ensures SetCounting.Image(MembersBelow(es, d, |es|), PositionAt(es)) <= SetCounting.Interval(1, Size(es, d) + 1)
  {
  }

  /** Counting entries ahead of `i` is counting a set of indices. */
  lemma {:induction false} AheadCountIsCardinality(es: seq<WaitlistEntry>, d: Id, i: int, n: nat)
    requires 0 <= i < |es| && n <= |es|
    ensures AheadCount(es, d, i, n) == |set j | 0 <= j < n && es[j].dropId == d && Ahead(es, j, i)|
  {
    var s := set j | 0 <= j < n && es[j].dropId == d && Ahead(es, j, i);
    if n == 0 {
      assert s == {};
    } else {
      AheadCountIsCardinality(es, d, i, n - 1);
      var s' := set j | 0 <= j < n - 1 && es[j].dropId == d && Ahead(es, j, i);
      if es[n - 1].dropId == d && Ahead(es, n - 1, i) {
        assert s == s' + {n - 1};
      } else {
        assert s == s';
      }
    }
  }

  /**
   * With distinct keys a dense, ordered drop has exactly the positions
   * recalculation would write: rerunning it changes nothing, whatever
   * order the database returns ties in.
   */
  lemma DenseOrderedIsCanonical(es: seq<WaitlistEntry>, d: Id)
    requires Dense(es, d) && Ordered(es, d) && DistinctKeys(es, d)
    ensures Canonical(es, d)
    ensures Recalculate(es, d) == es
  {
    forall i | 0 <= i < |es| && es[i].dropId == d
      ensures es[i].position == RankOf(es, d, i)
    {
      PositionIsRank(es, d, i);
    }
  }

  lemma PositionIsRank(es: seq<WaitlistEntry>, d: Id, i: int)
    requires Dense(es, d) && Ordered(es, d) && DistinctKeys(es, d)
    requires 0 <= i < |es| && es[i].dropId == d
    ensures es[i].position == RankOf(es, d, i)
  {
    AheadCountIsCardinality(es, d, i, |es|);
    AheadAreLower(es, d, i);
    LowerCount(es, d, i);
  }

  /** With distinct keys in key order, the entries ahead are exactly those on lower positions. */
  lemma AheadAreLower(es: seq<WaitlistEntry>, d: Id, i: int)
    requires Ordered(es, d) && DistinctKeys(es, d)
    requires 0 <= i < |es| && es[i].dropId == d
    ensures (set j | 0 <= j < |es| && es[j].dropId == d && Ahead(es, j, i))
            == (set j | 0 <= j < |es| && es[j].dropId == d && es[j].position < es[i].position)
  {
    forall j | 0 <= j < |es| && es[j].dropId == d
      ensures Ahead(es, j, i) <==> es[j].position < es[i].position
    {
      AheadIsStrictTotal(es, i, j, j);
    }
  }

  /** In a dense drop, exactly `p - 1` entries sit below position `p`. */
  lemma LowerCount(es: seq<WaitlistEntry>, d: Id, i: int)
    requires Dense(es, d)
    requires 0 <= i < |es| && es[i].dropId == d
    ensures |set j | 0 <= j < |es| && es[j].dropId == d && es[j].position < es[i].position| == es[i].position - 1
  {
    var lower := set j | 0 <= j < |es| && es[j].dropId == d && es[j].position < es[i].position;
    assert SetCounting.InjectiveOn(lower, PositionAt(es));
    SetCounting.InjectiveImageSize(lower, PositionAt(es));
    LowerImage(es, d, i);
    SetCounting.IntervalSize(1, es[i].position);
  }

  /** The positions below `p` in a dense drop are exactly 1..p - 1. */
  lemma LowerImage(es: seq<WaitlistEntry>, d: Id, i: int)
    requires Dense(es, d)
    requires 0 <= i < |es| && es[i].dropId == d
    ensures SetCounting.Image((set j | 0 <= j < |es| && es[j].dropId == d && es[j].position < es[i].position),
                              PositionAt(es))
            == SetCounting.Interval(1, es[i].position)
  {
    var p := es[i].position;
    var lower := set j | 0 <= j < |es| && es[j].dropId == d && es[j].position < p;
    var f := PositionAt(es);
    var image := SetCounting.Image(lower, f);
    var range := SetCounting.Interval(1, p);
    forall q | q in range
      ensures q in image
    {
      DenseIsOnto(es, d, q);
      var j :| 0 <= j < |es| && es[j].dropId == d && es[j].position == q;
      assert j in lower && f(j) == q;
    }
    assert image <= range;
  }


  // ---------------------------------------------------------------------
  // Tables that extend or frame one another.

  /** Counting over a prefix sees only that prefix and the entry being ranked. */
  lemma {:induction false} AheadCountPrefix(a: seq<WaitlistEntry>, b: seq<WaitlistEntry>, x: Id, i: int, n: nat)
    requires n <= |a| && n <= |b| && a[..n] == b[..n]
    requires 0 <= i < |a| && i < |b| && a[i] == b[i]
    ensures AheadCount(a, x, i, n) == AheadCount(b, x, i, n)
  {
    if n > 0 {
      assert a[..n - 1] == a[..n][..n - 1] == b[..n][..n - 1] == b[..n - 1];
      AheadCountPrefix(a, b, x, i, n - 1);
      assert a[n - 1] == a[..n][n - 1] == b[..n][n - 1] == b[n - 1];
    }
  }

  /** Appending an entry of another drop leaves the ranks of drop `x` as they were. */
  lemma AppendKeepsCanonical(es: seq<WaitlistEntry>, e: WaitlistEntry, x: Id)
    requires e.dropId != x && Canonical(es, x)
    ensures Canonical(es + [e], x)
  {
    var es' := es + [e];
    forall i | 0 <= i < |es| && es[i].dropId == x
      ensures es'[i].position == RankOf(es', x, i)
    {
      assert es'[..|es|] == es[..|es|];
      AheadCountPrefix(es', es, x, i, |es|);
    }
  }

  /** Recalculating drop `d` keeps every other drop's positions canonical. */
  lemma RecalculateFramesOtherDrops(es: seq<WaitlistEntry>, d: Id, x: Id)
    requires x != d && Canonical(es, x)
    ensures Canonical(Recalculate(es, d), x)
  {
    RecalculateKeepsRankingData(es, d);
    RanksAgree(es, Recalculate(es, d), x);
  }

  // ---------------------------------------------------------------------
  // The leave path: delete one entry, then move up everyone behind it.

  /** The index in the original table of index `i` after removing index `k`. */
  function Origin(k: int, i: int): int
  {
    if i < k then i else i + 1
  }

  function RemoveAt(es: seq<WaitlistEntry>, k: int): (r: seq<WaitlistEntry>)
    requires 0 <= k < |es|
    ensures |r| == |es| - 1
    ensures forall i :: 0 <= i < |r| ==> r[i] == es[Origin(k, i)]
  {
    es[..k] + es[k + 1..]
  }

  /** The raw `UPDATE … SET position = position - 1 WHERE dropId = d AND position > p`. */
  function ShiftDown(es: seq<WaitlistEntry>, d: Id, p: int): (r: seq<WaitlistEntry>)
    ensures |r| == |es|
    ensures SameRankingData(es, r)
    ensures forall i :: 0 <= i < |es| && es[i].dropId == d && es[i].position > p
              ==> r[i] == es[i].(position := es[i].position - 1)
    ensures forall i :: 0 <= i < |es| && !(es[i].dropId == d && es[i].position > p) ==> r[i] == es[i]
  {
    seq(|es|, i requires 0 <= i < |es| =>
      if es[i].dropId == d && es[i].position > p then es[i].(position := es[i].position - 1) else es[i])
  }

  /** `leaveWaitlist`'s table update for the entry at index `k`. */
  function LeaveAt(es: seq<WaitlistEntry>, k: int): (r: seq<WaitlistEntry>)
    requires 0 <= k < |es|
    ensures |r| == |es| - 1
    ensures forall i :: 0 <= i < |r| ==>
              var e := es[Origin(k, i)];
              r[i] == if e.dropId == es[k].dropId && e.position > es[k].position
                      then e.(position := e.position - 1) else e
  {
    ShiftDown(RemoveAt(es, k), es[k].dropId, es[k].position)
  }

  lemma RemovalSize(es: seq<WaitlistEntry>, k: int, x: Id)
    requires 0 <= k < |es|
    ensures Size(RemoveAt(es, k), x) + (if es[k].dropId == x then 1 else 0) == Size(es, x)
  {
    assert es == es[..k] + [es[k]] + es[k + 1..];
    SizeOfConcat(es[..k] + [es[k]], es[k + 1..], x);
    SizeOfConcat(es[..k], [es[k]], x);
    SizeOfConcat(es[..k], es[k + 1..], x);
    assert [es[k]][..0] == [];
  }

  /** Removing entry `k` takes exactly entry `k` out of the count of those ahead. */
  lemma {:induction false} RemovalAheadCount(es: seq<WaitlistEntry>, k: int, x: Id, i: int, n: nat)
    requires 0 <= k < |es| && 0 <= i < |es| - 1 && n <= |es| - 1
    ensures AheadCount(RemoveAt(es, k), x, i, n)
              + (if n > k && es[k].dropId == x && Ahead(es, k, Origin(k, i)) then 1 else 0)
            == AheadCount(es, x, Origin(k, i), if n <= k then n else n + 1)
  {
    var r := RemoveAt(es, k);
    var o := Origin(k, i);
    if n > 0 {
      RemovalAheadCount(es, k, x, i, n - 1);
      var j := Origin(k, n - 1);
      assert r[n - 1] == es[j] && r[i] == es[o];
      assert Ahead(r, n - 1, i) <==> Ahead(es, j, o);
    }
  }

  /** Removing entry `k` moves every later entry of its drop up by one rank, and nothing else. */
  lemma RemovalRanks(es: seq<WaitlistEntry>, k: int, x: Id, i: int)
    requires 0 <= k < |es| && 0 <= i < |es| - 1
    ensures RankOf(RemoveAt(es, k), x, i)
              + (if es[k].dropId == x && Ahead(es, k, Origin(k, i)) then 1 else 0)
            == RankOf(es, x, Origin(k, i))
  {
    RemovalAheadCount(es, k, x, i, |es| - 1);
  }

  /**
   * The leave path agrees with recalculation: when positions were what
   * recalculation writes, the shift leaves them what recalculation would
   * write for the smaller table, for the drop left and for every other.
   */
  lemma LeaveKeepsCanonical(es: seq<WaitlistEntry>, k: int, x: Id)
    requires 0 <= k < |es| && Canonical(es, x)
    ensures Canonical(LeaveAt(es, k), x)
  {
    var d := es[k].dropId;
    var r := RemoveAt(es, k);
    var l := LeaveAt(es, k);
    RanksAgree(r, l, x);
    forall i | 0 <= i < |l| && l[i].dropId == x
      ensures l[i].position == RankOf(l, x, i)
    {
      var o := Origin(k, i);
      RemovalRanks(es, k, x, i);
      if x == d {
        RankOrderIsAhead(es, d, k, o);
      }
    }
  }

  /** Entry `i` after leave: the entry it came from, moved up by one when it was behind the leaver. */
  lemma LeaveEntry(es: seq<WaitlistEntry>, k: int, i: int)
    requires 0 <= k < |es| && 0 <= i < |es| - 1
    ensures Origin(k, i) != k && 0 <= Origin(k, i) < |es|
    ensures LeaveAt(es, k)[i].dropId == es[Origin(k, i)].dropId
    ensures LeaveAt(es, k)[i].position ==
              if es[Origin(k, i)].dropId == es[k].dropId && es[Origin(k, i)].position > es[k].position
              then es[Origin(k, i)].position - 1 else es[Origin(k, i)].position
  {
  }

  /** The shift alone keeps a dense drop dense: N - 1 entries on positions 1..N - 1. */
  lemma LeaveKeepsDense(es: seq<WaitlistEntry>, k: int)
    requires 0 <= k < |es| && Dense(es, es[k].dropId)
    ensures Size(LeaveAt(es, k), es[k].dropId) == Size(es, es[k].dropId) - 1
    ensures Dense(LeaveAt(es, k), es[k].dropId)
  {
    var d := es[k].dropId;
    var l := LeaveAt(es, k);
    var n := Size(es, d);
    RemovalSize(es, k, d);
    RanksAgree(RemoveAt(es, k), l, d);
    assert Size(l, d) == n - 1;
    forall i | 0 <= i < |l| && l[i].dropId == d
      ensures 1 <= l[i].position <= n - 1
    {
      LeavePositionInRange(es, k, i);
    }
    forall i, j | 0 <= i < |l| && 0 <= j < |l| && i != j && l[i].dropId == d && l[j].dropId == d
      ensures l[i].position != l[j].position
    {
      LeavePositionsDistinct(es, k, i, j);
    }
  }

  /** After leave, an entry of the leaver's drop sits on a position in 1..N - 1. */
  lemma LeavePositionInRange(es: seq<WaitlistEntry>, k: int, i: int)
    requires 0 <= k < |es| && Dense(es, es[k].dropId)
    requires 0 <= i < |es| - 1 && LeaveAt(es, k)[i].dropId == es[k].dropId
    ensures 1 <= LeaveAt(es, k)[i].position <= Size(es, es[k].dropId) - 1
  {
    LeaveEntry(es, k, i);
    DenseAt(es, es[k].dropId, k, Origin(k, i));
  }

  /** After leave, two entries of the leaver's drop still sit on different positions. */
  lemma LeavePositionsDistinct(es: seq<WaitlistEntry>, k: int, i: int, j: int)
    requires 0 <= k < |es| && Dense(es, es[k].dropId)
    requires 0 <= i < |es| - 1 && 0 <= j < |es| - 1 && i != j
    requires LeaveAt(es, k)[i].dropId == es[k].dropId && LeaveAt(es, k)[j].dropId == es[k].dropId
    ensures LeaveAt(es, k)[i].position != LeaveAt(es, k)[j].position
  {
    var d := es[k].dropId;
    LeaveEntry(es, k, i);
    LeaveEntry(es, k, j);
    DenseAt(es, d, k, Origin(k, i));
    DenseAt(es, d, k, Origin(k, j));
    DenseAt(es, d, Origin(k, i), Origin(k, j));
  }

  /** Two distinct entries of a dense drop: both in range, on different positions. */
  lemma DenseAt(es: seq<WaitlistEntry>, d: Id, i: int, j: int)
    requires Dense(es, d)
    requires 0 <= i < |es| && 0 <= j < |es| && es[i].dropId == d && es[j].dropId == d
    ensures 1 <= es[i].position <= Size(es, d) && 1 <= es[j].position <= Size(es, d)
    ensures i != j ==> es[i].position != es[j].position
  {
  }

  /** The shift alone keeps the drop's positions in key order. */
  lemma LeaveKeepsOrdered(es: seq<WaitlistEntry>, k: int)
    requires 0 <= k < |es| && Dense(es, es[k].dropId) && Ordered(es, es[k].dropId)
    ensures Ordered(LeaveAt(es, k), es[k].dropId)
  {
    var l := LeaveAt(es, k);
    forall i, j | 0 <= i < |l| && 0 <= j < |l| && l[i].dropId == es[k].dropId && l[j].dropId == es[k].dropId
                  && KeyAhead(l[i], l[j])
      ensures l[i].position < l[j].position
    {
      assert Origin(k, i) != k && Origin(k, j) != k;
    }
  }
}

=== FILE: records.dfy ===
/**
 * The persisted entities of the drop system, as immutable values. Ids are
 * strings, timestamps are integers in milliseconds since the epoch.
 */
module Records {
  import opened Wrappers

  type Id = string

  /** A limited-stock release with its claim window. */
  datatype Drop = Drop(
    id: Id,
    title: string,
    description: Option<string>,
    stock: int,
    claimWindowStart: int,
    claimWindowEnd: int,
    createdAt: int)

  /** Only the creation time of an account matters to the allocator. */
  datatype User = User(id: Id, createdAt: int)

  /** A user's ranked registration of interest in one drop. */
  datatype WaitlistEntry = WaitlistEntry(
    userId: Id,
    dropId: Id,
    priorityScore: int,
    createdAt: int,
    position: int)

  /** The one-time redemption token issued to a user for a drop. */
  datatype ClaimCode = ClaimCode(code: string, userId: Id, dropId: Id, createdAt: int)

  /** The database tables the allocator reads and writes, in storage order. */
  datatype Store = Store(
    drops: seq<Drop>,
    users: map<Id, User>,
    entries: seq<WaitlistEntry>,
    codes: seq<ClaimCode>)

  /** The errors the allocator throws; `Message` is the text it throws them with. */
  datatype Failure =
    | Unauthorized
    | Forbidden
    | NotFound
    | ClaimWindowClosed
    | ClaimWindowNotOpen
    | NotOnWaitlist
    | HasClaimCode
    | StockExhausted
    | PositionTooHigh
    | NotYourTurn
    | UserNotFound
    | DropNotFound
  {
    function Message(): string
    {
      match this
      case Unauthorized => "UNAUTHORIZED"
      case Forbidden => "FORBIDDEN"
      case NotFound => "NOT_FOUND"
      case ClaimWindowClosed => "CLAIM_WINDOW_CLOSED"
      case ClaimWindowNotOpen => "CLAIM_WINDOW_NOT_OPEN"
      case NotOnWaitlist => "NOT_ON_WAITLIST"
      case HasClaimCode => "HAS_CLAIM_CODE"
      case StockExhausted => "STOCK_EXHAUSTED"
      case PositionTooHigh => "POSITION_TOO_HIGH"
      case NotYourTurn => "NOT_YOUR_TURN"
      case UserNotFound => "User not found"
      case DropNotFound => "Drop not found"
    }
  }
}

=== FILE: register_form.dfy ===
/**
 * The registration form's password checks: the mismatch warning shown
 * while typing, the checks made on submit before signing up, the
 * redirect after a successful signup, and when the submit button is
 * disabled.
 */
module RegisterForm {
  import opened Wrappers

  const MismatchMessage: string := "Şifreler eşleşmiyor"
  const TooShortMessage: string := "Şifre en az 6 karakter olmalıdır"
  /** The shortest password accepted on submit. */
  const MinPasswordLength: nat := 6
  const LoginPath: string := "/auth/login"

  /** The form's state that the checks touch. */
  datatype FormState = FormState(passwordError: string, isSuccess: bool)

  /** What a submit did: the state it leaves, and whether it called `signup`. */
  datatype Submitted = Submitted(state: FormState, signupCalled: bool)

  /**
   * The warning recomputed whenever either field changes: a mismatch is
   * reported only once something has been typed in the confirmation.
   */
  function LivePasswordError(password: string, confirmPassword: string): (e: string)
    ensures e != "" <==> confirmPassword != "" && password != confirmPassword
    ensures e == "" || e == MismatchMessage
  {
    if confirmPassword != "" && password != confirmPassword then MismatchMessage else ""
  }

  /**
   * `handleSubmit`: a mismatch is reported first, then a password shorter
   * than six characters; only a submit passing both calls `signup`, and
   * a signup that does not throw marks the form as done.
   */
  function Submit(st: FormState, password: string, confirmPassword: string, signupSucceeds: bool): (r: Submitted)
    ensures r.signupCalled <==> password == confirmPassword && |password| >= MinPasswordLength
    ensures password != confirmPassword ==> r.state == st.(passwordError := MismatchMessage)
    ensures password == confirmPassword && |password| < MinPasswordLength ==>
              r.state == st.(passwordError := TooShortMessage)
    ensures r.signupCalled ==> r.state.passwordError == st.passwordError
                               && r.state.isSuccess == (st.isSuccess || signupSucceeds)
  {
    if password != confirmPassword then Submitted(st.(passwordError := MismatchMessage), false)
    else if |password| < MinPasswordLength then Submitted(st.(passwordError := TooShortMessage), false)
    else if signupSucceeds then Submitted(st.(isSuccess := true), true)
    else Submitted(st, true)
  }

  /** Where the form navigates to: the login page once signup has succeeded. */
  function Redirect(st: FormState): (to: Option<string>)
    ensures to.Some? <==> st.isSuccess
    ensures to.Some? ==> to.value == LoginPath
  {
    if st.isSuccess then Some(LoginPath) else None
  }

  /** The submit button is disabled while signing up or while a password warning is shown. */
  function SubmitDisabled(isLoading: bool, passwordError: string): (disabled: bool)
    ensures !disabled <==> !isLoading && passwordError == ""
  {
    isLoading || passwordError != ""
  }

  /**
   * A fresh form is redirected exactly when the submit passed both
   * checks and signup succeeded, and then never with a password shorter
   * than six characters or different from its confirmation.
   */
  lemma RedirectOnlyAfterValidSignup(password: string, confirmPassword: string, signupSucceeds: bool)
    ensures var r := Submit(FormState("", false), password, confirmPassword, signupSucceeds);
            Redirect(r.state).Some? <==>
              password == confirmPassword && |password| >= MinPasswordLength && signupSucceeds
  {
  }

  /**
   * Whenever a confirmation has been typed, the live warning is shown
   * exactly when submitting would be refused for a mismatch.
   */
  lemma LiveWarningMatchesSubmit(st: FormState, password: string, confirmPassword: string, signupSucceeds: bool)
    requires confirmPassword != ""
    ensures LivePasswordError(password, confirmPassword) == MismatchMessage
            <==> Submit(st, password, confirmPassword, signupSucceeds).state.passwordError == MismatchMessage
                 && !Submit(st, password, confirmPassword, signupSucceeds).signupCalled
  {
  }

  /**
   * The live warning does not cover every refusal: with an empty
   * confirmation, or with matching passwords that are too short, the
   * button is enabled and the submit is still refused.
   */
  lemma EnabledButtonCanBeRefused()
    ensures var e := LivePasswordError("abcdef", "");
            !SubmitDisabled(false, e)
            && Submit(FormState(e, false), "abcdef", "", true) == Submitted(FormState(MismatchMessage, false), false)
    ensures var e := LivePasswordError("abc", "abc");
            !SubmitDisabled(false, e)
            && Submit(FormState(e, false), "abc", "abc", true) == Submitted(FormState(TooShortMessage, false), false)
  {
  }
}

=== FILE: seed_generator.dfy ===
/**
 * Derivation of the priority-score coefficients A, B and C from the
 * project seed. The seed is the first twelve characters of a SHA-256
 * hex digest; the hash itself is not modelled and arrives as a parameter.
 */
module SeedGenerator {
  import opened Hex

  /** Length of the seed kept from the digest. */
  const SeedLength: nat := 12

  datatype Coefficients = Coefficients(a: int, b: int, c: int) {
    /** Every coefficient is a usable, positive modulus. */
    predicate Positive()
    {
      a > 0 && b > 0 && c > 0
    }
  }

  datatype SeedConfig = SeedConfig(seed: string, coefficients: Coefficients)

  /** A lower-case or upper-case hexadecimal SHA-256 digest: 64 hex digits. */
  predicate IsDigest(digest: string)
  {
    |digest| == 64 && IsHexString(digest)
  }

  /** `parseInt(s, 16)` on a two-digit hexadecimal string. */
  function ParseHexPair(s: string): (v: nat)
    requires |s| == 2 && IsHexString(s)
    ensures v <= 255
    ensures v / 16 == HexDigitValue(s[0]) && v % 16 == HexDigitValue(s[1])
  {
    16 * HexDigitValue(s[0]) + HexDigitValue(s[1])
  }

  /**
   * `generateSeed()`: the first twelve digits of the SHA-256 digest of the
   * fixed text "https://github.com/bssenoz/DropSpott.git|1762355373|202511040900".
   * The digest is a parameter.
   */
  function GenerateSeed(digest: string): (seed: string)
    requires IsDigest(digest)
    ensures |seed| == SeedLength && IsHexString(seed)
    ensures seed == digest[..|seed|]
  {
    digest[..SeedLength]
  }

  /**
   * `calculateCoefficients(seed)`: each coefficient is a base plus a
   * two-digit slice of the seed reduced modulo a small range.
   */
  function CalculateCoefficients(seed: string): (k: Coefficients)
    requires |seed| >= 6 && IsHexString(seed[..6])
    ensures 7 <= k.a <= 11
    ensures 13 <= k.b <= 19
    ensures 3 <= k.c <= 5
    ensures k.Positive()
    ensures k.a == 7 + ParseHexPair(seed[0..2]) % 5
    ensures k.b == 13 + ParseHexPair(seed[2..4]) % 7
    ensures k.c == 3 + ParseHexPair(seed[4..6]) % 3
  {
    assert seed[0..2] == seed[..6][0..2];
    assert seed[2..4] == seed[..6][2..4];
    assert seed[4..6] == seed[..6][4..6];
    Coefficients(
      7 + ParseHexPair(seed[0..2]) % 5,
      13 + ParseHexPair(seed[2..4]) % 7,
      3 + ParseHexPair(seed[4..6]) % 3)
  }

  /** Only the first six seed characters influence the coefficients. */
  lemma CoefficientsDependOnPrefix(s1: string, s2: string)
    requires |s1| >= 6 && |s2| >= 6
    requires IsHexString(s1[..6])
    requires s1[..6] == s2[..6]
    ensures IsHexString(s2[..6])
    ensures CalculateCoefficients(s1) == CalculateCoefficients(s2)
  {
    assert s1[0..2] == s1[..6][0..2] == s2[..6][0..2] == s2[0..2];
    assert s1[2..4] == s1[..6][2..4] == s2[..6][2..4] == s2[2..4];
    assert s1[4..6] == s1[..6][4..6] == s2[..6][4..6] == s2[4..6];
  }

  /** `getSeedConfig()`: the seed together with the coefficients derived from it. */
  function GetSeedConfig(digest: string): (cfg: SeedConfig)
    requires IsDigest(digest)
    ensures |cfg.seed| == SeedLength
    ensures cfg.seed == digest[..SeedLength]
    ensures cfg.coefficients.Positive()
    ensures cfg.coefficients == CalculateCoefficients(cfg.seed)
  {
    var seed := GenerateSeed(digest);
    assert seed[..6] == digest[..6];
    SeedConfig(seed, CalculateCoefficients(seed))
  }
}

=== FILE: set_counting.dfy ===
/** Cardinality facts about finite sets of integers used by the ranking proofs. */
module SetCounting {

  /** The integers `lo .. hi - 1`. */
  function Interval(lo: int, hi: int): (r: set<int>)
    ensures forall x :: x in r <==> lo <= x < hi
    decreases hi - lo
  {
    if lo >= hi then {} else Interval(lo, hi - 1) + {hi - 1}
  }

  lemma {:induction false} IntervalSize(lo: int, hi: int)
    requires lo <= hi
    ensures |Interval(lo, hi)| == hi - lo
    decreases hi - lo
  {
    if lo < hi {
      IntervalSize(lo, hi - 1);
      assert Interval(lo, hi) == Interval(lo, hi - 1) + {hi - 1};
    } else {
      assert Interval(lo, hi) == {};
    }
  }

  /** Some element of a non-empty set. */
  lemma Pick(s: set<int>) returns (x: int)
    requires |s| > 0
    ensures x in s
  {
    if forall y :: y !in s {
      assert false;
    }
    x :| x in s;
  }

  ghost predicate InjectiveOn(s: set<int>, f: int -> int)
  {
    forall x, y :: x in s && y in s && f(x) == f(y) ==> x == y
  }

  ghost function Image(s: set<int>, f: int -> int): set<int>
  {
    set x | x in s :: f(x)
  }

  /** A map that is one-to-one on `s` has an image as large as `s`. */
  lemma {:induction false} InjectiveImageSize(s: set<int>, f: int -> int)
    requires InjectiveOn(s, f)
    ensures |Image(s, f)| == |s|
    decreases |s|
  {
    if |s| > 0 {
      var x := Pick(s);
      var rest := s - {x};
      InjectiveImageSize(rest, f);
      assert Image(s, f) == Image(rest, f) + {f(x)};
      assert f(x) !in Image(rest, f);
    } else {
      assert Image(s, f) == {};
    }
  }

  /** A subset as large as its superset is the whole superset. */
  lemma {:induction false} SubsetOfSameSize(a: set<int>, b: set<int>)
    requires a <= b && |a| == |b|
    ensures a == b
    decreases |b|
  {
    if |b| > 0 {
      var x := Pick(b);
      if x in a {
        SubsetOfSameSize(a - {x}, b - {x});
        assert a == (a - {x}) + {x} && b == (b - {x}) + {x};
      } else {
        SubsetSize(a, b - {x});
        assert false;
      }
    }
  }

  lemma {:induction false} SubsetSize(a: set<int>, b: set<int>)
    requires a <= b
    ensures |a| <= |b|
    decreases |b|
  {
    if |a| > 0 {
      var x := Pick(a);
      SubsetSize(a - {x}, b - {x});
    }
  }
}

=== FILE: store_requests.dfy ===
/**
 * What the frontend stores make of a request to the backend: either the
 * response body, or a failure whose text becomes the store's `error`.
 */
module StoreRequests {
  import opened Wrappers

  /** Shown when a request fails without any HTTP response. */
  const UnknownErrorMessage: string := "Bilinmeyen bir hata oluştu."

  /**
   * Why a request threw: an HTTP error response, with the `message` of
   * its body if it had one, or no response at all (a network failure or
   * a non-HTTP exception).
   */
  datatype Failure = HttpError(message: Option<string>) | NoResponse

  /** The outcome of awaiting a request. */
  datatype Reply<+T> = Answered(body: T) | Failed(failure: Failure)

  /**
   * The error text a store sets for a failed request: the server's
   * message when it is a non-empty string, the action's own fallback
   * when the response has none, and a generic text without a response.
   */
  function ErrorMessage(f: Failure, fallback: string): (m: string)
    ensures f.HttpError? && f.message.Some? && f.message.value != "" ==> m == f.message.value
    ensures f.HttpError? && (f.message.None? || f.message.value == "") ==> m == fallback
    ensures f.NoResponse? ==> m == UnknownErrorMessage
    ensures m == "" ==> fallback == ""
  {
    match f
    case HttpError(message) =>
      if message.Some? && message.value != "" then message.value else fallback
    case NoResponse => UnknownErrorMessage
  }

  /** An optional list taken as empty when the response carries none: `list || []`. */
  function ListOrEmpty<T>(list: Option<seq<T>>): (r: seq<T>)
    ensures list.Some? ==> r == list.value
    ensures list.None? ==> r == []
  {
    if list.Some? then list.value else []
  }
}

=== FILE: wrappers.dfy ===
/** Failure-carrying return types shared by every module of the model. */
module Wrappers {

  /** A value that may be absent: JavaScript's `null` / `undefined`. */
  datatype Option<+T> = None | Some(value: T)

  /** The outcome of an operation that either produces a value or throws. */
  datatype Result<+T, +E> = Ok(value: T) | Err(error: E) {
    predicate IsFailure() { Err? }

    function PropagateFailure<U>(): Result<U, E>
      requires Err?
    {
      Err(error)
    }

    function Extract(): T
      requires Ok?
    {
      value
    }
  }

  /** Success without a value, or a failure: a guard that may throw. */
  datatype Outcome<+E> = Pass | Fail(error: E) {
    predicate IsFailure() { Fail? }

    function PropagateFailure<U>(): Result<U, E>
      requires Fail?
    {
      Err(error)
    }
  }
}
